=== FILE: README.md ===
# Merge-request integration: a Dafny model of the plugin's core

This project models the behaviour of the core of the merge-request
integration plugin for IntelliJ-based IDEs. The plugin shows GitLab/GitHub
merge requests inside the IDE: their commits, changes, comment threads and
review state. The model covers the following parts and proves properties of
each.

- **Review contexts.** A review context is the per-merge-request bag of
  state (`ReviewContextImpl`): the comment and change lists and their two
  derived indices (path → comments, path → changes). It also holds the
  per-change user data, such as the revision last viewed (`HAS_VIEWED`),
  and the export and restore of that data as a review state.
- **The review context manager.** `ReviewContextManagerImpl` is a registry
  keyed by `"<provider id>:<merge request id>"`. It tracks the selected
  context and the context under code review, and a periodic sweep evicts
  contexts that are neither selected, under review, nor showing a diff.
- **Persistence of the application settings.** `ServiceBase` writes an XML
  element of providers and review states and reads it back, keeping tokens
  in the password safe. `AbstractApplicationServiceProvider` covers the
  provider configurations, the stored review states and the legality check
  on a project's host.
- **UI logic behind the panels.** This is the decision logic only, with no
  widgets: the changes tab's badges and comment counts, the gutter icons of
  the one-side diff view, and the merge-request list's search bar, ordering
  toggles and preselected filter. It also covers the commit list's check
  boxes, the comments tab, the comment-tree toolbar, the thread view, and
  the rewrite of relative image sources in rendered comment HTML.

Each Kotlin file of the core is one Dafny module. A few modules are shared:

| module | what it holds |
|---|---|
| `Basics` | `Option` |
| `OrderedMaps` | `LinkedHashMap` as an insertion-ordered association list |
| `Text` | Kotlin's `trim`, `isBlank`, `Int.toString` and `toIntOrNull` |
| `Domain` | The host entities: comments, changes, commits, provider data |
| `PathIndex` | The path index both derived maps of a review context share |

Some things the code calls are left as parameters:

- Host services: path normalisation, `groupCommentsByThreadId`, the
  password safe (a map `Vault`), `URL(..).host` and `findChangeType`.
- The answer a dialog returns.

State-changing Kotlin methods are pure functions from the old state to the
new state, plus the events they dispatch.

## Model

| member | source | states |
|---|---|---|
| `ReviewContexts.CommentPathsMeaning` | merge-request-integration-core/src/main/kotlin/net/ntworld/mergeRequestIntegrationIde/infrastructure/internal/ReviewContextImpl.kt:161-184 | A comment is filed under a path exactly when it has a position and its new or old path normalises to that path |
| `ReviewContexts.NewContextWf` | merge-request-integration-core/src/main/kotlin/net/ntworld/mergeRequestIntegrationIde/infrastructure/internal/ReviewContextImpl.kt:41-51 | A fresh context (empty lists and maps) satisfies the index invariant |
| `ReviewContexts.SetComments` | merge-request-integration-core/src/main/kotlin/net/ntworld/mergeRequestIntegrationIde/infrastructure/internal/ReviewContextImpl.kt:41-45 | Assigning comments stores them and keeps the path → comments index consistent; without a repository the index is not rebuilt; nothing else changes |
| `ReviewContexts.SetChanges` | merge-request-integration-core/src/main/kotlin/net/ntworld/mergeRequestIntegrationIde/infrastructure/internal/ReviewContextImpl.kt:47-51 | Assigning changes stores them and keeps the path → changes index consistent; nothing else changes |
| `ReviewContexts.CommentsByPathContents` | merge-request-integration-core/src/main/kotlin/net/ntworld/mergeRequestIntegrationIde/infrastructure/internal/ReviewContextImpl.kt:161-196 | In a well-formed context a path lists exactly the comments filed under it, each once; nothing when the context has no repository |
| `ReviewContexts.ChangesByPathContents` | merge-request-integration-core/src/main/kotlin/net/ntworld/mergeRequestIntegrationIde/infrastructure/internal/ReviewContextImpl.kt:198-214 | A path lists exactly the changes having that path, each once |
| `ReviewContexts.GetCommentsByPath` | merge-request-integration-core/src/main/kotlin/net/ntworld/mergeRequestIntegrationIde/infrastructure/internal/ReviewContextImpl.kt:71-79 | The comments of a path are those filed under its normalised form, without duplicates; none without a repository |
| `ReviewContexts.FindChangeByPath` | merge-request-integration-core/src/main/kotlin/net/ntworld/mergeRequestIntegrationIde/infrastructure/internal/ReviewContextImpl.kt:57-69 | The change found is the first change, in list order, having the normalised path; none when no change has it |
| `ReviewContexts.PutHolder` | merge-request-integration-core/src/main/kotlin/net/ntworld/mergeRequestIntegrationIde/infrastructure/internal/ReviewContextImpl.kt:114-123 | After putting a value under a key the key reads that value (a null removes it); every other key is unchanged |
| `ReviewContexts.Write` | merge-request-integration-core/src/main/kotlin/net/ntworld/mergeRequestIntegrationIde/infrastructure/internal/ReviewContextImpl.kt:114-123 | A holder is created for the change on first use; the (change, key) reads the written value and every other (change, key) keeps its value |
| `ReviewContexts.PutChangeData` | merge-request-integration-core/src/main/kotlin/net/ntworld/mergeRequestIntegrationIde/infrastructure/internal/ReviewContextImpl.kt:107-123 | `getChangeData` after `putChangeData` returns the value put; other changes and keys are untouched |
| `ReviewContexts.OpenChange` | merge-request-integration-core/src/main/kotlin/net/ntworld/mergeRequestIntegrationIde/infrastructure/internal/ReviewContextImpl.kt:81-97 | Opening a change registers its diff, so some change counts as opened; the change's HAS_VIEWED becomes its after-revision number; all other data is kept |
| `ReviewContexts.CloseAllChanges` | merge-request-integration-core/src/main/kotlin/net/ntworld/mergeRequestIntegrationIde/infrastructure/internal/ReviewContextImpl.kt:95-105 | Afterwards no change is opened, and everything else stays |
| `ReviewContexts.OpenThenCloseKeepsViewed` | merge-request-integration-core/src/main/kotlin/net/ntworld/mergeRequestIntegrationIde/infrastructure/internal/ReviewContextImpl.kt:81-105 | Closing all diffs does not forget which revision of a change was viewed |
| `ReviewContexts.NamedValues` | merge-request-integration-core/src/main/kotlin/net/ntworld/mergeRequestIntegrationIde/infrastructure/internal/ReviewContextImpl.kt:125-145 | A holder copied into a string map has no name twice, and each name maps to the last value stored under a key of that name |
| `ReviewContexts.ReviewData` | merge-request-integration-core/src/main/kotlin/net/ntworld/mergeRequestIntegrationIde/infrastructure/internal/ReviewContextImpl.kt:125-145 | Every path of every change with data maps to the data of the last such change in store order; no path twice |
| `ReviewContexts.GetReviewState` | merge-request-integration-core/src/main/kotlin/net/ntworld/mergeRequestIntegrationIde/infrastructure/internal/ReviewContextImpl.kt:125-145 | The exported state carries the id and, for each path, the named values of the last change with that path |
| `ReviewContexts.GetReviewStateKeyed` | merge-request-integration-core/src/main/kotlin/net/ntworld/mergeRequestIntegrationIde/infrastructure/internal/ReviewContextImpl.kt:125-145 | The exported data has no path twice and no key twice under a path |
| `ReviewContexts.OpenedWithoutRevisionExportsEmpty` | merge-request-integration-core/src/main/kotlin/net/ntworld/mergeRequestIntegrationIde/infrastructure/internal/ReviewContextImpl.kt:81-145 | Opening a change with no after-revision stores null under HAS_VIEWED, and each of its paths then exports an empty map |
| `ReviewContexts.RestoreValues` | merge-request-integration-core/src/main/kotlin/net/ntworld/mergeRequestIntegrationIde/infrastructure/internal/ReviewContextImpl.kt:147-159 | Restoring a path's data stores each name's last value under the declared key of that name; every other entry is unchanged |
| `ReviewContexts.RestoreValuesAsWritten` | merge-request-integration-core/src/main/kotlin/net/ntworld/mergeRequestIntegrationIde/infrastructure/internal/ReviewContextImpl.kt:147-159 | With a fresh `Key(k)` per value, no key that existed before the restore reads a different value |
| `ReviewContexts.RestoreValuesAsWrittenKeys` | merge-request-integration-core/src/main/kotlin/net/ntworld/mergeRequestIntegrationIde/infrastructure/internal/ReviewContextImpl.kt:154-157 | The restored values are stored, each under the fresh key minted for it |
| `ReviewContexts.RestoreAll` | merge-request-integration-core/src/main/kotlin/net/ntworld/mergeRequestIntegrationIde/infrastructure/internal/ReviewContextImpl.kt:147-159 | Every (change, name) reads the value the last path entry resolving to that change binds, or its earlier value when none does; keys other than the declared ones keep their values |
| `ReviewContexts.SetReviewState` | merge-request-integration-core/src/main/kotlin/net/ntworld/mergeRequestIntegrationIde/infrastructure/internal/ReviewContextImpl.kt:147-159 | The corrected restore keeps the context well formed and sets each declared key of each resolved change to the restored value; keys minted by an earlier restore keep their values |
| `ReviewContexts.SetReviewStateAsWritten` | merge-request-integration-core/src/main/kotlin/net/ntworld/mergeRequestIntegrationIde/infrastructure/internal/ReviewContextImpl.kt:147-159 | The restore as written changes no key that existed before it, HAS_VIEWED included |
| `ReviewContexts.RestoredViewedRevision` | merge-request-integration-core/src/main/kotlin/net/ntworld/mergeRequestIntegrationIde/infrastructure/internal/ReviewContextImpl.kt:156 | Restoring "hasViewed" for a never-opened change leaves HAS_VIEWED empty as written, and sets it in the corrected restore |
| `ReviewContextManagers.KeyOfInjective` | merge-request-integration-core/src/main/kotlin/net/ntworld/mergeRequestIntegrationIde/infrastructure/internal/ReviewContextManagerImpl.kt:19 | Registry keys identify (provider, merge request) pairs when provider ids contain no ':' (both directions) |
| `ReviewContextManagers.KeyOfCollision` | merge-request-integration-core/src/main/kotlin/net/ntworld/mergeRequestIntegrationIde/infrastructure/internal/ReviewContextManagerImpl.kt:19 | With a ':' in a provider id, two different pairs share one key |
| `ReviewContextManagers.InitContext` | merge-request-integration-core/src/main/kotlin/net/ntworld/mergeRequestIntegrationIde/infrastructure/internal/ReviewContextManagerImpl.kt:21-32 | The key becomes registered and an existing context is kept; a new key gets a fresh context; the key is selected when asked; the reviewed key is untouched |
| `ReviewContextManagers.InitContextWf` | merge-request-integration-core/src/main/kotlin/net/ntworld/mergeRequestIntegrationIde/infrastructure/internal/ReviewContextManagerImpl.kt:21-32 | Initialising keeps every registered context well formed |
| `ReviewContextManagers.InitContextIdempotent` | merge-request-integration-core/src/main/kotlin/net/ntworld/mergeRequestIntegrationIde/infrastructure/internal/ReviewContextManagerImpl.kt:21-32 | Initialising the same pair twice is initialising once |
| `ReviewContextManagers.InitThenFind` | merge-request-integration-core/src/main/kotlin/net/ntworld/mergeRequestIntegrationIde/infrastructure/internal/ReviewContextManagerImpl.kt:21-57 | After `initContext`, `findContext` finds the pair (a new one being fresh); when selected, `findSelectedContext` returns it; the context under review is unchanged |
| `ReviewContextManagers.SetSelected` | merge-request-integration-core/src/main/kotlin/net/ntworld/mergeRequestIntegrationIde/infrastructure/internal/ReviewContextManagerImpl.kt:39-61 | After selecting a pair, `findSelectedContext` is `findContext` of that pair; the contexts and the review are untouched |
| `ReviewContextManagers.ClearContextDoingCodeReview` | merge-request-integration-core/src/main/kotlin/net/ntworld/mergeRequestIntegrationIde/infrastructure/internal/ReviewContextManagerImpl.kt:34-65 | Afterwards nothing is under review and no context is found for review |
| `ReviewContextManagers.SetContextToDoingCodeReview` | merge-request-integration-core/src/main/kotlin/net/ntworld/mergeRequestIntegrationIde/infrastructure/internal/ReviewContextManagerImpl.kt:34-69 | Afterwards the pair is under review and `findDoingCodeReviewContext` is its context |
| `ReviewContextManagers.DoingCodeReviewIsExclusive` | merge-request-integration-core/src/main/kotlin/net/ntworld/mergeRequestIntegrationIde/infrastructure/internal/ReviewContextManagerImpl.kt:34-37 | After marking a pair, exactly that pair is reported under review |
| `ReviewContextManagers.DraftCount` | merge-request-integration-core/src/main/kotlin/net/ntworld/mergeRequestIntegrationIde/infrastructure/internal/ReviewContextManagerImpl.kt:71-78 | The count of draft comments is 0 iff none is a draft, and the whole length iff all are |
| `ReviewContextManagers.GetDraftCommentsCount` | merge-request-integration-core/src/main/kotlin/net/ntworld/mergeRequestIntegrationIde/infrastructure/internal/ReviewContextManagerImpl.kt:71-78 | 0 for an unknown merge request, otherwise the number of drafts among its comments |
| `ReviewContextManagers.Modify` | merge-request-integration-core/src/main/kotlin/net/ntworld/mergeRequestIntegrationIde/infrastructure/internal/ReviewContextManagerImpl.kt:80-132 | An update touches only the context under its key, and nothing at all for an unknown key |
| `ReviewContextManagers.UpdateComments` | merge-request-integration-core/src/main/kotlin/net/ntworld/mergeRequestIntegrationIde/infrastructure/internal/ReviewContextManagerImpl.kt:80-87 | A known context gets the comments (indices rebuilt); well-formedness is kept; other contexts are untouched |
| `ReviewContextManagers.DraftCountAfterUpdate` | merge-request-integration-core/src/main/kotlin/net/ntworld/mergeRequestIntegrationIde/infrastructure/internal/ReviewContextManagerImpl.kt:71-87 | After comments are pushed to a known context, its draft count counts those comments |
| `ReviewContextManagers.UpdateCommits` | merge-request-integration-core/src/main/kotlin/net/ntworld/mergeRequestIntegrationIde/infrastructure/internal/ReviewContextManagerImpl.kt:89-96 | A known context gets the commits; nothing else changes |
| `ReviewContextManagers.UpdateChanges` | merge-request-integration-core/src/main/kotlin/net/ntworld/mergeRequestIntegrationIde/infrastructure/internal/ReviewContextManagerImpl.kt:98-105 | A known context gets the changes (index rebuilt); well-formedness is kept |
| `ReviewContextManagers.UpdateReviewingCommits` | merge-request-integration-core/src/main/kotlin/net/ntworld/mergeRequestIntegrationIde/infrastructure/internal/ReviewContextManagerImpl.kt:107-114 | A known context gets the reviewing commits; nothing else changes |
| `ReviewContextManagers.UpdateReviewingChanges` | merge-request-integration-core/src/main/kotlin/net/ntworld/mergeRequestIntegrationIde/infrastructure/internal/ReviewContextManagerImpl.kt:116-123 | A known context gets the reviewing changes; nothing else changes |
| `ReviewContextManagers.UpdateMergeRequest` | merge-request-integration-core/src/main/kotlin/net/ntworld/mergeRequestIntegrationIde/infrastructure/internal/ReviewContextManagerImpl.kt:125-132 | A known context takes over only the merge request's diff reference |
| `ReviewContextManagers.CanExecute` | merge-request-integration-core/src/main/kotlin/net/ntworld/mergeRequestIntegrationIde/infrastructure/internal/ReviewContextManagerImpl.kt:134-136 | The sweep runs exactly when some context is registered |
| `ReviewContextManagers.Execute` | merge-request-integration-core/src/main/kotlin/net/ntworld/mergeRequestIntegrationIde/infrastructure/internal/ReviewContextManagerImpl.kt:142-156 | The sweep removes exactly the inactive contexts (not selected, not under review, no diff open), reports them, and keeps the others unchanged |
| `ReviewContextManagers.SweepKeepsActive` | merge-request-integration-core/src/main/kotlin/net/ntworld/mergeRequestIntegrationIde/infrastructure/internal/ReviewContextManagerImpl.kt:142-156 | The selected context, the reviewed context and any context with a diff open survive the sweep unchanged |
| `ReviewContextManagers.SweepIdempotent` | merge-request-integration-core/src/main/kotlin/net/ntworld/mergeRequestIntegrationIde/infrastructure/internal/ReviewContextManagerImpl.kt:142-156 | A second sweep right after the first removes nothing |
| `ReviewContextManagers.SweptWf` | merge-request-integration-core/src/main/kotlin/net/ntworld/mergeRequestIntegrationIde/infrastructure/internal/ReviewContextManagerImpl.kt:142-156 | The sweep keeps every remaining context well formed |
| `PathIndex.AddUnique` | merge-request-integration-core/src/main/kotlin/net/ntworld/mergeRequestIntegrationIde/infrastructure/internal/ReviewContextImpl.kt:186-196 | After `if (!list.contains(x)) list.add(x)` the list holds x and its old elements, grows by at most one, and stays duplicate-free |
| `PathIndex.InsertUnder` | merge-request-integration-core/src/main/kotlin/net/ntworld/mergeRequestIntegrationIde/infrastructure/internal/ReviewContextImpl.kt:202-212 | Filing an item under its keys adds it once to each key's list and leaves other paths alone; lists stay non-empty |
| `PathIndex.IndexOfMembers` | merge-request-integration-core/src/main/kotlin/net/ntworld/mergeRequestIntegrationIde/infrastructure/internal/ReviewContextImpl.kt:198-214 | An item is listed under a path iff it is one of the items and has that path |
| `PathIndex.IndexOfNoDuplicates` | merge-request-integration-core/src/main/kotlin/net/ntworld/mergeRequestIntegrationIde/infrastructure/internal/ReviewContextImpl.kt:198-214 | No path's list repeats an item |
| `PathIndex.BuildIndexSpec` | merge-request-integration-core/src/main/kotlin/net/ntworld/mergeRequestIntegrationIde/infrastructure/internal/ReviewContextImpl.kt:198-214 | The rebuilt index lists exactly the items having each path, without duplicates, headed by the first such item; absent paths have no such item |
| `Persistence.MakeCredentialAttribute` | merge-request-integration-core/src/main/kotlin/net/ntworld/mergeRequestIntegrationIde/infrastructure/internal/ServiceBase.kt:188-193 | The service name is "MRI:" + provider id; the user name is the url, prefixed by "login:" unless login and url are equal |
| `Persistence.CredentialAttributesDistinct` | merge-request-integration-core/src/main/kotlin/net/ntworld/mergeRequestIntegrationIde/infrastructure/internal/ServiceBase.kt:188-203 | Current and legacy attributes never name the same safe entry; providers with different ids never share one |
| `Persistence.DecryptPassword` | merge-request-integration-core/src/main/kotlin/net/ntworld/mergeRequestIntegrationIde/infrastructure/internal/ServiceBase.kt:175-182 | The current entry unless it is missing or empty, then the legacy entry |
| `Persistence.DecryptCredentials` | merge-request-integration-core/src/main/kotlin/net/ntworld/mergeRequestIntegrationIde/infrastructure/internal/ServiceBase.kt:154-169 | Only the token changes: from the safe when it has one, otherwise the stored token |
| `Persistence.EncryptCredentials` | merge-request-integration-core/src/main/kotlin/net/ntworld/mergeRequestIntegrationIde/infrastructure/internal/ServiceBase.kt:136-152 | The token is stored under the current attributes, every other entry is untouched, and the credentials come back unchanged |
| `Persistence.EncryptThenDecrypt` | merge-request-integration-core/src/main/kotlin/net/ntworld/mergeRequestIntegrationIde/infrastructure/internal/ServiceBase.kt:136-182 | A non-empty token stored by encrypt is what decrypt returns, whatever stale token the settings carry |
| `Persistence.SslFlag` | merge-request-integration-core/src/main/kotlin/net/ntworld/mergeRequestIntegrationIde/infrastructure/internal/ServiceBase.kt:43-52 | The SSL flag is written as "1" or "0" |
| `Persistence.ReadSslFlag` | merge-request-integration-core/src/main/kotlin/net/ntworld/mergeRequestIntegrationIde/infrastructure/internal/ServiceBase.kt:128-134 | A missing attribute reads false; otherwise true iff it is "1" or "true" in any case |
| `Persistence.SslFlagRoundTrip` | merge-request-integration-core/src/main/kotlin/net/ntworld/mergeRequestIntegrationIde/infrastructure/internal/ServiceBase.kt:43-52 | The written flag reads back as the flag |
| `Persistence.Triples` | merge-request-integration-core/src/main/kotlin/net/ntworld/mergeRequestIntegrationIde/infrastructure/internal/ServiceBase.kt:54-64 | One (change, key, value) triple per entry of a path's map, in order |
| `Persistence.ReviewElement` | merge-request-integration-core/src/main/kotlin/net/ntworld/mergeRequestIntegrationIde/infrastructure/internal/ServiceBase.kt:54-64 | A "Review" element with the state's id and one "Change" child per triple |
| `Persistence.GetState` | merge-request-integration-core/src/main/kotlin/net/ntworld/mergeRequestIntegrationIde/infrastructure/internal/ServiceBase.kt:25-41 | A "Providers" root with one "Provider" child per setting, then one "Review" child per review state, in order |
| `Persistence.FindProvider` | merge-request-integration-core/src/main/kotlin/net/ntworld/mergeRequestIntegrationIde/infrastructure/internal/ServiceBase.kt:76-78 | The supported provider with the id, or none when no supported provider has it |
| `Persistence.LoadProvider` | merge-request-integration-core/src/main/kotlin/net/ntworld/mergeRequestIntegrationIde/infrastructure/internal/ServiceBase.kt:76-98 | With no supported provider the item is skipped before any attribute is read; otherwise loading aborts exactly when a dereferenced attribute is missing, an unsupported provider is skipped; the entry is keyed by the raw id, its settings' id is the trimmed id, its credentials are the attributes' with the token decrypted from the password safe, and its repository is the "repository" attribute |
| `Persistence.ReadTriples` | merge-request-integration-core/src/main/kotlin/net/ntworld/mergeRequestIntegrationIde/infrastructure/internal/ServiceBase.kt:100-118 | Every child yields one triple, or the read fails |
| `Persistence.LoadReviewState` | merge-request-integration-core/src/main/kotlin/net/ntworld/mergeRequestIntegrationIde/infrastructure/internal/ServiceBase.kt:100-118 | A review element loads under its id, or aborts exactly when the id or a child's attribute is missing |
| `Persistence.LoadIgnoresOtherElements` | merge-request-integration-core/src/main/kotlin/net/ntworld/mergeRequestIntegrationIde/infrastructure/internal/ServiceBase.kt:66-74 | A child that is not "Item", "Provider" or "Review" has no effect |
| `Persistence.LoadSkipsUnsupported` | merge-request-integration-core/src/main/kotlin/net/ntworld/mergeRequestIntegrationIde/infrastructure/internal/ServiceBase.kt:76-79 | A provider item of an unsupported provider has no effect |
| `Persistence.LoadItemsAppend` | merge-request-integration-core/src/main/kotlin/net/ntworld/mergeRequestIntegrationIde/infrastructure/internal/ServiceBase.kt:66-74 | Loading two runs of children is loading the first and, unless it aborted, then the second |
| `Persistence.ReviewStateRoundTrip` | merge-request-integration-core/src/main/kotlin/net/ntworld/mergeRequestIntegrationIde/infrastructure/internal/ServiceBase.kt:54-64 | A keyed review state written by `writeReviewStateItem` reads back with its empty-map paths gone and everything else unchanged; one without empty-map paths reads back unchanged |
| `Persistence.DropEmptyPathsGet` | merge-request-integration-core/src/main/kotlin/net/ntworld/mergeRequestIntegrationIde/infrastructure/internal/ServiceBase.kt:100-117 | Once the empty-map paths are dropped, a path reads back its map when that map is not empty, and nothing otherwise |
| `Persistence.DropEmptyWellFormed` | merge-request-integration-core/src/main/kotlin/net/ntworld/mergeRequestIntegrationIde/infrastructure/internal/ServiceBase.kt:100-117 | Keyed data without its empty-map paths has no path twice, no key twice and no empty map, so it reads back as it is |
| `Persistence.FlattenDropEmpty` | merge-request-integration-core/src/main/kotlin/net/ntworld/mergeRequestIntegrationIde/infrastructure/internal/ServiceBase.kt:54-64 | The paths with an empty map write no "Change" element |
| `Persistence.EmptyPathIsDropped` | merge-request-integration-core/src/main/kotlin/net/ntworld/mergeRequestIntegrationIde/infrastructure/internal/ServiceBase.kt:54-64 | A path with an empty map writes nothing, so it does not come back |
| `Persistence.ProviderRoundTrip` | merge-request-integration-core/src/main/kotlin/net/ntworld/mergeRequestIntegrationIde/infrastructure/internal/ServiceBase.kt:43-98 | A written provider element reads back keyed by the stored id, as the same settings except that the id is trimmed and the token comes from the safe; the id comes back unchanged exactly when it has no outer whitespace |
| `Persistence.LoadProviderElements` | merge-request-integration-core/src/main/kotlin/net/ntworld/mergeRequestIntegrationIde/infrastructure/internal/ServiceBase.kt:66-98 | Loading the provider children appends every entry under its stored id, reloaded (id trimmed, token from the safe), without aborting |
| `Persistence.LoadReviewElements` | merge-request-integration-core/src/main/kotlin/net/ntworld/mergeRequestIntegrationIde/infrastructure/internal/ServiceBase.kt:66-74 | Loading the review children appends every review state, each without its empty-map paths, without aborting |
| `Persistence.StoreRoundTrip` | merge-request-integration-core/src/main/kotlin/net/ntworld/mergeRequestIntegrationIde/infrastructure/internal/ServiceBase.kt:25-126 | `getState` followed by `loadState` into an empty service gives back every provider under its stored id (settings' id trimmed, token from the safe) and every review state without its empty-map paths (unchanged when it has none) |
| `ApplicationServices.AddProviderConfiguration` | merge-request-integration-core/src/main/kotlin/net/ntworld/mergeRequestIntegrationIde/infrastructure/AbstractApplicationServiceProvider.kt:89-96 | The settings are stored under the id with an empty repository, and the token goes to the safe; every other entry and the review states are unchanged |
| `ApplicationServices.AddKeepsKeyedById` | merge-request-integration-core/src/main/kotlin/net/ntworld/mergeRequestIntegrationIde/infrastructure/AbstractApplicationServiceProvider.kt:89-96 | Every provider entry stays stored under its own id |
| `ApplicationServices.RemoveAllProviderConfigurations` | merge-request-integration-core/src/main/kotlin/net/ntworld/mergeRequestIntegrationIde/infrastructure/AbstractApplicationServiceProvider.kt:98-101 | The providers are cleared; the review states and the safe are kept |
| `ApplicationServices.RemoveAllWritesReviewsOnly` | merge-request-integration-core/src/main/kotlin/net/ntworld/mergeRequestIntegrationIde/infrastructure/AbstractApplicationServiceProvider.kt:98-101 | After removing all configurations, the persisted element holds review states only |
| `ApplicationServices.GetProviderConfigurations` | merge-request-integration-core/src/main/kotlin/net/ntworld/mergeRequestIntegrationIde/infrastructure/AbstractApplicationServiceProvider.kt:103-112 | Every stored configuration in insertion order, with its repository emptied and only the token changed: the safe's current entry, else its legacy entry, else the stored token |
| `ApplicationServices.AddThenGetConfiguration` | merge-request-integration-core/src/main/kotlin/net/ntworld/mergeRequestIntegrationIde/infrastructure/AbstractApplicationServiceProvider.kt:89-112 | A configuration added with a non-empty token is handed back exactly as added |
| `ApplicationServices.AddKeepsOtherConfigurations` | merge-request-integration-core/src/main/kotlin/net/ntworld/mergeRequestIntegrationIde/infrastructure/AbstractApplicationServiceProvider.kt:89-112 | Adding one configuration changes another's exported token only when both use the same safe entry |
| `ApplicationServices.GetReviewState` | merge-request-integration-core/src/main/kotlin/net/ntworld/mergeRequestIntegrationIde/infrastructure/AbstractApplicationServiceProvider.kt:132-134 | None exactly when no state is stored under the id |
| `ApplicationServices.AddReviewState` | merge-request-integration-core/src/main/kotlin/net/ntworld/mergeRequestIntegrationIde/infrastructure/AbstractApplicationServiceProvider.kt:136-139 | The state is read back under its id; other ids and the providers are unchanged |
| `ApplicationServices.AddReviewStateIdempotent` | merge-request-integration-core/src/main/kotlin/net/ntworld/mergeRequestIntegrationIde/infrastructure/AbstractApplicationServiceProvider.kt:136-139 | Adding the same state twice is adding it once |
| `ApplicationServices.IsLegal` | merge-request-integration-core/src/main/kotlin/net/ntworld/mergeRequestIntegrationIde/infrastructure/AbstractApplicationServiceProvider.kt:114-124 | False for an errored provider or an empty url; an exception (None) exactly when `URL(..)` throws on a malformed url (a url without a host gives the host "", which is then not legal) |
| `ApplicationServices.IsLegalMeaning` | merge-request-integration-core/src/main/kotlin/net/ntworld/mergeRequestIntegrationIde/infrastructure/AbstractApplicationServiceProvider.kt:31-37 | Legal iff no error, a url, and a host that is the internal host or (www.)gitlab.com for a public project |
| `ApplicationServices.PrivateGitlabComIsNotLegal` | merge-request-integration-core/src/main/kotlin/net/ntworld/mergeRequestIntegrationIde/infrastructure/AbstractApplicationServiceProvider.kt:114-124 | A private project on gitlab.com is not legal |
| `FilesTab.UnresolvedThreads` | merge-request-integration-core/src/main/kotlin/net/ntworld/mergeRequestIntegrationIde/toolWindow/internal/FilesToolWindowTabImpl.kt:170-174 | The number of threads whose first comment is unresolved: 0 iff all are resolved, all iff none is |
| `FilesTab.Decorate` | merge-request-integration-core/src/main/kotlin/net/ntworld/mergeRequestIntegrationIde/toolWindow/internal/FilesToolWindowTabImpl.kt:163-176 | Over the decorator's context: nothing when it holds none or for a file without comments; otherwise the unresolved count in red and "/" + the thread count in gray |
| `FilesTab.DecorateCounts` | merge-request-integration-core/src/main/kotlin/net/ntworld/mergeRequestIntegrationIde/toolWindow/internal/FilesToolWindowTabImpl.kt:163-176 | Both counts parse back from the decoration, and the unresolved count never exceeds the total |
| `FilesTab.BadgeOf` | merge-request-integration-core/src/main/kotlin/net/ntworld/mergeRequestIntegrationIde/toolWindow/internal/FilesToolWindowTabImpl.kt:178-192 | Over the decorator's context: no badge when it holds none; "new" iff never viewed; "updated" iff viewed at another after-revision |
| `FilesTab.PreDecorate` | merge-request-integration-core/src/main/kotlin/net/ntworld/mergeRequestIntegrationIde/toolWindow/internal/FilesToolWindowTabImpl.kt:178-192 | The badge as bold " [new] " or " [updated] " text, nothing without a badge |
| `FilesTab.OpenChangeClearsBadge` | merge-request-integration-core/src/main/kotlin/net/ntworld/mergeRequestIntegrationIde/toolWindow/internal/FilesToolWindowTabImpl.kt:178-192 | Opening a change clears its badge; a change without an after-revision stays "new" |
| `FilesTab.OpenChangeKeepsOtherBadges` | merge-request-integration-core/src/main/kotlin/net/ntworld/mergeRequestIntegrationIde/toolWindow/internal/FilesToolWindowTabImpl.kt:178-192 | Opening one change leaves every other change's badge as it was |
| `FilesTab.SetChanges` | merge-request-integration-core/src/main/kotlin/net/ntworld/mergeRequestIntegrationIde/toolWindow/internal/FilesToolWindowTabImpl.kt:134-141 | The tab shows the changes in the tree with the toolbar and remembers the provider data; the decorator keeps its context |
| `FilesTab.Hide` | merge-request-integration-core/src/main/kotlin/net/ntworld/mergeRequestIntegrationIde/toolWindow/internal/FilesToolWindowTabImpl.kt:143-147 | An empty tree, no toolbar, the empty state; the provider data and the decorator's context are kept |
| `FilesTab.InitTab` | merge-request-integration-core/src/main/kotlin/net/ntworld/mergeRequestIntegrationIde/toolWindow/internal/FilesToolWindowTabImpl.kt:97-103 | With a context under review, the tree shows its reviewing changes and the decorator holds that context; otherwise the empty state and no decorator context |
| `FilesTab.HideAfterSetChanges` | merge-request-integration-core/src/main/kotlin/net/ntworld/mergeRequestIntegrationIde/toolWindow/internal/FilesToolWindowTabImpl.kt:134-147 | Hiding after showing changes empties the tree but remembers whose changes they were |
| `FilesTab.HandleTreeItemSelected` | merge-request-integration-core/src/main/kotlin/net/ntworld/mergeRequestIntegrationIde/toolWindow/internal/FilesToolWindowTabImpl.kt:108-132 | Nothing without a change node; opened in the review when one is going on; otherwise by the rework watcher exactly when one exists |
| `FilesTab.ReviewTakesPrecedence` | merge-request-integration-core/src/main/kotlin/net/ntworld/mergeRequestIntegrationIde/toolWindow/internal/FilesToolWindowTabImpl.kt:108-132 | During a review the change opens there; it loses its badge in a tab whose decorator holds that review's context |
| `FilesTab.Redecorate` | merge-request-integration-core/src/main/kotlin/net/ntworld/mergeRequestIntegrationIde/toolWindow/internal/FilesToolWindowTabImpl.kt:158-176 | The decorator holds a reference: a later state of its own context (same provider and merge request) replaces the one it holds; any other context leaves the tab unchanged |
| `FilesTab.DecoratorFixedAtConstruction` | merge-request-integration-core/src/main/kotlin/net/ntworld/mergeRequestIntegrationIde/toolWindow/internal/FilesToolWindowTabImpl.kt:97-104 | After any sequence of `setChanges`, `hide` and context updates the decorator holds no context iff it held none after construction, and otherwise a state of the same context |
| `FilesTab.BuiltOutsideReviewNeverBadges` | merge-request-integration-core/src/main/kotlin/net/ntworld/mergeRequestIntegrationIde/toolWindow/internal/FilesToolWindowTabImpl.kt:97-104 | A tab built while no review was going on never shows a badge, whatever reviews start later |
| `FilesTab.OtherReviewKeepsBadges` | merge-request-integration-core/src/main/kotlin/net/ntworld/mergeRequestIntegrationIde/toolWindow/internal/FilesToolWindowTabImpl.kt:108-120 | Opening a change in a review other than the decorator's leaves every badge of the tab as it was |
| `OneSideDiff.MakeIcon` | merge-request-integration-core/src/main/kotlin/net/ntworld/mergeRequestIntegrationIde/diff/SimpleOneSideDiffView.kt:19-31 | A line's icon has no comment and shows the 1-based line on its own side only |
| `OneSideDiff.CreateGutterIcons` | merge-request-integration-core/src/main/kotlin/net/ntworld/mergeRequestIntegrationIde/diff/SimpleOneSideDiffView.kt:19-31 | One icon per line of the document, in order |
| `OneSideDiff.FindIcon` | merge-request-integration-core/src/main/kotlin/net/ntworld/mergeRequestIntegrationIde/diff/SimpleOneSideDiffView.kt:33-42 | A stand-in for the base-class lookup: the first icon registered for the line and side, or none iff there is none |
| `OneSideDiff.StateFor` | merge-request-integration-core/src/main/kotlin/net/ntworld/mergeRequestIntegrationIde/diff/SimpleOneSideDiffView.kt:33-42 | Single-comment state iff exactly one comment; never "no comment" |
| `OneSideDiff.ChangeGutterIconsByComments` | merge-request-integration-core/src/main/kotlin/net/ntworld/mergeRequestIntegrationIde/diff/SimpleOneSideDiffView.kt:33-42 | Only the icon of the visible line changes state; the missing-icon case arises iff no icon is registered there, and what follows it is left open |
| `OneSideDiff.VisibleLineRoundTrip` | merge-request-integration-core/src/main/kotlin/net/ntworld/mergeRequestIntegrationIde/diff/SimpleOneSideDiffView.kt:19-42 | The icon a visible line addresses is the one showing that line |
| `OneSideDiff.OutsideLinesHaveNoIcon` | merge-request-integration-core/src/main/kotlin/net/ntworld/mergeRequestIntegrationIde/diff/SimpleOneSideDiffView.kt:19-42 | A line outside the document addresses no icon, so changing its icon meets the missing-icon case |
| `OneSideDiff.CalcPosition` | merge-request-integration-core/src/main/kotlin/net/ntworld/mergeRequestIntegrationIde/diff/SimpleOneSideDiffView.kt:80-102 | Before side: old line, old path and base hash; after side: new line, new path and head hash; none iff that side has no revision |
| `OneSideDiff.PositionMatchesIcon` | merge-request-integration-core/src/main/kotlin/net/ntworld/mergeRequestIntegrationIde/diff/SimpleOneSideDiffView.kt:19-102 | The line a position is filed under is the line its icon shows |
| `CollectionFilter.KeyReleased` | merge-request-integration-core/src/main/kotlin/net/ntworld/mergeRequestIntegrationIde/ui/mergeRequest/MergeRequestCollectionFilter.kt:98-130 | Enter searches by id or text, saves, and hands the text to the field's history; other keys search by id for integer text, reload once when leaving an id search, and otherwise do nothing |
| `CollectionFilter.FlagTracksText` | merge-request-integration-core/src/main/kotlin/net/ntworld/mergeRequestIntegrationIde/ui/mergeRequest/MergeRequestCollectionFilter.kt:114-130 | After a key other than Enter, the id-search flag says whether the text is an integer |
| `CollectionFilter.LeavingIdSearchReloadsOnce` | merge-request-integration-core/src/main/kotlin/net/ntworld/mergeRequestIntegrationIde/ui/mergeRequest/MergeRequestCollectionFilter.kt:114-130 | Over non-integer text, a second key dispatches nothing |
| `CollectionFilter.IdSearchExample` | merge-request-integration-core/src/main/kotlin/net/ntworld/mergeRequestIntegrationIde/ui/mergeRequest/MergeRequestCollectionFilter.kt:114-130 | Example: typing "12" searches for merge request 12; "12a" then reloads the unfiltered list |
| `CollectionFilter.SetSelected` | merge-request-integration-core/src/main/kotlin/net/ntworld/mergeRequestIntegrationIde/ui/mergeRequest/MergeRequestCollectionFilter.kt:160-170 | Unselecting does nothing; selecting sets the ordering, notifies, and saves the text filter with it |
| `CollectionFilter.OrderingIsExclusive` | merge-request-integration-core/src/main/kotlin/net/ntworld/mergeRequestIntegrationIde/ui/mergeRequest/MergeRequestCollectionFilter.kt:160-170 | The ordering toggles act as radio buttons |
| `CollectionFilter.FieldCleared` | merge-request-integration-core/src/main/kotlin/net/ntworld/mergeRequestIntegrationIde/ui/mergeRequest/MergeRequestCollectionFilter.kt:178-182 | Clearing the field dispatches and saves the (empty) text filter |
| `CollectionFilter.FilterPropertiesChanged` | merge-request-integration-core/src/main/kotlin/net/ntworld/mergeRequestIntegrationIde/ui/mergeRequest/MergeRequestCollectionFilter.kt:33-37 | A changed panel property dispatches and saves the text filter; nothing else changes |
| `CollectionFilter.TextRefreshesAgree` | merge-request-integration-core/src/main/kotlin/net/ntworld/mergeRequestIntegrationIde/ui/mergeRequest/MergeRequestCollectionFilter.kt:33-182 | A property change, a cleared field and Enter on non-integer text refresh alike; Enter also hands the text to the history |
| `CollectionFilter.SetPreselectedValues` | merge-request-integration-core/src/main/kotlin/net/ntworld/mergeRequestIntegrationIde/ui/mergeRequest/MergeRequestCollectionFilter.kt:242-249 | Applied at once when the panel is ready, held back (replacing earlier) otherwise |
| `CollectionFilter.OnReady` | merge-request-integration-core/src/main/kotlin/net/ntworld/mergeRequestIntegrationIde/ui/mergeRequest/MergeRequestCollectionFilter.kt:193-200 | Becoming ready applies and forgets a held-back value |
| `CollectionFilter.PreselectionAppliedOnce` | merge-request-integration-core/src/main/kotlin/net/ntworld/mergeRequestIntegrationIde/ui/mergeRequest/MergeRequestCollectionFilter.kt:193-249 | Before or after ready, the value is applied exactly once |
| `CollectionFilter.LastPreselectionWins` | merge-request-integration-core/src/main/kotlin/net/ntworld/mergeRequestIntegrationIde/ui/mergeRequest/MergeRequestCollectionFilter.kt:242-249 | Of several values given before ready only the last is applied |
| `CollectionFilter.Init` | merge-request-integration-core/src/main/kotlin/net/ntworld/mergeRequestIntegrationIde/ui/mergeRequest/MergeRequestCollectionFilter.kt:133-139 | The stored ordering and text are shown and the stored filter is held for the panel, which is not yet enabled |
| `CommitCollections.DispatchCommitSelected` | merge-request-integration-core/src/main/kotlin/net/ntworld/mergeRequestIntegrationIde/ui/mergeRequest/tab/commit/CommitCollection.kt:113-119 | Dispatched iff provider data and merge-request info are known |
| `CommitCollections.SelectedCommits` | merge-request-integration-core/src/main/kotlin/net/ntworld/mergeRequestIntegrationIde/ui/mergeRequest/tab/commit/CommitCollection.kt:68-74 | The selected commits are exactly those of ticked items |
| `CommitCollections.Clear` | merge-request-integration-core/src/main/kotlin/net/ntworld/mergeRequestIntegrationIde/ui/mergeRequest/tab/commit/CommitCollection.kt:87-90 | No items remain; the provider data is kept |
| `CommitCollections.SetCommits` | merge-request-integration-core/src/main/kotlin/net/ntworld/mergeRequestIntegrationIde/ui/mergeRequest/tab/commit/CommitCollection.kt:100-109 | One fresh item per commit, in order, and the provider data is remembered |
| `CommitCollections.SelectAll` | merge-request-integration-core/src/main/kotlin/net/ntworld/mergeRequestIntegrationIde/ui/mergeRequest/tab/commit/CommitCollection.kt:32-38 | Every item selectable and ticked; all commits dispatched |
| `CommitCollections.UnselectAll` | merge-request-integration-core/src/main/kotlin/net/ntworld/mergeRequestIntegrationIde/ui/mergeRequest/tab/commit/CommitCollection.kt:48-53 | Every item selectable and unticked; the empty list dispatched |
| `CommitCollections.SelectAllSelectsEverything` | merge-request-integration-core/src/main/kotlin/net/ntworld/mergeRequestIntegrationIde/ui/mergeRequest/tab/commit/CommitCollection.kt:32-53 | After select-all the selected commits are all commits; after unselect-all, none |
| `CommitCollections.SelectionChanged` | merge-request-integration-core/src/main/kotlin/net/ntworld/mergeRequestIntegrationIde/ui/mergeRequest/tab/commit/CommitCollection.kt:60-75 | Each item's selectability is recomputed from the pairs taken before the change; the ticked commits are dispatched in order |
| `CommitCollections.RecomputeSelectable` | merge-request-integration-core/src/main/kotlin/net/ntworld/mergeRequestIntegrationIde/ui/mergeRequest/tab/commit/CommitCollection.kt:61-66 | Item i gets selectability from `canSelect` on the original pairs at i |
| `CommitCollections.CollectSelected` | merge-request-integration-core/src/main/kotlin/net/ntworld/mergeRequestIntegrationIde/ui/mergeRequest/tab/commit/CommitCollection.kt:68-74 | The collected commits are the ticked ones in order |
| `CommitCollections.SetEnabled` | merge-request-integration-core/src/main/kotlin/net/ntworld/mergeRequestIntegrationIde/ui/mergeRequest/tab/commit/CommitCollection.kt:92-98 | Every item gets the enabled flag; nothing else changes |
| `CommitCollections.NothingBeforeSetCommits` | merge-request-integration-core/src/main/kotlin/net/ntworld/mergeRequestIntegrationIde/ui/mergeRequest/tab/commit/CommitCollection.kt:113-119 | Nothing is dispatched before the first `setCommits` |
| `CommitCollections.SelectAllAfterSetCommits` | merge-request-integration-core/src/main/kotlin/net/ntworld/mergeRequestIntegrationIde/ui/mergeRequest/tab/commit/CommitCollection.kt:32-119 | After `setCommits`, select-all dispatches exactly the given commits |
| `CommentsTab.TabTitle` | merge-request-integration-core/src/main/kotlin/net/ntworld/mergeRequestIntegrationIde/mergeRequest/comments/CommentsTabViewImpl.kt:170-172 | "Comments" for 0, otherwise "Comments · n" |
| `CommentsTab.TabTitleRoundTrip` | merge-request-integration-core/src/main/kotlin/net/ntworld/mergeRequestIntegrationIde/mergeRequest/comments/CommentsTabViewImpl.kt:170-172 | The count can be read back from the title |
| `CommentsTab.SubmitClicked` | merge-request-integration-core/src/main/kotlin/net/ntworld/mergeRequestIntegrationIde/mergeRequest/comments/CommentsTabViewImpl.kt:86-92 | Sent iff the trimmed text is not empty, untrimmed, with the thread's position |
| `CommentsTab.ReplyRequested` | merge-request-integration-core/src/main/kotlin/net/ntworld/mergeRequestIntegrationIde/mergeRequest/comments/CommentsTabViewImpl.kt:118-122 | Forwarded iff the trimmed content is not empty |
| `CommentsTab.SentIffNotBlank` | merge-request-integration-core/src/main/kotlin/net/ntworld/mergeRequestIntegrationIde/mergeRequest/comments/CommentsTabViewImpl.kt:86-122 | Submit and reply send exactly when the text is not blank |
| `CommentsTab.CancelClickedAsWritten` | merge-request-integration-core/src/main/kotlin/net/ntworld/mergeRequestIntegrationIde/mergeRequest/comments/CommentsTabViewImpl.kt:76-84 | Asks iff the text is not blank, and clears the text regardless of the answer |
| `CommentsTab.CancelClicked` | merge-request-integration-core/src/main/kotlin/net/ntworld/mergeRequestIntegrationIde/mergeRequest/comments/CommentsTabViewImpl.kt:76-84 | Corrected: clears blank text at once, other text only on "yes", otherwise keeps it |
| `CommentsTab.CancelIgnoresAnswer` | merge-request-integration-core/src/main/kotlin/net/ntworld/mergeRequestIntegrationIde/mergeRequest/comments/CommentsTabViewImpl.kt:76-84 | Answering "no" for "draft" still clears it as written; the corrected cancel keeps it |
| `CommentsTab.CancelAgreesOnYes` | merge-request-integration-core/src/main/kotlin/net/ntworld/mergeRequestIntegrationIde/mergeRequest/comments/CommentsTabViewImpl.kt:76-84 | Both agree when no question is asked or it is answered yes |
| `CommentsTab.NonEmptyGroups` | merge-request-integration-core/src/main/kotlin/net/ntworld/mergeRequestIntegrationIde/mergeRequest/comments/CommentsTabViewImpl.kt:195-198 | Exactly the groups with comments get a component |
| `CommentsTab.ButtonFor` | merge-request-integration-core/src/main/kotlin/net/ntworld/mergeRequestIntegrationIde/mergeRequest/comments/CommentsTabViewImpl.kt:211-217 | "Add comment" / "Add comment to current line" with a position, "Add general comment" / "Create new thread of general comment" without |
| `CommentsTab.RenderThread` | merge-request-integration-core/src/main/kotlin/net/ntworld/mergeRequestIntegrationIde/mergeRequest/comments/CommentsTabViewImpl.kt:189-219 | The non-empty groups are shown; the position is the last non-empty group's; the button matches; the pane is visible |
| `CommentsTab.LastGroupDecidesPosition` | merge-request-integration-core/src/main/kotlin/net/ntworld/mergeRequestIntegrationIde/mergeRequest/comments/CommentsTabViewImpl.kt:193-204 | Example: a general thread after a positioned one leaves no position; a trailing empty group does not count |
| `CommentsTab.HideThread` | merge-request-integration-core/src/main/kotlin/net/ntworld/mergeRequestIntegrationIde/mergeRequest/comments/CommentsTabViewImpl.kt:185-187 | The pane is hidden; what it shows is kept |
| `CommentTreeToolbar.SetMode` | merge-request-integration-core/src/main/kotlin/net/ntworld/mergeRequestIntegrationIde/mergeRequest/comments/tree/CommentTreeViewToolbar.kt:61-65 | The mode is set; the toggles are kept |
| `CommentTreeToolbar.ToggleResolved` | merge-request-integration-core/src/main/kotlin/net/ntworld/mergeRequestIntegrationIde/mergeRequest/comments/tree/CommentTreeViewToolbar.kt:73-76 | The resolved flag takes the state and listeners hear that state; the rest is kept |
| `CommentTreeToolbar.ToggleDrafts` | merge-request-integration-core/src/main/kotlin/net/ntworld/mergeRequestIntegrationIde/mergeRequest/comments/tree/CommentTreeViewToolbar.kt:100-103 | The drafts flag takes the state and listeners hear it; the rest is kept |
| `CommentTreeToolbar.TogglesAreIndependent` | merge-request-integration-core/src/main/kotlin/net/ntworld/mergeRequestIntegrationIde/mergeRequest/comments/tree/CommentTreeViewToolbar.kt:73-103 | Each toggle reads its last set value, and they commute |
| `CommentTreeToolbar.ResolvedPresentation` | merge-request-integration-core/src/main/kotlin/net/ntworld/mergeRequestIntegrationIde/mergeRequest/comments/tree/CommentTreeViewToolbar.kt:78-90 | Disabled iff only drafts are shown; icon iff compact; text iff full |
| `CommentTreeToolbar.DraftsPresentation` | merge-request-integration-core/src/main/kotlin/net/ntworld/mergeRequestIntegrationIde/mergeRequest/comments/tree/CommentTreeViewToolbar.kt:100-105 | The drafts toggle is enabled, has no icon and always shows its text |
| `CommentTreeToolbar.GeneralCommentPresentation` | merge-request-integration-core/src/main/kotlin/net/ntworld/mergeRequestIntegrationIde/mergeRequest/comments/tree/CommentTreeViewToolbar.kt:116-134 | The button is enabled with the "add" icon in both modes; short label shown in full mode, long label hidden in compact mode |
| `CommentTreeToolbar.TextShownTogether` | merge-request-integration-core/src/main/kotlin/net/ntworld/mergeRequestIntegrationIde/mergeRequest/comments/tree/CommentTreeViewToolbar.kt:88-134 | The resolved toggle and the general-comment button show text together |
| `CommentTreeToolbar.InitialPresentation` | merge-request-integration-core/src/main/kotlin/net/ntworld/mergeRequestIntegrationIde/mergeRequest/comments/tree/CommentTreeViewToolbar.kt:19-21 | A fresh toolbar has both toggles off, the resolved toggle enabled with text |
| `CommentTreeToolbar.Clicked` | merge-request-integration-core/src/main/kotlin/net/ntworld/mergeRequestIntegrationIde/mergeRequest/comments/tree/CommentTreeViewToolbar.kt:111-121 | Refresh and general-comment buttons only notify their event |
| `ThreadViews.AllGroupIds` | merge-request-integration-core/src/main/kotlin/net/ntworld/mergeRequestIntegrationIde/component/thread/ThreadViewImpl.kt:204-206 | The ids are exactly the registered groups |
| `ThreadViews.AddGroup` | merge-request-integration-core/src/main/kotlin/net/ntworld/mergeRequestIntegrationIde/component/thread/ThreadViewImpl.kt:210-221 | The group is registered with its comments, first iff none was before; others are kept |
| `ThreadViews.UpdateGroup` | merge-request-integration-core/src/main/kotlin/net/ntworld/mergeRequestIntegrationIde/component/thread/ThreadViewImpl.kt:223-228 | A known group's comments are replaced; an unknown id changes nothing |
| `ThreadViews.DeleteGroup` | merge-request-integration-core/src/main/kotlin/net/ntworld/mergeRequestIntegrationIde/component/thread/ThreadViewImpl.kt:230-237 | A known group is forgotten; an unknown id changes nothing |
| `ThreadViews.GroupRegistryLaws` | merge-request-integration-core/src/main/kotlin/net/ntworld/mergeRequestIntegrationIde/component/thread/ThreadViewImpl.kt:208-237 | Add then delete of a new id is a no-op; update after add gives the new comments |
| `ThreadViews.MakeMainEditor` | merge-request-integration-core/src/main/kotlin/net/ntworld/mergeRequestIntegrationIde/component/thread/ThreadViewImpl.kt:60-72 | The lazily made main editor is registered under the empty key (replacing any editor there), empty and hidden |
| `ThreadViews.EditorCreated` | merge-request-integration-core/src/main/kotlin/net/ntworld/mergeRequestIntegrationIde/component/thread/ThreadViewImpl.kt:140-145 | The reply editor is registered under its group id; others are kept |
| `ThreadViews.EditorDestroyed` | merge-request-integration-core/src/main/kotlin/net/ntworld/mergeRequestIntegrationIde/component/thread/ThreadViewImpl.kt:147-149 | The group's editor is forgotten; others are kept |
| `ThreadViews.SubmitClicked` | merge-request-integration-core/src/main/kotlin/net/ntworld/mergeRequestIntegrationIde/component/thread/ThreadViewImpl.kt:102-114 | Only the main editor submits: a new thread at the view's line, side and position |
| `ThreadViews.ReplyRequested` | merge-request-integration-core/src/main/kotlin/net/ntworld/mergeRequestIntegrationIde/component/thread/ThreadViewImpl.kt:151-160 | A reply is never a draft, has no position and names the replied comment |
| `ThreadViews.CancelClicked` | merge-request-integration-core/src/main/kotlin/net/ntworld/mergeRequestIntegrationIde/component/thread/ThreadViewImpl.kt:80-100 | Only the main editor reacts: blank text or "yes" closes it cleared; "no" keeps it and focuses it |
| `ThreadViews.CancelKeepsTextOnNo` | merge-request-integration-core/src/main/kotlin/net/ntworld/mergeRequestIntegrationIde/component/thread/ThreadViewImpl.kt:80-100 | Text is never lost against the user's answer |
| `ThreadViews.ResetMainEditor` | merge-request-integration-core/src/main/kotlin/net/ntworld/mergeRequestIntegrationIde/component/thread/ThreadViewImpl.kt:60-243 | The main editor is emptied and hidden; the first read of the lazy editor makes it and registers it under the empty key, later reads register nothing |
| `ThreadViews.ShowEditor` | merge-request-integration-core/src/main/kotlin/net/ntworld/mergeRequestIntegrationIde/component/thread/ThreadViewImpl.kt:60-257 | The editor becomes visible with its text, with a top border iff no group is shown; the first read of the lazy editor makes and registers it, empty |
| `ThreadViews.ResetThenShow` | merge-request-integration-core/src/main/kotlin/net/ntworld/mergeRequestIntegrationIde/component/thread/ThreadViewImpl.kt:60-257 | Showing after a reset brings back an empty editor and makes no second one |
| `ThreadViews.MainEditorMadeOnce` | merge-request-integration-core/src/main/kotlin/net/ntworld/mergeRequestIntegrationIde/component/thread/ThreadViewImpl.kt:60-114 | Whichever of reset and show comes first makes the main editor, whose submit is heard from then on |
| `ThreadViews.SetShown` | merge-request-integration-core/src/main/kotlin/net/ntworld/mergeRequestIntegrationIde/component/thread/ThreadViewImpl.kt:259-267 | Only the component's visibility changes |
| `ThreadViews.CalcWidth` | merge-request-integration-core/src/main/kotlin/net/ntworld/mergeRequestIntegrationIde/component/thread/ThreadViewImpl.kt:324-340 | The visible width (viewport minus scrollbar and gutter gap) clamped to [0, maximum] |
| `ThreadViews.CalcWidthMonotone` | merge-request-integration-core/src/main/kotlin/net/ntworld/mergeRequestIntegrationIde/component/thread/ThreadViewImpl.kt:324-340 | A wider scrollbar never widens the text |
| `HtmlHelper.ReplaceJoin` | merge-request-integration-core/src/main/kotlin/net/ntworld/mergeRequestIntegrationIde/util/HtmlHelper.kt:19-21 | Replacing in text joined by the pattern from pattern-free parts is joining them with the replacement |
| `HtmlHelper.SplitSound` | merge-request-integration-core/src/main/kotlin/net/ntworld/mergeRequestIntegrationIde/util/HtmlHelper.kt:19-21 | The split parts have no occurrence and join back to the input |
| `HtmlHelper.ResolveRelativePathSpec` | merge-request-integration-core/src/main/kotlin/net/ntworld/mergeRequestIntegrationIde/util/HtmlHelper.kt:19-21 | Each occurrence of `<img src="/` is replaced; the output grows by the url's length per occurrence |
| `HtmlHelper.NothingToResolve` | merge-request-integration-core/src/main/kotlin/net/ntworld/mergeRequestIntegrationIde/util/HtmlHelper.kt:19-21 | HTML without a relative image source is unchanged |
| `HtmlHelper.AbsoluteSourceUntouched` | merge-request-integration-core/src/main/kotlin/net/ntworld/mergeRequestIntegrationIde/util/HtmlHelper.kt:19-21 | An image source not starting with "/" is untouched |
| `HtmlHelper.RelativeSourceResolved` | merge-request-integration-core/src/main/kotlin/net/ntworld/mergeRequestIntegrationIde/util/HtmlHelper.kt:19-21 | A relative source becomes the project url + "/" + path |
| `Text.TrimEmptyIffBlank` | merge-request-integration-core/src/main/kotlin/net/ntworld/mergeRequestIntegrationIde/mergeRequest/comments/CommentsTabViewImpl.kt:87-89 | `trim()` is empty iff the text is blank |
| `Text.TrimIdempotent` | merge-request-integration-core/src/main/kotlin/net/ntworld/mergeRequestIntegrationIde/infrastructure/internal/ServiceBase.kt:92 | Trimming twice is trimming once |
| `Text.TrimFixedIffTrimmed` | merge-request-integration-core/src/main/kotlin/net/ntworld/mergeRequestIntegrationIde/infrastructure/internal/ServiceBase.kt:92 | `trim()` leaves an id unchanged exactly when neither of its ends is whitespace, so a stored id is read back as it is exactly when it has no outer whitespace (`Persistence.ProviderRoundTrip`) |
| `Text.ParseInt` | merge-request-integration-core/src/main/kotlin/net/ntworld/mergeRequestIntegrationIde/ui/mergeRequest/MergeRequestCollectionFilter.kt:104 | `toIntOrNull` accepts exactly an optional '+' or '-' followed by at least one digit whose value fits in an Int, and yields the digits' value, negated after '-' |
| `Text.ParseIntOfIntToString` | merge-request-integration-core/src/main/kotlin/net/ntworld/mergeRequestIntegrationIde/mergeRequest/comments/CommentsTabViewImpl.kt:170-172 | Printing an Int and parsing it back gives the same Int |
| `Text.ParseIntSpellings` | merge-request-integration-core/src/main/kotlin/net/ntworld/mergeRequestIntegrationIde/ui/mergeRequest/MergeRequestCollectionFilter.kt:104-106 | The other spellings the id search accepts read as the canonical one: a '+' or a leading zero changes nothing, and a '-' negates |
| `Text.ParseIntExamples` | merge-request-integration-core/src/main/kotlin/net/ntworld/mergeRequestIntegrationIde/ui/mergeRequest/MergeRequestCollectionFilter.kt:104-106 | The empty string, a lone sign, a trailing letter and a leading space are rejected |
| `Text.ParseIntSpellingExamples` | merge-request-integration-core/src/main/kotlin/net/ntworld/mergeRequestIntegrationIde/ui/mergeRequest/MergeRequestCollectionFilter.kt:104-106 | "007" reads as 7, "+5" as 5 and "-0" as 0 |

## Left out

- `AbstractProjectServiceProvider` and the rest of the plugin: context only. The project-level wiring, such as which component is told what, is not part of this model.
- `HtmlHelper.convertFromMarkdown`: a call into the flexmark renderer, which is not part of this model.
- Swing and IntelliJ widgets are not modelled: layout, the message bus, `FileEditorManager`, logging, `invokeLater` (taken as done at once) and the 60-second sweep interval.
- The password safe is a map from credential attributes to tokens. KeePass, keychain and encryption behaviour are not modelled.
- The JDOM element is a datatype with a name, a map of attributes (setting one replaces it) and children. XML text serialisation is not modelled.
- Dialog answers are parameters. Showing the dialog is not modelled.
- Host functions are parameters:
  - path normalisation (`absolutePath`, `crossPlatformPath`);
  - a change's paths;
  - `groupCommentsByThreadId`;
  - `canSelect`;
  - `findChangeType`;
  - `URL(..).host`, where None stands for a malformed URL;
  - the rework-watcher lookup.
- The advanced filter's form is not modelled. The `GetMergeRequestFilter` it builds is an opaque value.
- `ThreadViews.CalcWidth`: the maximum (the right margin from font metrics) is an integer parameter. Kotlin `Int` overflow of the subtractions is not modelled, since the pixel widths involved are small.
- `HtmlHelper.ReplaceJoin`: Kotlin's `String.replace` is modelled for a non-empty pattern only. The one pattern the code uses is non-empty.
- `Text.ParseInt`: only ASCII digits are accepted. `toIntOrNull` also accepts other Unicode decimal digits.
- Listener methods that only forward to the dispatcher are not modelled: edit, publish, delete, resolve and unresolve in the comments tab and the thread view, and the tree listeners. `renderTree` is left out too.
- The comments tab's `clearMainEditorText` is not modelled. It only sets the text to "".
- The thread view's `resetEditorOfGroup` is not modelled. It resets a group's editor component, whose state lies outside this model.
- `onOpenDialogClicked` and the expand/collapse actions are not modelled. They only drive widgets.
- The one-side diff view's `updateComments`, `displayEditorOnLine` and `toggleCommentsOnLine` are not modelled. They delegate to a base class that is not part of this model.
- `CollectionFilter.KeyReleased`: the model records each text handed to `addCurrentTextToHistory`. What IntelliJ's `SearchTextField` then keeps is not modelled: trimming, dropping empty text, moving a duplicate to the top, newest first, a size limit.
- `OneSideDiff.FindIcon`: `findGutterIconRenderer` is defined in `AbstractDiffView`, which is not part of this model. A first-match lookup that finds nothing for an unregistered line is assumed.
- `OneSideDiff.ChangeGutterIconsByComments`: the source uses the lookup's result without a null check. What happens when no icon is registered for the line is not modelled; the model only marks that case.
- `OneSideDiff.OutsideLinesHaveNoIcon`: states only that a line outside the document meets the missing-icon case, not what the call then does, for the reason above.
- `ThreadViews.AccessMainEditor`: the editor the component factory makes on first access is a parameter.
- `CommitCollections.NewItem`: `CommitItemPanel` is not part of this model. A new item is taken to be selectable, unticked and enabled.
- `FilesTab.Redecorate`: the decorator holds a reference to a mutable context object. The model stands for that object by its provider and merge-request ids. A context swept from the manager and made again under the same ids would be a different object in the plugin, and that case is not told apart.
- `CommitCollections.SelectAll`: ticking or enabling the check boxes programmatically (lines 33-36 and 49-51, through `isSelectable`) fires the change listener of line 105 for each box, and that re-entry is not modelled; the same holds for `CommitCollections.UnselectAll`. Only the final state and the button's own dispatch are modelled.
- `CommitCollections.SelectionChanged`: setting an item's selectability is taken to keep its tick.
- The application service's `getState`/`loadState` also persist the settings manager, which is not part of this model.
- `ReviewContextManagers.KeyOfInjective`: keys are proved unambiguous only for provider ids without ':'. The code does not rule such ids out, and `KeyOfCollision` shows the clash.
- Each `Key(name)` constructor call makes a new key, distinct from every other. It is modelled as a key name with a generation number, generation 0 being the key the plugin declares.

## Findings

| source | as written | input that shows it | evidently intended | confidence | as-written member | corrected member |
|---|---|---|---|---|---|---|
| merge-request-integration-core/src/main/kotlin/net/ntworld/mergeRequestIntegrationIde/infrastructure/internal/ReviewContextImpl.kt:156 | `setReviewState` stores each restored value under a new `Key(k)`; a new key never equals `HAS_VIEWED` | A state mapping a change's path to `hasViewed = r`, restored into a context where that change was never opened: `getChangeData(change, HAS_VIEWED)` is still null | The restored value is read back through the declared key of that name, so that restored changes show no "new" badge | medium (not executed) | `ReviewContexts.SetReviewStateAsWritten` (shown by `ReviewContexts.RestoredViewedRevision`) | `ReviewContexts.SetReviewState` |
| merge-request-integration-core/src/main/kotlin/net/ntworld/mergeRequestIntegrationIde/mergeRequest/comments/CommentsTabViewImpl.kt:76-84 | Cancel asks "delete the whole content?" but drops the answer and always clears the text | Text "draft", answer "no": the text is cleared | Keep the text on "no", as the thread view's cancel does | low: the main editor is built without a cancel action (line 98); not executed | `CommentsTab.CancelClickedAsWritten` (shown by `CommentsTab.CancelIgnoresAnswer`) | `CommentsTab.CancelClicked` |

=== FILE: application_service.dfy ===
/**
  The application-level service: the provider configurations and review
  states of `Persistence`, the password safe they use, and the check that
  decides whether a provider's project may be used with this edition.
 */
module ApplicationServices {
  import opened Basics
  import opened OrderedMaps
  import opened Domain
  import opened Persistence

  /** The service's state: the two maps of the persistent component and the
      password safe it writes tokens to. */
  datatype Service = Service(store: Store, vault: Vault)

  /** Every provider entry is stored under its own id. */
  predicate KeyedById(providers: Assoc<string, ProviderSettings>) {
    && DistinctKeys(providers)
    && forall i :: 0 <= i < |providers| ==> providers[i].0 == providers[i].1.id
  }

  // ---------------------------------------------------------------------
  // provider configurations
  // ---------------------------------------------------------------------

  /** `addProviderConfiguration`: the token goes to the password safe, the
      settings (token included, repository empty) are stored under `id`. */
  function AddProviderConfiguration(svc: Service, id: string, info: ProviderInfo, credentials: ApiCredentials): (r: Service)
    ensures Get(r.store.providers, id) == Some(ProviderSettings(id, info, credentials, ""))
    ensures forall other :: other != id ==> Get(r.store.providers, other) == Get(svc.store.providers, other)
    ensures r.store.reviews == svc.store.reviews
    ensures Lookup(r.vault, MakeCredentialAttribute(info, credentials)) == Some(credentials.token)
    ensures forall a :: a != MakeCredentialAttribute(info, credentials) ==> Lookup(r.vault, a) == Lookup(svc.vault, a)
  {
    var encrypted := EncryptCredentials(svc.vault, info, credentials);
    var settings := ProviderSettings(id, info, encrypted.1, "");
    Service(svc.store.(providers := Put(svc.store.providers, id, settings)), encrypted.0)
  }

  /** Adding a configuration keeps every entry stored under its own id. */
  lemma AddKeepsKeyedById(svc: Service, id: string, info: ProviderInfo, credentials: ApiCredentials)
    requires KeyedById(svc.store.providers)
    ensures KeyedById(AddProviderConfiguration(svc, id, info, credentials).store.providers)
  {
    var ps := svc.store.providers;
    var r := AddProviderConfiguration(svc, id, info, credentials).store.providers;
    forall i | 0 <= i < |r| ensures r[i].0 == r[i].1.id {
      GetEntry(r, i);
      if r[i].0 != id {
        var j :| 0 <= j < |ps| && ps[j] == (r[i].0, r[i].1);
        GetEntry(ps, j);
      }
    }
  }

  /** `removeAllProviderConfigurations`: the providers are cleared; the
      review states and the password safe are kept (the `state` read that
      follows has no effect on the service). */
  function RemoveAllProviderConfigurations(svc: Service): (r: Service)
    ensures r.store.providers == []
    ensures r.store.reviews == svc.store.reviews && r.vault == svc.vault
  {
    svc.(store := svc.store.(providers := []))
  }

  /** After removing every configuration, the persisted element holds review
      states only. */
  lemma RemoveAllWritesReviewsOnly(svc: Service)
    ensures var root := GetState(RemoveAllProviderConfigurations(svc).store);
      |root.children| == |svc.store.reviews|
      && forall i :: 0 <= i < |root.children| ==> root.children[i].name == "Review"
  {
  }

  /** One stored configuration as `getProviderConfigurations` hands it out:
      the token from the safe when it has one, the repository emptied. */
  function Exported(vault: Vault, s: ProviderSettings): ProviderSettings {
    ProviderSettings(s.id, s.info, DecryptCredentials(vault, s.info, s.credentials), "")
  }

  /** `getProviderConfigurations`: every stored configuration, in insertion
      order, with its token from the password safe when the safe has one. */
  function GetProviderConfigurations(svc: Service): (r: seq<ProviderSettings>)
    ensures |r| == |svc.store.providers|
    ensures forall i :: 0 <= i < |r| ==>
      && r[i].id == svc.store.providers[i].1.id
      && r[i].info == svc.store.providers[i].1.info
      && r[i].repository == ""
      && r[i].credentials == svc.store.providers[i].1.credentials.(token := r[i].credentials.token)
      && r[i].credentials.token
         == DecryptPassword(svc.vault, svc.store.providers[i].1.info, svc.store.providers[i].1.credentials)
              .GetOr(svc.store.providers[i].1.credentials.token)
  {
    var vs := Values(svc.store.providers);
    seq(|vs|, i requires 0 <= i < |vs| => Exported(svc.vault, vs[i]))
  }

  /** A configuration added with a non-empty token is handed back exactly as
      it was added, wherever it sits among the others. */
  lemma AddThenGetConfiguration(svc: Service, id: string, info: ProviderInfo, credentials: ApiCredentials)
    requires credentials.token != ""
    ensures var r := AddProviderConfiguration(svc, id, info, credentials);
      ProviderSettings(id, info, credentials, "") in GetProviderConfigurations(r)
  {
    var r := AddProviderConfiguration(svc, id, info, credentials);
    var ps := r.store.providers;
    var s := ProviderSettings(id, info, credentials, "");
    var i :| 0 <= i < |ps| && ps[i] == (id, s);
    assert Exported(r.vault, s) == s;
    assert GetProviderConfigurations(r)[i] == s;
  }

  /** Adding a configuration changes what another configuration hands out
      only when both use the same entry of the password safe. */
  lemma AddKeepsOtherConfigurations(svc: Service, id: string, info: ProviderInfo, credentials: ApiCredentials, s: ProviderSettings)
    requires MakeCredentialAttribute(s.info, s.credentials) != MakeCredentialAttribute(info, credentials)
    ensures Exported(AddProviderConfiguration(svc, id, info, credentials).vault, s) == Exported(svc.vault, s)
  {
    CredentialAttributesDistinct(info, s.info, credentials, s.credentials);
  }

  // ---------------------------------------------------------------------
  // review states
  // ---------------------------------------------------------------------

  /** `getReviewState`: the state stored under `id`, if any. */
  function GetReviewState(svc: Service, id: string): (r: Option<ReviewState>)
    ensures r.None? <==> id !in Keys(svc.store.reviews)
  {
    Get(svc.store.reviews, id)
  }

  /** `addReviewState`: stores the state under its id, replacing any earlier
      state of the same merge request. */
  function AddReviewState(svc: Service, state: ReviewState): (r: Service)
    ensures GetReviewState(r, state.id) == Some(state)
    ensures forall id :: id != state.id ==> GetReviewState(r, id) == GetReviewState(svc, id)
    ensures r.store.providers == svc.store.providers && r.vault == svc.vault
  {
    svc.(store := svc.store.(reviews := Put(svc.store.reviews, state.id, state)))
  }

  /** Adding the same state twice is adding it once. */
  lemma {:induction false} AddReviewStateIdempotent(svc: Service, state: ReviewState)
    ensures AddReviewState(AddReviewState(svc, state), state) == AddReviewState(svc, state)
  {
    PutTwice(svc.store.reviews, state.id, state);
  }

  /** `map[k] = v; map[k] = v` is `map[k] = v`. */
  lemma {:induction false} PutTwice<V>(a: Assoc<string, V>, k: string, v: V)
    ensures Put(Put(a, k, v), k, v) == Put(a, k, v)
  {
    if a != [] && a[0].0 != k {
      PutTwice(a[1..], k, v);
      assert Put(a, k, v)[1..] == Put(a[1..], k, v);
    }
  }

  // ---------------------------------------------------------------------
  // legality of a provider's project
  // ---------------------------------------------------------------------

  /** Hosts on which public projects may be used. */
  const PublicLegalGrantedDomains: seq<string> := ["gitlab.com", "www.gitlab.com"]

  /** Hosts on which any project may be used. */
  const LegalGrantedDomains: seq<string> := ["gitlab.personio-internal.de"]

  /** `isLegal`. `hostOf` is `URL(url).host`; None stands for the
      MalformedURLException the URL constructor throws, which `isLegal` lets
      escape — so the result is None then. */
  function IsLegal(data: ProviderData, hostOf: string -> Option<string>): (r: Option<bool>)
    ensures data.status == StatusError || data.projectUrl == "" ==> r == Some(false)
    ensures r.None? <==> data.status != StatusError && data.projectUrl != "" && hostOf(data.projectUrl).None?
  {
    if data.status == StatusError || data.projectUrl == "" then Some(false)
    else
      match hostOf(data.projectUrl)
      case None => None
      case Some(host) =>
        if host in PublicLegalGrantedDomains && data.visibility == Public then Some(true)
        else Some(host in LegalGrantedDomains)
  }

  /** A project is legal exactly when its provider is not in error, it has a
      url, and its host is either the granted internal host or gitlab.com
      (with or without "www.") for a public project. */
  lemma IsLegalMeaning(data: ProviderData, hostOf: string -> Option<string>)
    ensures IsLegal(data, hostOf) == Some(true) <==> (
      && data.status != StatusError
      && data.projectUrl != ""
      && hostOf(data.projectUrl).Some?
      && var host := hostOf(data.projectUrl).value;
         || host == "gitlab.personio-internal.de"
         || ((host == "gitlab.com" || host == "www.gitlab.com") && data.visibility == Public))
  {
  }

  /** A private project on gitlab.com is not legal. */
  lemma PrivateGitlabComIsNotLegal(data: ProviderData, hostOf: string -> Option<string>)
    requires data.status != StatusError && data.projectUrl != ""
    requires hostOf(data.projectUrl) == Some("gitlab.com")
    requires data.visibility != Public
    ensures IsLegal(data, hostOf) == Some(false)
  {
    assert "gitlab.com" != "gitlab.personio-internal.de";
  }
}

=== FILE: basics.dfy ===
/** The nullable values of the Kotlin code. A Kotlin `T?` is an `Option<T>`. */
module Basics {

  datatype Option<+T> = None | Some(value: T) {

    /** The Kotlin elvis operator `x ?: default`. */
    function GetOr(default: T): T {
      match this
      case Some(v) => v
      case None => default
    }
  }
}

=== FILE: collection_filter.dfy ===
/**
  The filter bar above the merge-request list: the search field with its
  search-by-id behaviour, the three ordering toggles, and the advanced-filter
  button, which holds back preselected values until its panel is ready.
  The filter objects themselves are built by the filter panel; the model
  keeps the request that is made of it.
 */
module CollectionFilter {
  import opened Basics
  import opened Text

  /** `buildFilter(search)` or `buildFilterForSearchById(id)`. */
  datatype FilterRequest = ByText(search: string) | ById(id: int)

  datatype Ordering = Oldest | Newest | RecentlyUpdated

  /** What the filter bar tells its listeners. */
  datatype Event = FilterChanged(filter: FilterRequest) | OrderChanged(ordering: Ordering)

  /** The search field's text, the texts handed to the field's
      `addCurrentTextToHistory` so far (oldest first; what the platform
      widget then keeps in its own history is not part of this model), the key
      listener's flag, the current ordering, and what was last saved to the
      filter storage. */
  datatype Bar = Bar(
    text: string,
    historyAdds: seq<string>,
    searchingById: bool,
    ordering: Ordering,
    saved: Option<(FilterRequest, Ordering)>)

  /** Enter is key code 10 or 13; a missing event counts as another key. */
  predicate IsEnter(keyCode: Option<int>) {
    keyCode == Some(10) || keyCode == Some(13)
  }

  /** `keyReleased`, returning the new state and the events dispatched. */
  function KeyReleased(bar: Bar, keyCode: Option<int>): (r: (Bar, seq<Event>))
    // Enter: search by id for integer text, by text otherwise; save, and hand the text to the history
    ensures IsEnter(keyCode) ==>
      var f := if ParseInt(bar.text).Some? then ById(ParseInt(bar.text).value) else ByText(bar.text);
      && r.1 == [FilterChanged(f)]
      && r.0 == bar.(saved := Some((f, bar.ordering)), historyAdds := bar.historyAdds + [bar.text])
    // another key with integer text: search by id, without saving
    ensures !IsEnter(keyCode) && ParseInt(bar.text).Some? ==>
      r.1 == [FilterChanged(ById(ParseInt(bar.text).value))] && r.0 == bar.(searchingById := true)
    // another key leaving an id search: reload with the empty search
    ensures !IsEnter(keyCode) && ParseInt(bar.text).None? && bar.searchingById ==>
      r.1 == [FilterChanged(ByText(""))] && r.0 == bar.(searchingById := false)
    // another key, no id search going on: nothing
    ensures !IsEnter(keyCode) && ParseInt(bar.text).None? && !bar.searchingById ==>
      r.1 == [] && r.0 == bar
  {
    if !IsEnter(keyCode) then
      var id := ParseInt(bar.text);
      if id.Some? then (bar.(searchingById := true), [FilterChanged(ById(id.value))])
      else if bar.searchingById then (bar.(searchingById := false), [FilterChanged(ByText(""))])
      else (bar, [])
    else
      var id := ParseInt(bar.text);
      var f := if id.Some? then ById(id.value) else ByText(bar.text);
      (bar.(saved := Some((f, bar.ordering)), historyAdds := bar.historyAdds + [bar.text]), [FilterChanged(f)])
  }

  /** After any key but Enter, the flag says whether the text is an integer. */
  lemma FlagTracksText(bar: Bar, keyCode: Option<int>)
    requires !IsEnter(keyCode)
    ensures KeyReleased(bar, keyCode).0.searchingById <==> ParseInt(bar.text).Some?
  {
  }

  /** Releasing another key twice over the same text dispatches nothing new
      the second time unless the text is an integer: leaving an id search
      reloads the list once. */
  lemma LeavingIdSearchReloadsOnce(bar: Bar, k1: Option<int>, k2: Option<int>)
    requires !IsEnter(k1) && !IsEnter(k2)
    requires ParseInt(bar.text).None?
    ensures KeyReleased(KeyReleased(bar, k1).0, k2).1 == []
  {
  }

  /** Typing "12" and then "12a" searches for merge request 12 and then
      reloads the unfiltered list. */
  lemma IdSearchExample(bar: Bar)
    requires bar.text == "12" && !bar.searchingById
    ensures KeyReleased(bar, Some(50)).1 == [FilterChanged(ById(12))]
    ensures KeyReleased(KeyReleased(bar, Some(50)).0.(text := "12a"), Some(65)).1 == [FilterChanged(ByText(""))]
  {
    ParseIntExamples();
    ParseIntOfIntToString(12);
    assert IntToString(12) == "12";
    assert !IsDigit('a');
    assert ParseInt("12a").None?;
  }

  // ---------------------------------------------------------------------
  // ordering
  // ---------------------------------------------------------------------

  /** `OrderButton.isSelected`. */
  predicate IsSelected(bar: Bar, order: Ordering) {
    bar.ordering == order
  }

  /** `OrderButton.setSelected`: unselecting does nothing; selecting sets the
      ordering, tells the listeners and saves the text filter with it. */
  function SetSelected(bar: Bar, order: Ordering, state: bool): (r: (Bar, seq<Event>))
    ensures !state ==> r == (bar, [])
    ensures state ==> (IsSelected(r.0, order) && r.1 == [OrderChanged(order)]
                       && r.0 == bar.(ordering := order, saved := Some((ByText(bar.text), order))))
  {
    if state then (bar.(ordering := order, saved := Some((ByText(bar.text), order))), [OrderChanged(order)])
    else (bar, [])
  }

  /** The three toggles act as radio buttons: after selecting one, exactly
      that one reads as selected. */
  lemma OrderingIsExclusive(bar: Bar, order: Ordering, other: Ordering)
    ensures IsSelected(SetSelected(bar, order, true).0, other) <==> other == order
  {
  }

  /** `onFieldCleared`: the (now empty) text is searched for and saved. */
  function FieldCleared(bar: Bar): (r: (Bar, seq<Event>))
    ensures r.1 == [FilterChanged(ByText(bar.text))]
    ensures r.0 == bar.(saved := Some((ByText(bar.text), bar.ordering)))
  {
    (bar.(saved := Some((ByText(bar.text), bar.ordering))), [FilterChanged(ByText(bar.text))])
  }

  /** The callback the filter panel calls when one of its properties
      changes: the text filter is rebuilt, dispatched and saved. */
  function FilterPropertiesChanged(bar: Bar): (r: (Bar, seq<Event>))
    ensures r.1 == [FilterChanged(ByText(bar.text))]
    ensures r.0.saved == Some((ByText(bar.text), bar.ordering))
    ensures r.0.text == bar.text && r.0.historyAdds == bar.historyAdds && r.0.ordering == bar.ordering
    ensures r.0.searchingById == bar.searchingById
  {
    var filter := ByText(bar.text);
    (bar.(saved := Some((filter, bar.ordering))), [FilterChanged(filter)])
  }

  /** A changed panel property and a cleared field refresh the list the same
      way; Enter on text that is not an integer does too, besides handing
      the text to the field's history. */
  lemma TextRefreshesAgree(bar: Bar, keyCode: Option<int>)
    requires IsEnter(keyCode) && ParseInt(bar.text).None?
    ensures FilterPropertiesChanged(bar) == FieldCleared(bar)
    ensures KeyReleased(bar, keyCode).1 == FieldCleared(bar).1
    ensures KeyReleased(bar, keyCode).0 == FieldCleared(bar).0.(historyAdds := bar.historyAdds + [bar.text])
  {
  }

  // ---------------------------------------------------------------------
  // the advanced-filter button
  // ---------------------------------------------------------------------

  /** Whether the filter panel has reported ready, the value held back until
      then, and the values handed to the panel so far. */
  datatype Advanced = Advanced(isReady: bool, preselected: Option<FilterRequest>, applied: seq<FilterRequest>)

  const NotReady: Advanced := Advanced(false, None, [])

  /** `setPreselectedValues`: applied at once when the panel is ready, held
      back (replacing any earlier held value) otherwise. */
  function SetPreselectedValues(a: Advanced, value: FilterRequest): (r: Advanced)
    ensures r.isReady == a.isReady
    ensures a.isReady ==> r.applied == a.applied + [value] && r.preselected.None?
    ensures !a.isReady ==> r.applied == a.applied && r.preselected == Some(value)
  {
    if a.isReady then a.(applied := a.applied + [value], preselected := None)
    else a.(preselected := Some(value))
  }

  /** The ready handler: applies and forgets a held-back value. */
  function OnReady(a: Advanced): (r: Advanced)
    ensures r.isReady && r.preselected.None?
    ensures a.preselected.Some? ==> r.applied == a.applied + [a.preselected.value]
    ensures a.preselected.None? ==> r.applied == a.applied
  {
    match a.preselected
    case Some(value) => Advanced(true, None, a.applied + [value])
    case None => a.(isReady := true)
  }

  /** `update`: the button is enabled once the panel is ready. */
  predicate IsEnabled(a: Advanced) {
    a.isReady
  }

  /** Whether the value arrives before or after the panel is ready, the
      panel receives it exactly once and nothing stays held back. */
  lemma PreselectionAppliedOnce(value: FilterRequest)
    ensures OnReady(SetPreselectedValues(NotReady, value)) == SetPreselectedValues(OnReady(NotReady), value)
    ensures OnReady(SetPreselectedValues(NotReady, value)).applied == [value]
  {
  }

  /** Only the last of several values given before ready is applied. */
  lemma LastPreselectionWins(a: Advanced, first: FilterRequest, second: FilterRequest)
    requires !a.isReady
    ensures OnReady(SetPreselectedValues(SetPreselectedValues(a, first), second)).applied == a.applied + [second]
  {
  }

  /** The constructor: the stored ordering and search text, and the stored
      filter preselected on the (not yet ready) panel. */
  function Init(search: string, ordering: Ordering, stored: FilterRequest): (r: (Bar, Advanced))
    ensures r.0.text == search && r.0.ordering == ordering && !r.0.searchingById && r.0.saved.None?
    ensures !IsEnabled(r.1) && r.1.preselected == Some(stored) && r.1.applied == []
  {
    (Bar(search, [], false, ordering, None), SetPreselectedValues(NotReady, stored))
  }
}

=== FILE: comment_tree_toolbar.dfy ===
/**
  The toolbar above the comment tree: the "Resolved Comments" and "Only
  Draft" toggles, the refresh and general-comment buttons, and how they
  look in the full and the compact mode.
 */
module CommentTreeToolbar {
  import opened Basics

  datatype ToolbarMode = Full | Compact

  datatype Toolbar = Toolbar(showResolved: bool, onlyShowDraftComments: bool, mode: ToolbarMode)

  /** What the toolbar tells its listeners. */
  datatype Event =
    | ShowResolvedCommentsToggled(displayResolvedComments: bool)
    | ShowDraftCommentsOnlyToggled(onlyShowDraftComments: bool)
    | RefreshButtonClicked
    | CreateGeneralCommentClicked

  /** The initial toolbar: resolved comments hidden, every comment shown, full mode. */
  const Initial: Toolbar := Toolbar(false, false, Full)

  /** `setMode`. */
  function SetMode(t: Toolbar, mode: ToolbarMode): (r: Toolbar)
    ensures r.mode == mode
    ensures r.showResolved == t.showResolved && r.onlyShowDraftComments == t.onlyShowDraftComments
  {
    if mode != t.mode then t.(mode := mode) else t
  }

  /** The resolved toggle's `setSelected`: the flag takes the new state and
      the listeners hear that same value. */
  function ToggleResolved(t: Toolbar, state: bool): (r: (Toolbar, Event))
    ensures r.0.showResolved == state && r.1 == ShowResolvedCommentsToggled(state)
    ensures r.0.onlyShowDraftComments == t.onlyShowDraftComments && r.0.mode == t.mode
  {
    var u := t.(showResolved := state);
    (u, ShowResolvedCommentsToggled(u.showResolved))
  }

  /** The draft toggle's `setSelected`. */
  function ToggleDrafts(t: Toolbar, state: bool): (r: (Toolbar, Event))
    ensures r.0.onlyShowDraftComments == state && r.1 == ShowDraftCommentsOnlyToggled(state)
    ensures r.0.showResolved == t.showResolved && r.0.mode == t.mode
  {
    var u := t.(onlyShowDraftComments := state);
    (u, ShowDraftCommentsOnlyToggled(u.onlyShowDraftComments))
  }

  /** Each toggle reads back as selected exactly when it was last set, and
      setting one leaves the other alone. */
  lemma TogglesAreIndependent(t: Toolbar, a: bool, b: bool)
    ensures var u := ToggleDrafts(ToggleResolved(t, a).0, b).0;
      u.showResolved == a && u.onlyShowDraftComments == b && u.mode == t.mode
    ensures ToggleResolved(ToggleDrafts(t, b).0, a).0 == ToggleDrafts(ToggleResolved(t, a).0, b).0
  {
  }

  /** No icon, the plugin's "resolved" icon, or the platform's "add" icon. */
  datatype Icon = NoIcon | ResolvedIcon | AddIcon

  /** How a button is presented. */
  datatype Presentation = Presentation(enabled: bool, icon: Icon, text: string, textShown: bool)

  /** The resolved toggle: disabled while only drafts are shown; an icon and
      no text in compact mode, text and no icon in full mode. */
  function ResolvedPresentation(t: Toolbar): (p: Presentation)
    ensures p.enabled <==> !t.onlyShowDraftComments
    ensures p.icon == NoIcon <==> t.mode == Full
    ensures p.textShown <==> t.mode == Full
    ensures p.text == "Resolved Comments"
  {
    Presentation(!t.onlyShowDraftComments, if t.mode == Full then NoIcon else ResolvedIcon,
                 "Resolved Comments", t.mode == Full)
  }

  /** The draft toggle always shows its text. */
  function DraftsPresentation(t: Toolbar): (p: Presentation)
    ensures p.enabled && p.textShown && p.text == "Only Draft" && p.icon == NoIcon
  {
    Presentation(true, NoIcon, "Only Draft", true)
  }

  /** The general-comment button: the "add" icon in every mode, with a short
      label shown as text in full mode and a longer label, not shown in the
      toolbar, in compact mode. */
  function GeneralCommentPresentation(t: Toolbar): (p: Presentation)
    ensures p.enabled && p.icon == AddIcon
    ensures t.mode == Full ==> p.text == "General Comment" && p.textShown
    ensures t.mode == Compact ==> p.text == "Add a general comment" && !p.textShown
  {
    Presentation(true, AddIcon, if t.mode == Full then "General Comment" else "Add a general comment", t.mode == Full)
  }

  /** In every mode, the buttons with text in the toolbar are the same
      set: the resolved toggle and the general-comment button show text
      together or not at all. */
  lemma TextShownTogether(t: Toolbar)
    ensures ResolvedPresentation(t).textShown == GeneralCommentPresentation(t).textShown
  {
  }

  /** A fresh toolbar shows every comment but the resolved ones: both
      toggles read unselected, the resolved toggle is enabled and both it
      and the general-comment button show their text. */
  lemma InitialPresentation()
    ensures !Initial.showResolved && !Initial.onlyShowDraftComments
    ensures ResolvedPresentation(Initial) == Presentation(true, NoIcon, "Resolved Comments", true)
    ensures GeneralCommentPresentation(Initial).textShown
  {
  }

  /** The refresh and general-comment buttons only notify. */
  function Clicked(refresh: bool): (e: Event)
    ensures refresh ==> e == RefreshButtonClicked
    ensures !refresh ==> e == CreateGeneralCommentClicked
  {
    if refresh then RefreshButtonClicked else CreateGeneralCommentClicked
  }
}

=== FILE: comments_tab.dfy ===
/**
  The "Comments" tab of a merge request: its title, the thread pane it
  renders for a selected tree node, and the guards on its main editor and
  reply editors.
 */
module CommentsTab {
  import opened Basics
  import opened Text
  import opened Domain

  // ---------------------------------------------------------------------
  // the tab title
  // ---------------------------------------------------------------------

  const TitlePrefix: string := "Comments · "

  /** `displayCommentCount`: "Comments", followed by " · n" unless n is 0. */
  function TabTitle(count: int): (title: string)
    ensures count == 0 ==> title == "Comments"
    ensures count != 0 ==> title == TitlePrefix + IntToString(count)
  {
    if count == 0 then "Comments" else TitlePrefix + IntToString(count)
  }

  /** The count can be read back from the title: the plain title stands for
      0, and otherwise the text after the prefix parses to the count. */
  lemma TabTitleRoundTrip(count: int)
    requires IntMin <= count <= IntMax
    ensures TabTitle(count) == "Comments" <==> count == 0
    ensures count != 0 ==> (
      && |TabTitle(count)| > |TitlePrefix|
      && TabTitle(count)[..|TitlePrefix|] == TitlePrefix
      && ParseInt(TabTitle(count)[|TitlePrefix|..]) == Some(count))
  {
    if count != 0 {
      var title := TabTitle(count);
      assert title[|TitlePrefix|..] == IntToString(count);
      ParseIntOfIntToString(count);
      assert |title| != |"Comments"|;
    }
  }

  // ---------------------------------------------------------------------
  // editor guards
  // ---------------------------------------------------------------------

  /** `onCreateCommentRequested(text, position, isDraft)`. */
  datatype CreateRequest = CreateRequest(text: string, position: Option<CommentPosition>, isDraft: bool)

  /** The main editor's submit: only text that is not blank is sent, and it
      is sent as typed, untrimmed, with the position of the rendered thread. */
  function SubmitClicked(text: string, position: Option<CommentPosition>, isDraft: bool): (r: Option<CreateRequest>)
    ensures r.Some? <==> Trim(text) != ""
    ensures r.Some? ==> r.value == CreateRequest(text, position, isDraft)
  {
    if Trim(text) != "" then Some(CreateRequest(text, position, isDraft)) else None
  }

  /** A reply from a group: forwarded only when its content is not blank. */
  function ReplyRequested(comment: Comment, content: string): (r: Option<(Comment, string)>)
    ensures r.Some? <==> Trim(content) != ""
    ensures r.Some? ==> r.value == (comment, content)
  {
    if Trim(content) != "" then Some((comment, content)) else None
  }

  /** Nothing blank is ever sent: a submit or a reply goes out exactly when
      the text has a character that is not whitespace. */
  lemma SentIffNotBlank(text: string, position: Option<CommentPosition>, isDraft: bool, comment: Comment)
    ensures SubmitClicked(text, position, isDraft).Some? <==> !IsBlank(text)
    ensures ReplyRequested(comment, text).Some? <==> !IsBlank(text)
  {
    TrimEmptyIffBlank(text);
  }

  /** The main editor after Cancel: its text, and whether the "delete the
      whole content?" question was asked. */
  datatype CancelOutcome = CancelOutcome(text: string, asked: bool)

  /** Cancel as written: the question is asked when there is text, its answer
      is computed and dropped, and the text is cleared regardless. `answerYes`
      is the user's answer to the question. */
  function CancelClickedAsWritten(text: string, answerYes: bool): (r: CancelOutcome)
    ensures r.asked <==> !IsBlank(text)
    ensures r.text == ""
  {
    CancelOutcome("", !IsBlank(text))
  }

  /** Cancel as the question promises (and as the thread view's cancel
      does): blank text is cleared without asking; otherwise the text is
      cleared only when the answer is yes. */
  function CancelClicked(text: string, answerYes: bool): (r: CancelOutcome)
    ensures r.asked <==> !IsBlank(text)
    ensures r.text == "" <==> IsBlank(text) || answerYes || text == ""
    ensures r.text != "" ==> r.text == text
  {
    if IsBlank(text) || answerYes then CancelOutcome("", !IsBlank(text)) else CancelOutcome(text, true)
  }

  /** The discrepancy: answering "no" to "delete the whole content?" still
      deletes it; the corrected cancel keeps the text. */
  lemma CancelIgnoresAnswer()
    ensures CancelClickedAsWritten("draft", false) == CancelOutcome("", true)
    ensures CancelClicked("draft", false) == CancelOutcome("draft", true)
  {
    assert !IsWhitespace("draft"[0]);
    assert !IsBlank("draft");
  }

  /** Both agree whenever the question is not asked or answered yes. */
  lemma CancelAgreesOnYes(text: string, answerYes: bool)
    requires IsBlank(text) || answerYes
    ensures CancelClicked(text, answerYes) == CancelClickedAsWritten(text, answerYes)
  {
  }

  // ---------------------------------------------------------------------
  // the thread pane
  // ---------------------------------------------------------------------

  type Group = (string, seq<Comment>)

  /** Reference: the groups that get a component, in order. */
  function NonEmptyGroups(groups: seq<Group>): (r: seq<Group>)
    ensures |r| <= |groups|
    ensures forall g :: g in r <==> g in groups && g.1 != []
  {
    if groups == [] then []
    else
      var rest := NonEmptyGroups(groups[1..]);
      assert forall g :: g in groups <==> g == groups[0] || g in groups[1..];
      if groups[0].1 == [] then rest else [groups[0]] + rest
  }

  /** Reference: the position of the first comment of the last non-empty
      group; None when every group is empty (or that comment has none). */
  function LastPosition(groups: seq<Group>): Option<CommentPosition> {
    if groups == [] then None
    else
      var last := groups[|groups| - 1];
      if last.1 != [] then last.1[0].position else LastPosition(groups[..|groups| - 1])
  }

  lemma {:induction false} NonEmptyGroupsAppend(groups: seq<Group>, g: Group)
    ensures NonEmptyGroups(groups + [g]) == NonEmptyGroups(groups) + (if g.1 == [] then [] else [g])
  {
    if groups == [] {
      assert [g][1..] == [];
    } else {
      assert (groups + [g])[1..] == groups[1..] + [g];
      NonEmptyGroupsAppend(groups[1..], g);
    }
  }

  /** The main editor's button text and description. */
  datatype ButtonText = ButtonText(text: string, desc: string)

  function ButtonFor(position: Option<CommentPosition>): (b: ButtonText)
    ensures position.Some? ==> b.text == "Add comment" && b.desc == "Add comment to current line"
    ensures position.None? ==> b.text == "Add general comment" && b.desc == "Create new thread of general comment"
  {
    if position.Some? then ButtonText("Add comment", "Add comment to current line")
    else ButtonText("Add general comment", "Create new thread of general comment")
  }

  /** What `renderThread` leaves: the groups shown, the position new
      comments are filed at, the main editor's button and that the thread
      pane is showing. */
  datatype Thread = Thread(shown: seq<Group>, position: Option<CommentPosition>, button: ButtonText, visible: bool)

  /** `renderThread`: the previous groups are dropped and the position reset;
      each non-empty group gets a component and overwrites the position with
      its first comment's. */
  method RenderThread(groups: seq<Group>) returns (t: Thread)
    ensures t.shown == NonEmptyGroups(groups)
    ensures t.position == LastPosition(groups)
    ensures t.button == ButtonFor(t.position) && t.visible
  {
    var shown: seq<Group> := [];
    var position: Option<CommentPosition> := None;
    var i := 0;
    while i < |groups|
      invariant 0 <= i <= |groups|
      invariant shown == NonEmptyGroups(groups[..i])
      invariant position == LastPosition(groups[..i])
    {
      var g := groups[i];
      NonEmptyGroupsAppend(groups[..i], g);
      assert groups[..i + 1] == groups[..i] + [g];
      assert groups[..i + 1][..i] == groups[..i];
      if g.1 != [] {
        position := g.1[0].position;
        shown := shown + [g];
      }
      i := i + 1;
    }
    assert groups[..|groups|] == groups;
    t := Thread(shown, position, ButtonFor(position), true);
  }

  /** Only the last non-empty group decides the position: a general thread
      rendered after a positioned one leaves no position. */
  lemma LastGroupDecidesPosition(positioned: Comment, general: Comment, p: CommentPosition)
    requires positioned.position == Some(p) && general.position.None?
    ensures LastPosition([("a", [positioned]), ("b", [general])]) == None
    ensures LastPosition([("b", [general]), ("a", [positioned]), ("c", [])]) == Some(p)
  {
    var gs := [("b", [general]), ("a", [positioned]), ("c", [])];
    assert gs[..2][1] == ("a", [positioned]);
  }

  /** `hideThread`. */
  function HideThread(t: Thread): (r: Thread)
    ensures !r.visible && r.shown == t.shown && r.position == t.position
  {
    t.(visible := false)
  }
}

=== FILE: commit_collection.dfy ===
/**
  The commit list of a merge request: one item per commit with a check box,
  "Select all" / "Unselect all", and the event that tells listeners which
  commits are selected.
 */
module CommitCollections {
  import opened Basics
  import opened Domain

  /** A commit item: whether its box may be ticked, whether it is ticked, and
      whether the item is enabled. */
  datatype Item = Item(commit: Commit, selectable: bool, selected: bool, enabled: bool)

  /** A freshly made item. CommitItemPanel is not part of this model; a new
      item is taken to be selectable, unticked and enabled. */
  function NewItem(c: Commit): Item {
    Item(c, true, false, true)
  }

  datatype Collection = Collection(
    items: seq<Item>,
    providerData: Option<ProviderData>,
    mergeRequestInfo: Option<MergeRequestInfo>)

  const EmptyCollection: Collection := Collection([], None, None)

  /** `commitsSelected(providerData, mergeRequestInfo, commits)`. */
  datatype Dispatch = CommitsSelected(providerData: ProviderData, mergeRequestInfo: MergeRequestInfo, commits: seq<Commit>)

  /** `dispatchCommitSelectedEvent`: nothing unless both the provider data and
      the merge-request info are known. */
  function DispatchCommitSelected(col: Collection, commits: seq<Commit>): (r: Option<Dispatch>)
    ensures r.Some? <==> col.providerData.Some? && col.mergeRequestInfo.Some?
    ensures r.Some? ==> r.value == CommitsSelected(col.providerData.value, col.mergeRequestInfo.value, commits)
  {
    if col.providerData.Some? && col.mergeRequestInfo.Some? then
      Some(CommitsSelected(col.providerData.value, col.mergeRequestInfo.value, commits))
    else None
  }

  /** The commits of the items, in item order. */
  function CommitsOf(items: seq<Item>): (cs: seq<Commit>)
    ensures |cs| == |items|
    ensures forall i :: 0 <= i < |items| ==> cs[i] == items[i].commit
  {
    if items == [] then [] else [items[0].commit] + CommitsOf(items[1..])
  }

  /** Reference: the commits of the ticked items, in item order. */
  function SelectedCommits(items: seq<Item>): (cs: seq<Commit>)
    ensures |cs| <= |items|
    ensures forall c :: c in cs ==> exists i :: 0 <= i < |items| && items[i].selected && items[i].commit == c
    ensures forall i :: 0 <= i < |items| && items[i].selected ==> items[i].commit in cs
  {
    if items == [] then []
    else
      var rest := SelectedCommits(items[1..]);
      assert forall i :: 1 <= i < |items| ==> items[i] == items[1..][i - 1];
      if items[0].selected then [items[0].commit] + rest else rest
  }

  lemma {:induction false} SelectedCommitsAppend(items: seq<Item>, x: Item)
    ensures SelectedCommits(items + [x]) == SelectedCommits(items) + (if x.selected then [x.commit] else [])
  {
    if items != [] {
      assert (items + [x])[1..] == items[1..] + [x];
      SelectedCommitsAppend(items[1..], x);
    } else {
      assert ([x])[1..] == [];
    }
  }

  /** `clear`. */
  function Clear(col: Collection): (r: Collection)
    ensures r.items == []
    ensures r.providerData == col.providerData && r.mergeRequestInfo == col.mergeRequestInfo
  {
    col.(items := [])
  }

  /** `setCommits`: the old items go, then one fresh item per commit. */
  function SetCommits(col: Collection, providerData: ProviderData, mergeRequestInfo: MergeRequestInfo,
                      commits: seq<Commit>): (r: Collection)
    ensures |r.items| == |commits|
    ensures forall i :: 0 <= i < |commits| ==> r.items[i] == NewItem(commits[i])
    ensures CommitsOf(r.items) == commits
    ensures r.providerData == Some(providerData) && r.mergeRequestInfo == Some(mergeRequestInfo)
  {
    var items := seq(|commits|, i requires 0 <= i < |commits| => NewItem(commits[i]));
    Collection(items, Some(providerData), Some(mergeRequestInfo))
  }

  /** "Select all": every item selectable and ticked; all commits dispatched
      in item order. */
  function SelectAll(col: Collection): (r: (Collection, Option<Dispatch>))
    ensures |r.0.items| == |col.items|
    ensures forall i :: 0 <= i < |col.items| ==>
      r.0.items[i] == col.items[i].(selectable := true, selected := true)
    ensures r.0.providerData == col.providerData && r.0.mergeRequestInfo == col.mergeRequestInfo
    ensures r.1 == DispatchCommitSelected(col, CommitsOf(col.items))
  {
    var items := seq(|col.items|, i requires 0 <= i < |col.items| => col.items[i].(selectable := true, selected := true));
    (col.(items := items), DispatchCommitSelected(col, CommitsOf(col.items)))
  }

  /** "Unselect all": every item selectable and unticked; the empty list
      dispatched. */
  function UnselectAll(col: Collection): (r: (Collection, Option<Dispatch>))
    ensures |r.0.items| == |col.items|
    ensures forall i :: 0 <= i < |col.items| ==>
      r.0.items[i] == col.items[i].(selectable := true, selected := false)
    ensures r.0.providerData == col.providerData && r.0.mergeRequestInfo == col.mergeRequestInfo
    ensures r.1 == DispatchCommitSelected(col, [])
  {
    var items := seq(|col.items|, i requires 0 <= i < |col.items| => col.items[i].(selectable := true, selected := false));
    (col.(items := items), DispatchCommitSelected(col, []))
  }

  /** After "Select all", the selected commits are all the commits; after
      "Unselect all", none. */
  lemma {:induction false} SelectAllSelectsEverything(col: Collection)
    ensures SelectedCommits(SelectAll(col).0.items) == CommitsOf(col.items)
    ensures SelectedCommits(UnselectAll(col).0.items) == []
  {
    AllTicked(SelectAll(col).0.items, col.items);
    NoneTicked(UnselectAll(col).0.items);
  }

  lemma {:induction false} AllTicked(items: seq<Item>, orig: seq<Item>)
    requires |items| == |orig|
    requires forall i :: 0 <= i < |items| ==> items[i].selected && items[i].commit == orig[i].commit
    ensures SelectedCommits(items) == CommitsOf(orig)
  {
    if items != [] {
      AllTicked(items[1..], orig[1..]);
    }
  }

  lemma {:induction false} NoneTicked(items: seq<Item>)
    requires forall i :: 0 <= i < |items| ==> !items[i].selected
    ensures SelectedCommits(items) == []
  {
    if items != [] {
      NoneTicked(items[1..]);
    }
  }

  /** The change listener of the check boxes: every item's selectability is
      recomputed with `canSelect` from the (commit, ticked) pairs taken before
      any change, then the ticked commits are dispatched in item order.
      CommitItemPanel is not part of this model; setting an item's
      selectability is taken to leave its tick as it is. */
  method SelectionChanged(col: Collection, canSelect: (seq<(Commit, bool)>, int) -> bool)
    returns (r: Collection, dispatched: Option<Dispatch>)
    ensures |r.items| == |col.items|
    ensures forall i :: 0 <= i < |col.items| ==>
      r.items[i] == col.items[i].(selectable := canSelect(Pairs(col.items), i))
    ensures r.providerData == col.providerData && r.mergeRequestInfo == col.mergeRequestInfo
    ensures dispatched == DispatchCommitSelected(col, SelectedCommits(col.items))
  {
    var items := RecomputeSelectable(col.items, canSelect);
    var selectedCommits := CollectSelected(items);
    SameTicks(items, col.items);
    r := col.(items := items);
    dispatched := DispatchCommitSelected(col, selectedCommits);
  }

  /** The first pass of the change listener: each item's selectability from
      `canSelect` on the pairs taken before the pass. */
  method RecomputeSelectable(orig: seq<Item>, canSelect: (seq<(Commit, bool)>, int) -> bool)
    returns (items: seq<Item>)
    ensures |items| == |orig|
    ensures forall i :: 0 <= i < |orig| ==> items[i] == orig[i].(selectable := canSelect(Pairs(orig), i))
  {
    var list := Pairs(orig);
    items := orig;
    var index := 0;
    while index < |items|
      invariant 0 <= index <= |items| && |items| == |orig|
      invariant forall i :: 0 <= i < index ==> items[i] == orig[i].(selectable := canSelect(list, i))
      invariant forall i :: index <= i < |items| ==> items[i] == orig[i]
    {
      items := items[index := items[index].(selectable := canSelect(list, index))];
      index := index + 1;
    }
  }

  /** The second pass: the ticked commits, in item order. */
  method CollectSelected(items: seq<Item>) returns (selectedCommits: seq<Commit>)
    ensures selectedCommits == SelectedCommits(items)
  {
    selectedCommits := [];
    var k := 0;
    while k < |items|
      invariant 0 <= k <= |items|
      invariant selectedCommits == SelectedCommits(items[..k])
    {
      SelectedCommitsAppend(items[..k], items[k]);
      assert items[..k + 1] == items[..k] + [items[k]];
      if items[k].selected {
        selectedCommits := selectedCommits + [items[k].commit];
      }
      k := k + 1;
    }
    assert items[..|items|] == items;
  }

  /** The (commit, ticked) pairs `canSelect` is given. */
  function Pairs(items: seq<Item>): (ps: seq<(Commit, bool)>)
    ensures |ps| == |items|
    ensures forall i :: 0 <= i < |items| ==> ps[i] == (items[i].commit, items[i].selected)
  {
    seq(|items|, i requires 0 <= i < |items| => (items[i].commit, items[i].selected))
  }

  /** Items with the same commits and ticks select the same commits. */
  lemma {:induction false} SameTicks(a: seq<Item>, b: seq<Item>)
    requires |a| == |b|
    requires forall i :: 0 <= i < |a| ==> a[i].commit == b[i].commit && a[i].selected == b[i].selected
    ensures SelectedCommits(a) == SelectedCommits(b)
  {
    if a != [] {
      SameTicks(a[1..], b[1..]);
    }
  }

  /** `disable` / `enable`: every item's enabled flag. */
  function SetEnabled(col: Collection, enabled: bool): (r: Collection)
    ensures |r.items| == |col.items|
    ensures forall i :: 0 <= i < |col.items| ==> r.items[i] == col.items[i].(enabled := enabled)
    ensures r.providerData == col.providerData && r.mergeRequestInfo == col.mergeRequestInfo
  {
    col.(items := seq(|col.items|, i requires 0 <= i < |col.items| => col.items[i].(enabled := enabled)))
  }

  /** Nothing is dispatched before the first `setCommits`, whatever is clicked. */
  lemma NothingBeforeSetCommits(col: Collection)
    requires col.providerData.None?
    ensures SelectAll(col).1.None? && UnselectAll(col).1.None?
  {
  }

  /** After `setCommits`, "Select all" dispatches exactly the given commits. */
  lemma SelectAllAfterSetCommits(col: Collection, providerData: ProviderData, mergeRequestInfo: MergeRequestInfo,
                                 commits: seq<Commit>)
    ensures SelectAll(SetCommits(col, providerData, mergeRequestInfo, commits)).1
         == Some(CommitsSelected(providerData, mergeRequestInfo, commits))
  {
  }
}

=== FILE: domain.dfy ===
/**
  The host values the plugin passes around. Only the parts the modelled code
  reads are kept; every other field of the IDE and provider objects is left out.
 */
module Domain {
  import opened Basics
  import opened OrderedMaps

  /** Where a comment sits in a diff: either path may be null. */
  datatype CommentPosition = CommentPosition(
    oldPath: Option<string>,
    newPath: Option<string>,
    oldLine: Option<int>,
    newLine: Option<int>)

  /** A merge-request comment; a general comment has no position. */
  datatype Comment = Comment(
    id: string,
    isDraft: bool,
    resolved: bool,
    position: Option<CommentPosition>)

  /** One side of a VCS change: the file and its revision number. */
  datatype Revision = Revision(file: string, number: string)

  /** An IntelliJ `Change`: an added file has no before-revision, a deleted
      file no after-revision. Equality is structural, as `Change.equals` is. */
  datatype Change = Change(before: Option<Revision>, after: Option<Revision>)

  /** `change.afterRevision?.revisionNumber?.asString()`. */
  function AfterRevisionNumber(c: Change): Option<string> {
    match c.after
    case Some(rev) => Some(rev.number)
    case None => None
  }

  datatype Commit = Commit(id: string)

  datatype DiffReference = DiffReference(value: string)

  datatype MergeRequestInfo = MergeRequestInfo(id: string)

  datatype MergeRequest = MergeRequest(id: string, diffReference: Option<DiffReference>)

  /** Only ERROR is distinguished by the modelled code. */
  datatype ProviderStatus = StatusError | StatusOther(name: string)

  /** Only PUBLIC is distinguished by the modelled code. */
  datatype ProjectVisibility = Public | VisibilityOther(name: string)

  datatype ProviderData = ProviderData(
    id: string,
    status: ProviderStatus,
    projectUrl: string,
    visibility: ProjectVisibility)

  datatype ProviderInfo = ProviderInfo(id: string)

  datatype ApiCredentials = ApiCredentials(
    url: string,
    login: string,
    token: string,
    projectId: string,
    version: string,
    info: string,
    ignoreSSLCertificateErrors: bool)

  datatype ProviderSettings = ProviderSettings(
    id: string,
    info: ProviderInfo,
    credentials: ApiCredentials,
    repository: string)

  /** The persisted "viewed" bookkeeping of one merge request:
      path -> (key -> value), both maps in insertion order. */
  datatype ReviewState = ReviewState(id: string, data: Assoc<string, Assoc<string, string>>)

  /** Review data with no path twice and no key twice under one path. A path
      may hold an empty map. */
  predicate KeyedData(data: Assoc<string, Assoc<string, string>>) {
    && DistinctKeys(data)
    && forall i :: 0 <= i < |data| ==> DistinctKeys(data[i].1)
  }
}

=== FILE: files_tab.dfy ===
/**
  The "Files" tool-window tab: the change tree, its per-file decorations
  (the "new"/"updated" badge and the unresolved/total thread counts) and
  what a double-click on a tree node opens.
 */
module FilesTab {
  import opened Basics
  import opened Text
  import opened Domain
  import opened ReviewContexts

  // ---------------------------------------------------------------------
  // decorations
  // ---------------------------------------------------------------------

  datatype Style = ItalicRed | GrayItalic | RegularBold

  /** A piece of text appended to a tree node's renderer. */
  datatype Fragment = Fragment(text: string, style: Style)

  /** Number of thread groups whose first comment is unresolved. Every group
      `groupCommentsByThreadId` builds holds at least one comment. */
  function UnresolvedThreads(groups: seq<seq<Comment>>): (n: nat)
    requires forall i :: 0 <= i < |groups| ==> groups[i] != []
    ensures n <= |groups|
    ensures n == 0 <==> forall i :: 0 <= i < |groups| ==> groups[i][0].resolved
    ensures n == |groups| <==> forall i :: 0 <= i < |groups| ==> !groups[i][0].resolved
  {
    if groups == [] then 0
    else
      var rest := UnresolvedThreads(groups[1..]);
      assert forall i :: 1 <= i < |groups| ==> groups[i] == groups[1..][i - 1];
      (if groups[0][0].resolved then 0 else 1) + rest
  }

  /** `decorate`, over the context the decorator holds (`Tab.decorated`):
      nothing when it holds none or for a file without comments; otherwise "   <unresolved>" in red and "/<total>" in gray.
      `groupsOf` is `groupCommentsByThreadId`, `filePathOf` the change's
      file path. */
  function Decorate(review: Option<ReviewContext>, host: Host, change: Change,
                    filePathOf: Change -> string, groupsOf: seq<Comment> -> seq<seq<Comment>>): (r: seq<Fragment>)
    requires review.Some? ==> Wf(review.value, host)
    requires forall cs: seq<Comment>, i :: 0 <= i < |groupsOf(cs)| ==> groupsOf(cs)[i] != []
    ensures review.None? ==> r == []
    ensures review.Some? && GetCommentsByPath(review.value, host, filePathOf(change)) == [] ==> r == []
    ensures review.Some? && GetCommentsByPath(review.value, host, filePathOf(change)) != [] ==>
      var groups := groupsOf(GetCommentsByPath(review.value, host, filePathOf(change)));
      && |r| == 2
      && r[0] == Fragment("   " + IntToString(UnresolvedThreads(groups)), ItalicRed)
      && r[1] == Fragment("/" + IntToString(|groups|), GrayItalic)
  {
    if review.None? then []
    else
      var comments := GetCommentsByPath(review.value, host, filePathOf(change));
      if comments == [] then []
      else
        var groups := groupsOf(comments);
        [Fragment("   " + IntToString(UnresolvedThreads(groups)), ItalicRed),
         Fragment("/" + IntToString(|groups|), GrayItalic)]
  }

  /** The two counts read back from the decoration: the unresolved count
      after the three spaces, the total after the slash, never the first
      above the second. */
  lemma DecorateCounts(review: Option<ReviewContext>, host: Host, change: Change,
                       filePathOf: Change -> string, groupsOf: seq<Comment> -> seq<seq<Comment>>)
    requires review.Some? ==> Wf(review.value, host)
    requires forall cs: seq<Comment>, i :: 0 <= i < |groupsOf(cs)| ==> groupsOf(cs)[i] != []
    requires forall cs: seq<Comment> :: |groupsOf(cs)| <= IntMax
    ensures var r := Decorate(review, host, change, filePathOf, groupsOf);
      r != [] ==>
        && ParseInt(r[0].text[3..]).Some?
        && ParseInt(r[1].text[1..]).Some?
        && 0 <= ParseInt(r[0].text[3..]).value <= ParseInt(r[1].text[1..]).value
  {
    var r := Decorate(review, host, change, filePathOf, groupsOf);
    if r != [] {
      var groups := groupsOf(GetCommentsByPath(review.value, host, filePathOf(change)));
      var unresolved := UnresolvedThreads(groups);
      assert r[0].text[3..] == IntToString(unresolved);
      assert r[1].text[1..] == IntToString(|groups|);
      ParseIntOfIntToString(unresolved);
      ParseIntOfIntToString(|groups|);
    }
  }

  datatype Badge = NoBadge | NewBadge | UpdatedBadge

  /** The badge rule of `preDecorate`, over the context the decorator holds
      (`Tab.decorated`): none when it holds none, "new" when the change was
      never viewed, "updated" when it was viewed at another after-revision. */
  function BadgeOf(review: Option<ReviewContext>, change: Change): (b: Badge)
    ensures review.None? ==> b == NoBadge
    ensures review.Some? ==> (
      && (b == NewBadge <==> GetChangeData(review.value, change, HasViewed).None?)
      && (b == UpdatedBadge <==> (GetChangeData(review.value, change, HasViewed).Some?
                                  && GetChangeData(review.value, change, HasViewed) != AfterRevisionNumber(change))))
  {
    if review.None? then NoBadge
    else
      var viewed := GetChangeData(review.value, change, HasViewed);
      if viewed.None? then NewBadge
      else if viewed != AfterRevisionNumber(change) then UpdatedBadge
      else NoBadge
  }

  /** `preDecorate`: the badge as the bold text the renderer appends. */
  function PreDecorate(review: Option<ReviewContext>, change: Change): (r: seq<Fragment>)
    ensures r == [] <==> BadgeOf(review, change) == NoBadge
    ensures BadgeOf(review, change) == NewBadge ==> r == [Fragment(" [new] ", RegularBold)]
    ensures BadgeOf(review, change) == UpdatedBadge ==> r == [Fragment(" [updated] ", RegularBold)]
  {
    match BadgeOf(review, change)
    case NoBadge => []
    case NewBadge => [Fragment(" [new] ", RegularBold)]
    case UpdatedBadge => [Fragment(" [updated] ", RegularBold)]
  }

  /** Opening a change clears its badge when it has an after-revision; a
      deleted file (no after-revision) stays "new", because storing a null
      viewed revision removes the record. */
  lemma OpenChangeClearsBadge(ctx: ReviewContext, change: Change)
    ensures change.after.Some? ==> BadgeOf(Some(OpenChange(ctx, change)), change) == NoBadge
    ensures change.after.None? ==> BadgeOf(Some(OpenChange(ctx, change)), change) == NewBadge
  {
  }

  /** Opening one change leaves every other change's badge as it was. */
  lemma OpenChangeKeepsOtherBadges(ctx: ReviewContext, change: Change, other: Change)
    requires other != change
    ensures BadgeOf(Some(OpenChange(ctx, change)), other) == BadgeOf(Some(ctx), other)
  {
    assert GetChangeData(OpenChange(ctx, change), other, HasViewed) == GetChangeData(ctx, other, HasViewed);
  }

  // ---------------------------------------------------------------------
  // the tab
  // ---------------------------------------------------------------------

  datatype Content = TreeContent | EmptyContent

  /** What the tab shows: the provider data of the last `setChanges`, the
      changes in the tree, the toolbar's visibility, the content pane, and
      the context the node decorator holds. The constructor hands the
      decorator the context under review at that moment, and nothing hands
      it another one afterwards. */
  datatype Tab = Tab(providerData: Option<ProviderData>, displayed: seq<Change>, toolbarVisible: bool,
                     content: Content, decorated: Option<ReviewContext>)

  /** `setChanges`; the tree update scheduled with `invokeLater` is taken as
      done. The decorator keeps its context. */
  function SetChanges(tab: Tab, providerData: ProviderData, changes: seq<Change>): (r: Tab)
    ensures r.providerData == Some(providerData) && r.displayed == changes
    ensures r.toolbarVisible && r.content == TreeContent
    ensures r.decorated == tab.decorated
  {
    tab.(providerData := Some(providerData), displayed := changes, toolbarVisible := true, content := TreeContent)
  }

  /** `hide`: an empty tree, no toolbar, the empty-state label; the provider
      data of the last `setChanges` and the decorator's context are kept. */
  function Hide(tab: Tab): (r: Tab)
    ensures r.displayed == [] && !r.toolbarVisible && r.content == EmptyContent
    ensures r.providerData == tab.providerData && r.decorated == tab.decorated
  {
    tab.(displayed := [], toolbarVisible := false, content := EmptyContent)
  }

  const Blank: Tab := Tab(None, [], false, EmptyContent, None)

  /** The constructor: given the context under code review (with its
      provider data), the decorator gets that context and the tree its
      reviewing changes; with none, the empty state and an undecorated
      tree. */
  function InitTab(reviewing: Option<(ReviewContext, ProviderData)>): (r: Tab)
    ensures reviewing.None? ==>
      r.content == EmptyContent && !r.toolbarVisible && r.providerData.None? && r.decorated.None?
    ensures reviewing.Some? ==>
      && r.content == TreeContent && r.toolbarVisible
      && r.providerData == Some(reviewing.value.1) && r.displayed == reviewing.value.0.reviewingChanges
      && r.decorated == Some(reviewing.value.0)
  {
    match reviewing
    case None => Hide(Blank)
    case Some(pair) => SetChanges(Blank.(decorated := Some(pair.0)), pair.1, pair.0.reviewingChanges)
  }

  /** Two context values are states of the same context object: the
      manager keeps one context per provider and merge request. */
  predicate SameContext(a: ReviewContext, b: ReviewContext) {
    a.providerId == b.providerId && a.mergeRequestId == b.mergeRequestId
  }

  /** The decorator holds a reference, so it sees every later state of its
      own context (an opened change, new comments); a change to any other
      context does not reach it. */
  function Redecorate(tab: Tab, updated: ReviewContext): (r: Tab)
    ensures tab.decorated.Some? && SameContext(tab.decorated.value, updated) ==> r.decorated == Some(updated)
    ensures !(tab.decorated.Some? && SameContext(tab.decorated.value, updated)) ==> r == tab
    ensures r == tab.(decorated := r.decorated)
  {
    if tab.decorated.Some? && SameContext(tab.decorated.value, updated) then tab.(decorated := Some(updated))
    else tab
  }

  /** What can happen to a tab after construction. */
  datatype TabEvent =
    | ShowChanges(providerData: ProviderData, changes: seq<Change>)
    | HideTree
    | ContextUpdated(context: ReviewContext)

  function Apply(tab: Tab, e: TabEvent): Tab {
    match e
    case ShowChanges(providerData, changes) => SetChanges(tab, providerData, changes)
    case HideTree => Hide(tab)
    case ContextUpdated(context) => Redecorate(tab, context)
  }

  function Replay(tab: Tab, events: seq<TabEvent>): Tab
    decreases |events|
  {
    if events == [] then tab else Replay(Apply(tab, events[0]), events[1..])
  }

  /** Whatever happens after construction, the decorator stays with the
      context it was given: none stays none, and a given one only moves to
      later states of the same context. */
  lemma {:induction false} DecoratorFixedAtConstruction(tab: Tab, events: seq<TabEvent>)
    ensures Replay(tab, events).decorated.None? <==> tab.decorated.None?
    ensures tab.decorated.Some? ==> SameContext(Replay(tab, events).decorated.value, tab.decorated.value)
    decreases |events|
  {
    if events != [] {
      var next := Apply(tab, events[0]);
      assert next.decorated.None? <==> tab.decorated.None?;
      assert tab.decorated.Some? ==> SameContext(next.decorated.value, tab.decorated.value);
      DecoratorFixedAtConstruction(next, events[1..]);
    }
  }

  /** A tab built while no code review was going on never shows a badge,
      whatever reviews start afterwards. */
  lemma BuiltOutsideReviewNeverBadges(events: seq<TabEvent>, change: Change)
    ensures PreDecorate(Replay(InitTab(None), events).decorated, change) == []
  {
    DecoratorFixedAtConstruction(InitTab(None), events);
  }

  /** Hiding after showing changes empties the tree but still remembers
      whose changes they were. */
  lemma HideAfterSetChanges(tab: Tab, providerData: ProviderData, changes: seq<Change>)
    ensures var r := Hide(SetChanges(tab, providerData, changes));
      r.displayed == [] && r.content == EmptyContent && r.providerData == Some(providerData)
  {
  }

  // ---------------------------------------------------------------------
  // selection
  // ---------------------------------------------------------------------

  /** The last component of the selected tree path. */
  datatype TreeNode = ChangeNode(change: Change) | OtherNode

  /** What a double-click or Enter on the tree does. */
  datatype Selected =
    | NothingOpened
    | OpenedInReview(context: ReviewContext, change: Change)
    | OpenedInRework(change: Change)

  /** `handleTreeItemSelected`: no path or no change node does nothing; a
      context under code review opens the change there (focused); otherwise
      the rework watcher of the tab's provider data opens it, when there is
      one. `hasReworkWatcher` is `findReworkWatcherByChange(..) != null`. */
  function HandleTreeItemSelected(tab: Tab, path: Option<TreeNode>, review: Option<ReviewContext>,
                                  hasReworkWatcher: (ProviderData, Change) -> bool): (r: Selected)
    ensures (path.None? || path.value.OtherNode?) ==> r == NothingOpened
    ensures path.Some? && path.value.ChangeNode? && review.Some? ==>
      r == OpenedInReview(OpenChange(review.value, path.value.change), path.value.change)
    ensures r.OpenedInRework? <==> (
      && path.Some? && path.value.ChangeNode? && review.None?
      && tab.providerData.Some? && hasReworkWatcher(tab.providerData.value, path.value.change))
    ensures r.OpenedInRework? ==> r.change == path.value.change
  {
    if path.None? then NothingOpened
    else match path.value
      case OtherNode => NothingOpened
      case ChangeNode(change) =>
        if review.Some? then OpenedInReview(OpenChange(review.value, change), change)
        else if tab.providerData.Some? && hasReworkWatcher(tab.providerData.value, change) then OpenedInRework(change)
        else NothingOpened
  }

  /** A code review takes precedence: while one is going on, the rework
      watcher is never consulted, and the opened change loses its badge in
      a tab whose decorator holds that review's context. */
  lemma ReviewTakesPrecedence(tab: Tab, change: Change, ctx: ReviewContext,
                              hasReworkWatcher: (ProviderData, Change) -> bool)
    requires change.after.Some?
    ensures var r := HandleTreeItemSelected(tab, Some(ChangeNode(change)), Some(ctx), hasReworkWatcher);
      && r.OpenedInReview?
      && (tab.decorated.Some? && SameContext(tab.decorated.value, ctx) ==>
            BadgeOf(Redecorate(tab, r.context).decorated, change) == NoBadge)
  {
    OpenChangeClearsBadge(ctx, change);
  }

  /** Opening a change in a review other than the decorator's leaves every
      badge of the tab as it was. */
  lemma OtherReviewKeepsBadges(tab: Tab, change: Change, ctx: ReviewContext, other: Change,
                               hasReworkWatcher: (ProviderData, Change) -> bool)
    requires tab.decorated.Some? && !SameContext(tab.decorated.value, ctx)
    ensures var r := HandleTreeItemSelected(tab, Some(ChangeNode(change)), Some(ctx), hasReworkWatcher);
      BadgeOf(Redecorate(tab, r.context).decorated, other) == BadgeOf(tab.decorated, other)
  {
  }
}

=== FILE: html_helper.dfy ===
/**
  Rewriting of relative image sources in rendered comment HTML: every
  `<img src="/` becomes `<img src="` followed by the project URL and `/`.
  The rewrite is Kotlin's `String.replace`, modelled here for any non-empty
  pattern: a scan from the left that replaces each occurrence and resumes
  after it, so occurrences never overlap.
 */
module HtmlHelper {

  /** `pat` occurs in `s` starting at index `i`. */
  predicate OccursAt(s: string, pat: string, i: nat) {
    i + |pat| <= |s| && s[i..i + |pat|] == pat
  }

  ghost predicate NoOccurrence(s: string, pat: string) {
    forall i: nat :: !OccursAt(s, pat, i)
  }

  /** The first character of `pat` occurs nowhere else in it, so one
      occurrence cannot start inside another. */
  predicate StartsOnce(pat: string) {
    pat != [] && forall k :: 1 <= k < |pat| ==> pat[k] != pat[0]
  }

  /** `s.replace(pat, rep)` for a non-empty `pat`. */
  function ReplaceAll(s: string, pat: string, rep: string): string
    requires pat != []
    decreases |s|
  {
    if |s| < |pat| then s
    else if s[..|pat|] == pat then rep + ReplaceAll(s[|pat|..], pat, rep)
    else [s[0]] + ReplaceAll(s[1..], pat, rep)
  }

  // ---------------------------------------------------------------------
  // the scan, step by step
  // ---------------------------------------------------------------------

  lemma {:induction false} NoOccurrenceTail(a: string, pat: string)
    requires NoOccurrence(a, pat) && a != []
    ensures NoOccurrence(a[1..], pat)
  {
    forall i: nat
      ensures !OccursAt(a[1..], pat, i)
    {
      assert !OccursAt(a, pat, i + 1);
      if i + |pat| <= |a[1..]| {
        assert a[1..][i..i + |pat|] == a[i + 1..i + 1 + |pat|];
      }
    }
  }

  /** Where no occurrence starts, one character is copied. */
  lemma CopyOne(s: string, pat: string, rep: string)
    requires pat != [] && |s| >= |pat| && s[..|pat|] != pat
    ensures ReplaceAll(s, pat, rep) == [s[0]] + ReplaceAll(s[1..], pat, rep)
  {
  }

  /** At an occurrence the replacement is emitted. */
  lemma AtOccurrence(pat: string, rep: string, rest: string)
    requires pat != []
    ensures ReplaceAll(pat + rest, pat, rep) == rep + ReplaceAll(rest, pat, rep)
  {
    var s := pat + rest;
    assert s[..|pat|] == pat;
    assert s[|pat|..] == rest;
  }

  /** Text without an occurrence comes back unchanged. */
  lemma {:induction false} NoOccurrenceUnchanged(s: string, pat: string, rep: string)
    requires pat != [] && NoOccurrence(s, pat)
    ensures ReplaceAll(s, pat, rep) == s
    decreases |s|
  {
    if |s| >= |pat| {
      assert !OccursAt(s, pat, 0);
      NoOccurrenceTail(s, pat);
      NoOccurrenceUnchanged(s[1..], pat, rep);
      assert [s[0]] + s[1..] == s;
    }
  }

  /** A non-empty text without an occurrence, followed by the pattern, does
      not start with the pattern. */
  lemma NotAtStart(a: string, pat: string, rest: string)
    requires StartsOnce(pat) && NoOccurrence(a, pat) && a != []
    ensures (a + pat + rest)[..|pat|] != pat
  {
    var s := a + pat + rest;
    if |a| >= |pat| {
      assert s[..|pat|] == a[..|pat|];
      assert !OccursAt(a, pat, 0);
    } else {
      assert s[|a|] == pat[0];
      assert pat[|a|] != pat[0];
      assert s[..|pat|][|a|] != pat[|a|];
    }
  }

  /** One step of the scan over the text before an occurrence. */
  lemma SkipOne(a: string, pat: string, rep: string, rest: string, done: string)
    requires StartsOnce(pat) && NoOccurrence(a, pat) && a != []
    requires ReplaceAll(a[1..] + pat + rest, pat, rep) == a[1..] + done
    ensures ReplaceAll(a + pat + rest, pat, rep) == a + done
  {
    var s := a + pat + rest;
    NotAtStart(a, pat, rest);
    CopyOne(s, pat, rep);
    assert s[1..] == a[1..] + pat + rest;
    assert [a[0]] + (a[1..] + done) == a + done;
  }

  /** A text without an occurrence, followed by the pattern: the scan passes
      the text unchanged and replaces the pattern. */
  lemma {:induction false} SkipToOccurrence(a: string, pat: string, rep: string, rest: string)
    requires StartsOnce(pat) && NoOccurrence(a, pat)
    ensures ReplaceAll(a + pat + rest, pat, rep) == a + rep + ReplaceAll(rest, pat, rep)
    decreases |a|
  {
    if a == [] {
      AtOccurrence(pat, rep, rest);
      assert a + pat + rest == pat + rest;
    } else {
      NoOccurrenceTail(a, pat);
      SkipToOccurrence(a[1..], pat, rep, rest);
      SkipOne(a, pat, rep, rest, rep + ReplaceAll(rest, pat, rep));
    }
  }

  // ---------------------------------------------------------------------
  // reference: split at the pattern, join with the replacement
  // ---------------------------------------------------------------------

  /** The parts joined with `sep` between them. */
  function Join(parts: seq<string>, sep: string): string
    requires |parts| >= 1
  {
    if |parts| == 1 then parts[0] else parts[0] + sep + Join(parts[1..], sep)
  }

  /** The replacement rewrites the separators of any split of the input into
      parts without an occurrence: every occurrence is rewritten and nothing
      else changes. */
  lemma {:induction false} ReplaceJoin(parts: seq<string>, pat: string, rep: string)
    requires StartsOnce(pat) && |parts| >= 1
    requires forall i :: 0 <= i < |parts| ==> NoOccurrence(parts[i], pat)
    ensures ReplaceAll(Join(parts, pat), pat, rep) == Join(parts, rep)
  {
    if |parts| == 1 {
      NoOccurrenceUnchanged(parts[0], pat, rep);
    } else {
      SkipToOccurrence(parts[0], pat, rep, Join(parts[1..], pat));
      ReplaceJoin(parts[1..], pat, rep);
    }
  }

  /** Reference: the input cut at each occurrence, from the left. */
  function Split(s: string, pat: string): (parts: seq<string>)
    requires pat != []
    ensures |parts| >= 1
    decreases |s|
  {
    if |s| < |pat| then [s]
    else if s[..|pat|] == pat then [""] + Split(s[|pat|..], pat)
    else
      var t := Split(s[1..], pat);
      [[s[0]] + t[0]] + t[1..]
  }

  /** Split cuts exactly at the occurrences: its parts have none, and joined
      with the pattern they give back the input. */
  ghost predicate SplitOk(s: string, pat: string)
    requires pat != []
  {
    && |Split(s, pat)| >= 1
    && Join(Split(s, pat), pat) == s
    && forall i :: 0 <= i < |Split(s, pat)| ==> NoOccurrence(Split(s, pat)[i], pat)
  }

  lemma {:induction false} SplitSound(s: string, pat: string)
    requires pat != []
    ensures SplitOk(s, pat)
    decreases |s|
  {
    if |s| < |pat| {
      assert forall i: nat :: !OccursAt(s, pat, i);
    } else if s[..|pat|] == pat {
      SplitSound(s[|pat|..], pat);
      SplitAtOccurrence(s, pat);
    } else {
      SplitSound(s[1..], pat);
      SplitPastNonOccurrence(s, pat);
    }
  }

  lemma SplitAtOccurrence(s: string, pat: string)
    requires pat != [] && |s| >= |pat| && s[..|pat|] == pat
    requires SplitOk(s[|pat|..], pat)
    ensures SplitOk(s, pat)
  {
    var rest := s[|pat|..];
    var parts := Split(s, pat);
    assert parts == [""] + Split(rest, pat);
    assert parts[1..] == Split(rest, pat);
    assert NoOccurrence("", pat) by {
      assert forall i: nat :: !OccursAt("", pat, i);
    }
    assert s == "" + pat + rest;
  }

  lemma SplitPastNonOccurrence(s: string, pat: string)
    requires pat != [] && |s| >= |pat| && s[..|pat|] != pat
    requires SplitOk(s[1..], pat)
    ensures SplitOk(s, pat)
  {
    var t := Split(s[1..], pat);
    assert Split(s, pat) == [[s[0]] + t[0]] + t[1..];
    JoinGrowHead(s[0], t, pat);
    assert [s[0]] + s[1..] == s;
    GrownPartsHaveNoOccurrence(s, pat, t);
  }

  /** Growing the first part by one character grows the join by it. */
  lemma JoinGrowHead(c: char, t: seq<string>, sep: string)
    requires |t| >= 1
    ensures Join([[c] + t[0]] + t[1..], sep) == [c] + Join(t, sep)
  {
    var parts := [[c] + t[0]] + t[1..];
    if |t| > 1 {
      assert parts[1..] == t[1..];
      assert Join(parts, sep) == ([c] + t[0]) + sep + Join(t[1..], sep);
      assert Join(t, sep) == t[0] + sep + Join(t[1..], sep);
    }
  }

  lemma GrownPartsHaveNoOccurrence(s: string, pat: string, t: seq<string>)
    requires pat != [] && |s| >= |pat| && s[..|pat|] != pat
    requires |t| >= 1 && Join(t, pat) == s[1..]
    requires forall i :: 0 <= i < |t| ==> NoOccurrence(t[i], pat)
    ensures forall i :: 0 <= i < |t| ==> NoOccurrence(([[s[0]] + t[0]] + t[1..])[i], pat)
  {
    var tail := if |t| == 1 then "" else pat + Join(t[1..], pat);
    JoinFirst(t, t[0], tail, pat);
    HeadHasNoOccurrence(s, pat, t[0], tail);
    var parts := [[s[0]] + t[0]] + t[1..];
    assert forall i :: 1 <= i < |t| ==> parts[i] == t[i];
  }

  /** Joining is the first part followed by the separator and the rest. */
  lemma JoinFirst(parts: seq<string>, head: string, tail: string, sep: string)
    requires |parts| >= 1 && parts[0] == head
    requires tail == if |parts| == 1 then "" else sep + Join(parts[1..], sep)
    ensures Join(parts, sep) == head + tail
  {
  }

  /** The first part grown by one character keeps having no occurrence,
      since the text does not start with the pattern. */
  lemma {:induction false} HeadHasNoOccurrence(s: string, pat: string, t0: string, tail: string)
    requires pat != [] && |s| >= |pat| && s[..|pat|] != pat
    requires NoOccurrence(t0, pat) && s[1..] == t0 + tail
    ensures NoOccurrence([s[0]] + t0, pat)
  {
    var head := [s[0]] + t0;
    assert s == head + tail;
    forall i: nat
      ensures !OccursAt(head, pat, i)
    {
      if i + |pat| <= |head| {
        if i == 0 {
          assert head[..|pat|] == s[..|pat|];
        } else {
          assert !OccursAt(t0, pat, i - 1);
          assert head[i..i + |pat|] == t0[i - 1..i - 1 + |pat|];
        }
      }
    }
  }

  lemma {:induction false} JoinLength(parts: seq<string>, sep1: string, sep2: string)
    requires |parts| >= 1
    ensures |Join(parts, sep2)| == |Join(parts, sep1)| + (|parts| - 1) * (|sep2| - |sep1|)
  {
    if |parts| > 1 {
      JoinLength(parts[1..], sep1, sep2);
      assert (|parts| - 1) * (|sep2| - |sep1|) == (|parts| - 2) * (|sep2| - |sep1|) + (|sep2| - |sep1|);
    }
  }

  // ---------------------------------------------------------------------
  // resolveRelativePath
  // ---------------------------------------------------------------------

  /** The text searched for. */
  const Pattern: string := "<img src=\"/"

  /** The start of an image tag, up to its source. */
  const ImgSrc: string := "<img src=\""

  /** What each occurrence becomes. */
  function Replacement(projectUrl: string): (r: string)
    ensures |r| == |Pattern| + |projectUrl|
  {
    ImgSrc + projectUrl + "/"
  }

  lemma PatternStartsOnce()
    ensures StartsOnce(Pattern)
  {
  }

  /** `resolveRelativePath`. */
  function ResolveRelativePath(projectUrl: string, html: string): string {
    ReplaceAll(html, Pattern, Replacement(projectUrl))
  }

  /** The rewrite against the reference: the input's occurrences, found by
      splitting, are each replaced, and the output grows by the project URL's
      length once per occurrence. */
  lemma ResolveRelativePathSpec(projectUrl: string, html: string)
    ensures ResolveRelativePath(projectUrl, html) == Join(Split(html, Pattern), Replacement(projectUrl))
    ensures |ResolveRelativePath(projectUrl, html)| == |html| + (|Split(html, Pattern)| - 1) * |projectUrl|
  {
    PatternStartsOnce();
    SplitSound(html, Pattern);
    ReplaceJoin(Split(html, Pattern), Pattern, Replacement(projectUrl));
    JoinLength(Split(html, Pattern), Pattern, Replacement(projectUrl));
  }

  /** Text without a relative image source comes back unchanged. */
  lemma NothingToResolve(projectUrl: string, html: string)
    requires NoOccurrence(html, Pattern)
    ensures ResolveRelativePath(projectUrl, html) == html
  {
    NoOccurrenceUnchanged(html, Pattern, Replacement(projectUrl));
  }

  /** An image whose source does not start with `/` (an absolute URL, say)
      is left as it is. */
  lemma AbsoluteSourceUntouched(projectUrl: string, src: string)
    requires src != [] && src[0] != '/' && NoOccurrence(src, Pattern)
    ensures ResolveRelativePath(projectUrl, ImgSrc + src) == ImgSrc + src
  {
    var s := ImgSrc + src;
    forall i: nat
      ensures !OccursAt(s, Pattern, i)
    {
      if i + |Pattern| <= |s| {
        if i == 0 {
          assert s[..|Pattern|][10] == src[0];
        } else if i < |ImgSrc| {
          assert s[i..i + |Pattern|][0] == ImgSrc[i];
        } else {
          assert !OccursAt(src, Pattern, i - |ImgSrc|);
          assert s[i..i + |Pattern|] == src[i - |ImgSrc|..i - |ImgSrc| + |Pattern|];
        }
      }
    }
    NothingToResolve(projectUrl, s);
  }

  /** An image whose source starts with `/` gets the project URL in front
      of it. */
  lemma RelativeSourceResolved(projectUrl: string, path: string)
    requires NoOccurrence(path, Pattern)
    ensures ResolveRelativePath(projectUrl, Pattern + path) == ImgSrc + projectUrl + "/" + path
  {
    AtOccurrence(Pattern, Replacement(projectUrl), path);
    NothingToResolve(projectUrl, path);
  }
}

=== FILE: one_side_diff.dfy ===
/**
  The one-side diff viewer (an added or a deleted file): one gutter icon per
  line of the document, the icon state a line's comments give it, and the
  position a new comment on a line is filed at.
 */
module OneSideDiff {
  import opened Basics
  import opened Domain

  /** Which side of the change the single editor shows. */
  datatype ContentType = Before | After

  datatype GutterState = NoComment | ThreadHasSingleComment | ThreadHasMultiComments

  /** A registered gutter icon: its logical (0-based) line, the 1-based line
      it shows on the left or the right side, and its current state. */
  datatype GutterIcon = GutterIcon(
    logicalLine: nat,
    visibleLineLeft: Option<int>,
    visibleLineRight: Option<int>,
    contentType: ContentType,
    showAddCommentIcon: bool,
    state: GutterState)

  /** The icon `createGutterIcons` makes for one line. */
  function MakeIcon(logicalLine: nat, contentType: ContentType, showAddCommentIcon: bool): (g: GutterIcon)
    ensures g.logicalLine == logicalLine && g.contentType == contentType && g.state == NoComment
    ensures contentType == Before ==> g.visibleLineLeft == Some(logicalLine + 1) && g.visibleLineRight.None?
    ensures contentType == After ==> g.visibleLineRight == Some(logicalLine + 1) && g.visibleLineLeft.None?
  {
    GutterIcon(
      logicalLine,
      if contentType == Before then Some(logicalLine + 1) else None,
      if contentType == After then Some(logicalLine + 1) else None,
      contentType, showAddCommentIcon, NoComment)
  }

  /** `createGutterIcons`: one icon per line `0 until lineCount`, in order. */
  method CreateGutterIcons(lineCount: nat, contentType: ContentType, showAddCommentIcon: bool)
    returns (icons: seq<GutterIcon>)
    ensures |icons| == lineCount
    ensures forall i :: 0 <= i < lineCount ==> icons[i] == MakeIcon(i, contentType, showAddCommentIcon)
  {
    icons := [];
    var logicalLine := 0;
    while logicalLine < lineCount
      invariant 0 <= logicalLine <= lineCount
      invariant |icons| == logicalLine
      invariant forall i :: 0 <= i < logicalLine ==> icons[i] == MakeIcon(i, contentType, showAddCommentIcon)
    {
      icons := icons + [MakeIcon(logicalLine, contentType, showAddCommentIcon)];
      logicalLine := logicalLine + 1;
    }
  }

  /** The 1-based line an icon shows, on whichever side it has one. */
  function VisibleLine(g: GutterIcon): Option<int> {
    if g.visibleLineLeft.Some? then g.visibleLineLeft else g.visibleLineRight
  }

  /** The position of the first icon registered for a logical line and side,
      if any. This stands in for `findGutterIconRenderer`, which AbstractDiffView
      defines; AbstractDiffView is not part of this model, so the first-match
      lookup is assumed. */
  function FindIcon(icons: seq<GutterIcon>, logicalLine: int, contentType: ContentType): (i: Option<nat>)
    ensures i.Some? ==> i.value < |icons| && icons[i.value].logicalLine == logicalLine
                        && icons[i.value].contentType == contentType
    ensures i.Some? ==> forall j :: 0 <= j < i.value ==>
      !(icons[j].logicalLine == logicalLine && icons[j].contentType == contentType)
    ensures i.None? <==> forall j :: 0 <= j < |icons| ==>
      !(icons[j].logicalLine == logicalLine && icons[j].contentType == contentType)
  {
    if icons == [] then None
    else if icons[0].logicalLine == logicalLine && icons[0].contentType == contentType then Some(0)
    else
      var rest := FindIcon(icons[1..], logicalLine, contentType);
      assert forall j :: 1 <= j < |icons| ==> icons[j] == icons[1..][j - 1];
      if rest.None? then None else Some(rest.value + 1)
  }

  /** The state comments give a line: one comment or several. */
  function StateFor(comments: seq<Comment>): (s: GutterState)
    ensures s == ThreadHasSingleComment <==> |comments| == 1
    ensures s != NoComment
  {
    if |comments| == 1 then ThreadHasSingleComment else ThreadHasMultiComments
  }

  /** What `changeGutterIconsByComments` does with the icons: the new icons,
      or the lookup found no icon. The source uses the lookup's result without
      a null check, and what the base class does for a missing icon is not
      part of this model; `NoIconThere` marks the case and says nothing about
      what follows it. */
  datatype IconChange = Changed(icons: seq<GutterIcon>) | NoIconThere

  /** `changeGutterIconsByComments`: the icon of visible line `visibleLine`
      (logical line `visibleLine - 1`) takes the state of its comments. */
  function ChangeGutterIconsByComments(icons: seq<GutterIcon>, visibleLine: int, contentType: ContentType,
                                       comments: seq<Comment>): (r: IconChange)
    ensures r.NoIconThere? <==> FindIcon(icons, visibleLine - 1, contentType).None?
    ensures r.Changed? ==>
      var i := FindIcon(icons, visibleLine - 1, contentType).value;
      && |r.icons| == |icons|
      && r.icons[i] == icons[i].(state := StateFor(comments))
      && forall j :: 0 <= j < |icons| && j != i ==> r.icons[j] == icons[j]
  {
    match FindIcon(icons, visibleLine - 1, contentType)
    case None => NoIconThere
    case Some(i) => Changed(icons[i := icons[i].(state := StateFor(comments))])
  }

  /** On the icons `createGutterIcons` made, the icon a visible line addresses
      is the one that shows that very line. */
  lemma VisibleLineRoundTrip(lineCount: nat, contentType: ContentType, show: bool, icons: seq<GutterIcon>, v: int)
    requires |icons| == lineCount
    requires forall i :: 0 <= i < lineCount ==> icons[i] == MakeIcon(i, contentType, show)
    requires 1 <= v <= lineCount
    ensures FindIcon(icons, v - 1, contentType) == Some(v - 1)
    ensures VisibleLine(icons[v - 1]) == Some(v)
  {
    var f := FindIcon(icons, v - 1, contentType);
    assert icons[v - 1].logicalLine == v - 1;
    if f.Some? {
      assert icons[f.value].logicalLine == f.value;
    }
  }

  /** A line outside the document addresses no icon, so changing its icon
      meets the missing-icon case. */
  lemma OutsideLinesHaveNoIcon(lineCount: nat, contentType: ContentType, show: bool, icons: seq<GutterIcon>, v: int)
    requires |icons| == lineCount
    requires forall i :: 0 <= i < lineCount ==> icons[i] == MakeIcon(i, contentType, show)
    requires v < 1 || v > lineCount
    ensures FindIcon(icons, v - 1, contentType).None?
    ensures ChangeGutterIconsByComments(icons, v, contentType, []).NoIconThere?
  {
    forall j | 0 <= j < |icons| ensures icons[j].logicalLine != v - 1 {
      assert icons[j].logicalLine == j;
    }
  }

  /** Where a comment on a logical line is filed. */
  datatype GutterPosition = GutterPosition(
    changeType: string,
    oldLine: Option<int>,
    oldPath: Option<string>,
    newLine: Option<int>,
    newPath: Option<string>,
    baseHash: Option<string>,
    headHash: Option<string>)

  /** `calcPosition`: the before side files under the old line and path and
      the base hash, the after side under the new line and path and the head
      hash. The `!!` on a missing revision throws; that is None here.
      `changeTypeOf` is `findChangeType` on the viewer's editor. */
  function CalcPosition(change: Change, contentType: ContentType, logicalLine: int,
                        changeTypeOf: int -> string): (r: Option<GutterPosition>)
    ensures r.None? <==> if contentType == Before then change.before.None? else change.after.None?
    ensures r.Some? ==> r.value.changeType == changeTypeOf(logicalLine)
    ensures r.Some? && contentType == Before ==> (
      && r.value.oldLine == Some(logicalLine + 1) && r.value.oldPath == Some(change.before.value.file)
      && r.value.newLine.None? && r.value.newPath.None?
      && r.value.baseHash == Some(change.before.value.number) && r.value.headHash.None?)
    ensures r.Some? && contentType == After ==> (
      && r.value.newLine == Some(logicalLine + 1) && r.value.newPath == Some(change.after.value.file)
      && r.value.oldLine.None? && r.value.oldPath.None?
      && r.value.headHash == Some(change.after.value.number) && r.value.baseHash.None?)
  {
    if contentType == Before then
      match change.before
      case None => None
      case Some(rev) => Some(GutterPosition(changeTypeOf(logicalLine), Some(logicalLine + 1), Some(rev.file),
                                            None, None, Some(rev.number), None))
    else
      match change.after
      case None => None
      case Some(rev) => Some(GutterPosition(changeTypeOf(logicalLine), None, None,
                                            Some(logicalLine + 1), Some(rev.file), None, Some(rev.number)))
  }

  /** The line a position is filed under is the line its icon shows. */
  lemma PositionMatchesIcon(change: Change, contentType: ContentType, logicalLine: nat, show: bool,
                            changeTypeOf: int -> string)
    requires CalcPosition(change, contentType, logicalLine, changeTypeOf).Some?
    ensures var p := CalcPosition(change, contentType, logicalLine, changeTypeOf).value;
      var icon := MakeIcon(logicalLine, contentType, show);
      (if contentType == Before then p.oldLine else p.newLine) == VisibleLine(icon)
  {
  }
}

=== FILE: ordered_maps.dfy ===
/**
  The Kotlin `mutableMapOf()` is a LinkedHashMap: it iterates in insertion
  order, and `put` on a key already present replaces the value in place.
  Where the order of a map is observable (persisted state, review-state data)
  the model keeps it as the sequence of its entries.
 */
module OrderedMaps {
  import opened Basics

  type Assoc<K, V> = seq<(K, V)>

  /** The keys, in iteration order. */
  function Keys<K, V>(a: Assoc<K, V>): (ks: seq<K>)
    ensures |ks| == |a|
    ensures forall i :: 0 <= i < |a| ==> ks[i] == a[i].0
  {
    if a == [] then [] else [a[0].0] + Keys(a[1..])
  }

  /** The values, in iteration order (Kotlin `map.values`). */
  function Values<K, V>(a: Assoc<K, V>): (vs: seq<V>)
    ensures |vs| == |a|
    ensures forall i :: 0 <= i < |a| ==> vs[i] == a[i].1
  {
    if a == [] then [] else [a[0].1] + Values(a[1..])
  }

  /** No key occurs twice: every reachable LinkedHashMap has this shape. */
  predicate DistinctKeys<K(==,!new), V>(a: Assoc<K, V>) {
    a == [] || (a[0].0 !in Keys(a[1..]) && DistinctKeys(a[1..]))
  }

  /** `map[k]`: the value bound to `k`, or null. */
  function Get<K(==,!new), V>(a: Assoc<K, V>, k: K): (r: Option<V>)
    ensures r.None? <==> k !in Keys(a)
    ensures r.Some? ==> (k, r.value) in a
  {
    if a == [] then None
    else if a[0].0 == k then Some(a[0].1)
    else Get(a[1..], k)
  }

  /** `map[k] = v`. */
  function Put<K(==,!new), V>(a: Assoc<K, V>, k: K, v: V): (r: Assoc<K, V>)
    ensures Get(r, k) == Some(v)
    ensures forall j :: j != k ==> Get(r, j) == Get(a, j)
    ensures Keys(r) == if k in Keys(a) then Keys(a) else Keys(a) + [k]
    ensures DistinctKeys(a) ==> DistinctKeys(r)
  {
    InsertGet(a, k, v);
    InsertKeys(a, k, v);
    InsertDistinct(a, k, v);
    Insert(a, k, v)
  }

  /** The LinkedHashMap scan behind `put`: the entry of `k` is replaced
      where it stands, or a new entry goes at the end. */
  function Insert<K(==), V>(a: Assoc<K, V>, k: K, v: V): Assoc<K, V> {
    if a == [] then [(k, v)]
    else if a[0].0 == k then [(k, v)] + a[1..]
    else [a[0]] + Insert(a[1..], k, v)
  }

  lemma {:induction false} InsertGet<K(!new), V>(a: Assoc<K, V>, k: K, v: V)
    ensures Get(Insert(a, k, v), k) == Some(v)
    ensures forall j :: j != k ==> Get(Insert(a, k, v), j) == Get(a, j)
  {
    var r := Insert(a, k, v);
    if a != [] && a[0].0 != k {
      InsertGet(a[1..], k, v);
      assert r[0] == a[0] && r[1..] == Insert(a[1..], k, v);
    } else if a != [] {
      assert r[1..] == a[1..];
    }
  }

  lemma {:induction false} InsertKeys<K(!new), V>(a: Assoc<K, V>, k: K, v: V)
    ensures Keys(Insert(a, k, v)) == if k in Keys(a) then Keys(a) else Keys(a) + [k]
  {
    var r := Insert(a, k, v);
    if a != [] && a[0].0 != k {
      InsertKeys(a[1..], k, v);
      assert r[0] == a[0] && r[1..] == Insert(a[1..], k, v);
      assert Keys(a) == [a[0].0] + Keys(a[1..]);
      assert Keys(r) == [a[0].0] + Keys(r[1..]);
      assert k in Keys(a) <==> k in Keys(a[1..]);
    } else if a != [] {
      assert r[1..] == a[1..];
      assert Keys(r) == [k] + Keys(a[1..]);
    }
  }

  lemma {:induction false} InsertDistinct<K(!new), V>(a: Assoc<K, V>, k: K, v: V)
    ensures DistinctKeys(a) ==> DistinctKeys(Insert(a, k, v))
  {
    var r := Insert(a, k, v);
    if DistinctKeys(a) && a != [] {
      if a[0].0 != k {
        InsertDistinct(a[1..], k, v);
        InsertKeys(a[1..], k, v);
        assert r[0] == a[0] && r[1..] == Insert(a[1..], k, v);
        assert a[0].0 !in Keys(r[1..]);
      } else {
        assert r[1..] == a[1..];
      }
    }
  }

  /** `map.remove(k)`. */
  function Remove<K(==,!new), V>(a: Assoc<K, V>, k: K): (r: Assoc<K, V>)
    ensures Get(r, k) == None
    ensures forall j :: j != k ==> Get(r, j) == Get(a, j)
    ensures forall j :: j in Keys(r) <==> j in Keys(a) && j != k
    ensures DistinctKeys(a) ==> DistinctKeys(r)
  {
    if a == [] then []
    else if a[0].0 == k then Remove(a[1..], k)
    else [a[0]] + Remove(a[1..], k)
  }

  /** In a map without repeated keys, every entry is what `Get` finds. */
  lemma {:induction false} GetEntry<K(!new), V>(a: Assoc<K, V>, i: nat)
    requires DistinctKeys(a)
    requires i < |a|
    ensures Get(a, a[i].0) == Some(a[i].1)
  {
    if i > 0 {
      assert a[i] == a[1..][i - 1];
      assert a[i].0 in Keys(a[1..]);
      GetEntry(a[1..], i - 1);
    }
  }
  lemma {:induction false} KeysAppend<K, V>(a: Assoc<K, V>, b: Assoc<K, V>)
    ensures Keys(a + b) == Keys(a) + Keys(b)
  {
    assert |Keys(a + b)| == |Keys(a) + Keys(b)|;
    forall i | 0 <= i < |a + b| ensures Keys(a + b)[i] == (Keys(a) + Keys(b))[i] {
      if i >= |a| {
        assert (a + b)[i] == b[i - |a|];
      }
    }
  }

  /** Putting a key the map lacks appends it at the end. */
  lemma PutFresh<K(!new), V>(a: Assoc<K, V>, k: K, v: V)
    requires k !in Keys(a)
    ensures Put(a, k, v) == a + [(k, v)]
  {
    InsertFresh(a, k, v);
  }

  lemma {:induction false} InsertFresh<K(!new), V>(a: Assoc<K, V>, k: K, v: V)
    requires k !in Keys(a)
    ensures Insert(a, k, v) == a + [(k, v)]
  {
    if a != [] {
      assert Keys(a) == [a[0].0] + Keys(a[1..]);
      InsertFresh(a[1..], k, v);
      assert [a[0]] + (a[1..] + [(k, v)]) == a + [(k, v)];
    }
  }

  /** Putting the last key again replaces its value in place. */
  lemma PutAtLast<K(!new), V>(a: Assoc<K, V>, k: K, x: V, y: V)
    requires k !in Keys(a)
    ensures Put(a + [(k, x)], k, y) == a + [(k, y)]
  {
    InsertAtLast(a, k, x, y);
  }

  lemma {:induction false} InsertAtLast<K(!new), V>(a: Assoc<K, V>, k: K, x: V, y: V)
    requires k !in Keys(a)
    ensures Insert(a + [(k, x)], k, y) == a + [(k, y)]
  {
    if a == [] {
      assert [(k, x)][1..] == [];
    } else {
      assert Keys(a) == [a[0].0] + Keys(a[1..]);
      InsertAtLast(a[1..], k, x, y);
      var ax := a + [(k, x)];
      assert ax[0] == a[0] && ax[1..] == a[1..] + [(k, x)];
      assert [a[0]] + (a[1..] + [(k, y)]) == a + [(k, y)];
    }
  }

  /** The last entry of a map whose key occurs nowhere earlier is what `Get` finds. */
  lemma GetAtLast<K(!new), V>(a: Assoc<K, V>, k: K, x: V)
    requires k !in Keys(a)
    ensures Get(a + [(k, x)], k) == Some(x)
  {
    KeysAppend(a, [(k, x)]);
  }
}

=== FILE: path_index.dfy ===
/**
  The derived path indices of a review context (path -> comments and
  path -> changes) are both built the same way: clear the map, then visit the
  items in order and file each under every one of its paths, appending to the
  path's list only when the item is not already there.
 */
module PathIndex {

  predicate NoDuplicates<T(==,!new)>(s: seq<T>) {
    forall i, j :: 0 <= i < j < |s| ==> s[i] != s[j]
  }

  /** `if (!list.contains(x)) list.add(x)`. */
  function AddUnique<T(==,!new)>(l: seq<T>, x: T): (r: seq<T>)
    ensures x in r
    ensures forall y :: y in r <==> y in l || y == x
    ensures l <= r && |r| <= |l| + 1
    ensures NoDuplicates(l) ==> NoDuplicates(r)
  {
    if x in l then l else l + [x]
  }

  type Index<T> = map<string, seq<T>>

  /** `map[p] ?: listOf()`. */
  function Lookup<T>(m: Index<T>, p: string): seq<T> {
    if p in m then m[p] else []
  }

  /** Every list stored in the index has an element. */
  predicate NonEmptyLists<T>(m: Index<T>) {
    forall p :: p in m ==> m[p] != []
  }

  /** Files `x` under each of `keys`, in order. */
  function InsertUnder<T(==,!new)>(m: Index<T>, keys: seq<string>, x: T): (r: Index<T>)
    ensures forall p :: Lookup(r, p) == if p in keys then AddUnique(Lookup(m, p), x) else Lookup(m, p)
    ensures NonEmptyLists(m) ==> NonEmptyLists(r)
    decreases |keys|
  {
    if keys == [] then m
    else
      var m1 := m[keys[0] := AddUnique(Lookup(m, keys[0]), x)];
      AddUniqueTwice(Lookup(m, keys[0]), x);
      assert forall p :: p in keys <==> p == keys[0] || p in keys[1..];
      assert NonEmptyLists(m) ==> NonEmptyLists(m1);
      InsertUnder(m1, keys[1..], x)
  }

  /** Filing an item twice under a path files it once. */
  lemma AddUniqueTwice<T(!new)>(l: seq<T>, x: T)
    ensures AddUnique(AddUnique(l, x), x) == AddUnique(l, x)
  {
  }

  /** Reference: the list path `p` ends up with when `items` are filed in order. */
  function IndexOf<T(==,!new)>(items: seq<T>, keysOf: T -> seq<string>, p: string): seq<T> {
    if items == [] then []
    else
      var prev := IndexOf(items[..|items| - 1], keysOf, p);
      var x := items[|items| - 1];
      if p in keysOf(x) then AddUnique(prev, x) else prev
  }

  /** An item is listed under `p` iff it is one of the items and `p` is one of its keys. */
  lemma {:induction false} IndexOfMembers<T(!new)>(items: seq<T>, keysOf: T -> seq<string>, p: string, y: T)
    ensures y in IndexOf(items, keysOf, p) <==> y in items && p in keysOf(y)
  {
    if items != [] {
      var pre := items[..|items| - 1];
      IndexOfMembers(pre, keysOf, p, y);
      assert items == pre + [items[|items| - 1]];
    }
  }

  /** No list repeats an item. */
  lemma {:induction false} IndexOfNoDuplicates<T(!new)>(items: seq<T>, keysOf: T -> seq<string>, p: string)
    ensures NoDuplicates(IndexOf(items, keysOf, p))
  {
    if items != [] {
      IndexOfNoDuplicates(items[..|items| - 1], keysOf, p);
    }
  }

  /** Position of the first item filed under `p`, if there is one. */
  function FirstWith<T>(items: seq<T>, keysOf: T -> seq<string>, p: string): (i: nat)
    ensures i <= |items|
    ensures forall j :: 0 <= j < i ==> p !in keysOf(items[j])
    ensures i < |items| ==> p in keysOf(items[i])
  {
    if items == [] then 0
    else if p in keysOf(items[0]) then 0
    else 1 + FirstWith(items[1..], keysOf, p)
  }

  /** The head of a path's list is the first item, in input order, that has the path. */
  lemma {:induction false} IndexOfHead<T(!new)>(items: seq<T>, keysOf: T -> seq<string>, p: string)
    ensures IndexOf(items, keysOf, p) == [] <==> FirstWith(items, keysOf, p) == |items|
    ensures IndexOf(items, keysOf, p) != [] ==> IndexOf(items, keysOf, p)[0] == items[FirstWith(items, keysOf, p)]
  {
    if items != [] {
      var pre := items[..|items| - 1];
      var x := items[|items| - 1];
      IndexOfHead(pre, keysOf, p);
      var f := FirstWith(pre, keysOf, p);
      FirstWithPrefix(items, keysOf, p);
      if IndexOf(pre, keysOf, p) == [] {
        IndexOfMembers(pre, keysOf, p, x);
      }
    }
  }

  lemma {:induction false} FirstWithPrefix<T(!new)>(items: seq<T>, keysOf: T -> seq<string>, p: string)
    requires items != []
    ensures var pre := items[..|items| - 1];
      FirstWith(items, keysOf, p) ==
        if FirstWith(pre, keysOf, p) < |pre| then FirstWith(pre, keysOf, p)
        else if p in keysOf(items[|items| - 1]) then |pre| else |items|
  {
    var pre := items[..|items| - 1];
    if p !in keysOf(items[0]) {
      if |items| > 1 {
        assert items[1..][..|items[1..]| - 1] == pre[1..];
        FirstWithPrefix(items[1..], keysOf, p);
      }
    }
  }

  /** The index the Kotlin loop builds, rebuilt from scratch. */
  function BuildIndex<T(==,!new)>(items: seq<T>, keysOf: T -> seq<string>): (m: Index<T>)
    ensures forall p :: Lookup(m, p) == IndexOf(items, keysOf, p)
    ensures NonEmptyLists(m)
  {
    if items == [] then map[]
    else
      var x := items[|items| - 1];
      InsertUnder(BuildIndex(items[..|items| - 1], keysOf), keysOf(x), x)
  }

  /** The declarative reading of the index: contents, no duplicates, and the
      head of each list is the first item, in input order, filed under it. */
  lemma BuildIndexSpec<T(!new)>(items: seq<T>, keysOf: T -> seq<string>, m: Index<T>)
    requires m == BuildIndex(items, keysOf)
    ensures forall p, y :: y in Lookup(m, p) <==> y in items && p in keysOf(y)
    ensures forall p :: NoDuplicates(Lookup(m, p))
    ensures forall p :: p in m ==> FirstWith(items, keysOf, p) < |items| && m[p][0] == items[FirstWith(items, keysOf, p)]
    ensures forall p :: p !in m ==> FirstWith(items, keysOf, p) == |items|
  {
    forall p, y ensures y in Lookup(m, p) <==> y in items && p in keysOf(y) {
      IndexOfMembers(items, keysOf, p, y);
    }
    forall p ensures NoDuplicates(Lookup(m, p)) {
      IndexOfNoDuplicates(items, keysOf, p);
    }
    forall p ensures (p in m ==> FirstWith(items, keysOf, p) < |items| && m[p][0] == items[FirstWith(items, keysOf, p)])
                  && (p !in m ==> FirstWith(items, keysOf, p) == |items|)
    {
      IndexOfHead(items, keysOf, p);
      assert Lookup(m, p) == IndexOf(items, keysOf, p);
    }
  }
}

=== FILE: persistence.dfy ===
/**
  The persisted state of the plugin's services: provider settings and review
  states written to, and read back from, an XML element tree. Passwords live
  in the IDE's password safe, modelled as a map from credential attributes to
  stored strings.
 */
module Persistence {
  import opened Basics
  import opened OrderedMaps
  import opened Text
  import opened Domain

  /** A JDOM element: name, attributes (setting one replaces it), children. */
  datatype Element = Element(name: string, attributes: map<string, string>, children: seq<Element>)

  /** `element.getAttribute(name)?.value`. */
  function Attribute(e: Element, name: string): Option<string> {
    if name in e.attributes then Some(e.attributes[name]) else None
  }

  /** The two maps a service keeps, both keyed by id, in insertion order. */
  datatype Store = Store(providers: Assoc<string, ProviderSettings>, reviews: Assoc<string, ReviewState>)

  const EmptyStore: Store := Store([], [])

  // ---------------------------------------------------------------------
  // credentials
  // ---------------------------------------------------------------------

  /** IntelliJ `CredentialAttributes(serviceName, userName)`. */
  datatype CredentialAttributes = CredentialAttributes(serviceName: string, userName: Option<string>)

  /** The password safe: what `getPassword` finds for a set of attributes. */
  type Vault = map<CredentialAttributes, string>

  /** `makeCredentialAttribute`: the service name is short (KeePass limits
      group names), the user name is the url, prefixed by "login:" unless the
      login is the url itself. */
  function MakeCredentialAttribute(info: ProviderInfo, credentials: ApiCredentials): (a: CredentialAttributes)
    ensures a.serviceName == "MRI:" + info.id
    ensures a.userName.Some?
    ensures credentials.url == credentials.login ==> a.userName.value == credentials.url
    ensures credentials.url != credentials.login ==> a.userName.value == credentials.login + ":" + credentials.url
  {
    if credentials.url == credentials.login then CredentialAttributes("MRI:" + info.id, Some(credentials.url))
    else CredentialAttributes("MRI:" + info.id, Some(credentials.login + ":" + credentials.url))
  }

  /** `makeLegacyCredentialAttribute`: the attributes older versions used. */
  function MakeLegacyCredentialAttribute(info: ProviderInfo, credentials: ApiCredentials): CredentialAttributes {
    CredentialAttributes("MRI - " + info.id + " - " + credentials.url + " - " + credentials.login, None)
  }

  /** The current and the legacy attributes never name the same entry, and
      providers with different ids never share an entry. */
  lemma CredentialAttributesDistinct(info: ProviderInfo, other: ProviderInfo, c: ApiCredentials, d: ApiCredentials)
    ensures MakeCredentialAttribute(info, c) != MakeLegacyCredentialAttribute(other, d)
    ensures info.id != other.id ==> MakeCredentialAttribute(info, c) != MakeCredentialAttribute(other, d)
  {
    var s, t := MakeCredentialAttribute(info, c).serviceName, MakeCredentialAttribute(other, d).serviceName;
    assert s[4..] == info.id && t[4..] == other.id;
  }

  function Lookup(vault: Vault, a: CredentialAttributes): Option<string> {
    if a in vault then Some(vault[a]) else None
  }

  /** `decryptPassword`: the current entry unless it is missing or empty,
      in which case the legacy entry (which may be missing too). */
  function DecryptPassword(vault: Vault, info: ProviderInfo, credentials: ApiCredentials): (r: Option<string>)
    ensures var current := Lookup(vault, MakeCredentialAttribute(info, credentials));
      && (current.Some? && current.value != "" ==> r == current)
      && ((current.None? || current.value == "") ==> r == Lookup(vault, MakeLegacyCredentialAttribute(info, credentials)))
  {
    var password := Lookup(vault, MakeCredentialAttribute(info, credentials));
    if password.None? || password.value == "" then Lookup(vault, MakeLegacyCredentialAttribute(info, credentials))
    else password
  }

  /** `decryptCredentials`: the token comes from the safe when it has one. */
  function DecryptCredentials(vault: Vault, info: ProviderInfo, credentials: ApiCredentials): (r: ApiCredentials)
    ensures r == credentials.(token := r.token)
    ensures r.token == DecryptPassword(vault, info, credentials).GetOr(credentials.token)
  {
    credentials.(token := DecryptPassword(vault, info, credentials).GetOr(credentials.token))
  }

  /** `encryptCredentials`: stores the token in the safe; the credentials
      themselves are kept as they are. */
  function EncryptCredentials(vault: Vault, info: ProviderInfo, credentials: ApiCredentials): (r: (Vault, ApiCredentials))
    ensures r.1 == credentials
    ensures Lookup(r.0, MakeCredentialAttribute(info, credentials)) == Some(credentials.token)
    ensures forall a :: a != MakeCredentialAttribute(info, credentials) ==> Lookup(r.0, a) == Lookup(vault, a)
  {
    (vault[MakeCredentialAttribute(info, credentials) := credentials.token], credentials)
  }

  /** A non-empty token stored by encryptCredentials is what decryptCredentials
      gives back, whatever the token field then holds. */
  lemma EncryptThenDecrypt(vault: Vault, info: ProviderInfo, credentials: ApiCredentials, stale: string)
    requires credentials.token != ""
    ensures var stored := EncryptCredentials(vault, info, credentials).0;
      DecryptCredentials(stored, info, credentials.(token := stale)) == credentials
  {
    assert MakeCredentialAttribute(info, credentials.(token := stale)) == MakeCredentialAttribute(info, credentials);
  }

  // ---------------------------------------------------------------------
  // the SSL flag
  // ---------------------------------------------------------------------

  function SslFlag(ignore: bool): (s: string)
    ensures s == "1" || s == "0"
  {
    if ignore then "1" else "0"
  }

  /** `shouldIgnoreSSLCertificateErrors`: a missing attribute reads false;
      "1" and any spelling of "true" read true. */
  function ReadSslFlag(attribute: Option<string>): (b: bool)
    ensures attribute.None? ==> !b
    ensures attribute.Some? ==> (b <==> attribute.value == "1" || IsTrueIgnoringCase(attribute.value))
  {
    attribute.Some? && (attribute.value == "1" || IsTrueIgnoringCase(attribute.value))
  }

  lemma SslFlagRoundTrip(ignore: bool)
    ensures ReadSslFlag(Some(SslFlag(ignore))) == ignore
  {
  }

  // ---------------------------------------------------------------------
  // writing
  // ---------------------------------------------------------------------

  /** The "Provider" element of one setting (the token is not written). */
  function ProviderElement(s: ProviderSettings): Element {
    Element("Provider",
      map[ "id" := s.id,
           "providerId" := s.info.id,
           "url" := s.credentials.url,
           "login" := s.credentials.login,
           "projectId" := s.credentials.projectId,
           "version" := s.credentials.version,
           "info" := s.credentials.info,
           "ignoreSSLCertificateErrors" := SslFlag(s.credentials.ignoreSSLCertificateErrors),
           "repository" := s.repository ],
      [])
  }

  type Triple = (string, string, string)

  /** The (change, key, value) triples of one path, in key order. */
  function Triples(change: string, d: Assoc<string, string>): (ts: seq<Triple>)
    ensures |ts| == |d|
    ensures forall i :: 0 <= i < |d| ==> ts[i] == (change, d[i].0, d[i].1)
  {
    if d == [] then [] else [(change, d[0].0, d[0].1)] + Triples(change, d[1..])
  }

  /** The triples of a whole review state, path by path. */
  function Flatten(data: Assoc<string, Assoc<string, string>>): seq<Triple> {
    if data == [] then [] else Triples(data[0].0, data[0].1) + Flatten(data[1..])
  }

  /** Total number of (key, value) entries over all paths. */
  function EntryCount(data: Assoc<string, Assoc<string, string>>): nat {
    if data == [] then 0 else |data[0].1| + EntryCount(data[1..])
  }

  lemma {:induction false} FlattenLength(data: Assoc<string, Assoc<string, string>>)
    ensures |Flatten(data)| == EntryCount(data)
  {
    if data != [] {
      FlattenLength(data[1..]);
    }
  }

  function ChangeElement(t: Triple): Element {
    Element("Change", map["change" := t.0, "key" := t.1, "value" := t.2], [])
  }

  function ChangeElements(ts: seq<Triple>): (es: seq<Element>)
    ensures |es| == |ts|
    ensures forall i :: 0 <= i < |ts| ==> es[i] == ChangeElement(ts[i])
  {
    if ts == [] then [] else [ChangeElement(ts[0])] + ChangeElements(ts[1..])
  }

  /** The "Review" element of one state: a "Change" child per triple. */
  function ReviewElement(r: ReviewState): (e: Element)
    ensures e.name == "Review" && Attribute(e, "id") == Some(r.id)
    ensures e.children == ChangeElements(Flatten(r.data))
  {
    Element("Review", map["id" := r.id], ChangeElements(Flatten(r.data)))
  }

  function ProviderElements(vs: seq<ProviderSettings>): (es: seq<Element>)
    ensures |es| == |vs|
    ensures forall i :: 0 <= i < |vs| ==> es[i] == ProviderElement(vs[i])
  {
    if vs == [] then [] else [ProviderElement(vs[0])] + ProviderElements(vs[1..])
  }

  function ReviewElements(vs: seq<ReviewState>): (es: seq<Element>)
    ensures |es| == |vs|
    ensures forall i :: 0 <= i < |vs| ==> es[i] == ReviewElement(vs[i])
  {
    if vs == [] then [] else [ReviewElement(vs[0])] + ReviewElements(vs[1..])
  }

  /** `getState`: a "Provider" child per setting, then a "Review" child per
      review state, each carrying its value's id. */
  function GetState(store: Store): (root: Element)
    ensures root.name == "Providers"
    ensures |root.children| == |store.providers| + |store.reviews|
    ensures forall i :: 0 <= i < |store.providers| ==>
      root.children[i].name == "Provider" && Attribute(root.children[i], "id") == Some(store.providers[i].1.id)
    ensures forall i :: 0 <= i < |store.reviews| ==>
      root.children[|store.providers| + i].name == "Review"
      && Attribute(root.children[|store.providers| + i], "id") == Some(store.reviews[i].1.id)
  {
    Element("Providers", map[], ProviderElements(Values(store.providers)) + ReviewElements(Values(store.reviews)))
  }

  // ---------------------------------------------------------------------
  // reading
  // ---------------------------------------------------------------------

  /** What reading one item yields: the value to store, nothing (an
      unsupported provider), or a missing attribute — the NullPointerException
      that ends `loadState`. */
  datatype Outcome<T> = Take(value: T) | Skip | Abort

  function FindProvider(supported: seq<ProviderInfo>, id: string): (r: Option<ProviderInfo>)
    ensures r.Some? ==> r.value in supported && r.value.id == id
    ensures r.None? ==> forall i :: 0 <= i < |supported| ==> supported[i].id != id
  {
    if supported == [] then None
    else if supported[0].id == id then Some(supported[0])
    else FindProvider(supported[1..], id)
  }

  /** Every attribute `loadProvider` dereferences besides "providerId". */
  predicate HasProviderAttributes(item: Element) {
    && Attribute(item, "url").Some?
    && Attribute(item, "login").Some?
    && Attribute(item, "projectId").Some?
    && Attribute(item, "version").Some?
    && Attribute(item, "info").Some?
    && Attribute(item, "id").Some?
    && Attribute(item, "repository").Some?
  }

  /** `loadProvider`: the raw id to store under, and the settings, whose id is
      trimmed and whose token comes from the password safe. The provider is
      looked up with `firstOrNull`, whose predicate (the only read of
      "providerId") never runs on an empty list of supported providers. */
  function LoadProvider(vault: Vault, supported: seq<ProviderInfo>, item: Element)
    : (r: Outcome<(string, ProviderSettings)>)
    ensures supported == [] ==> r.Skip?
    ensures supported != [] && Attribute(item, "providerId").None? ==> r.Abort?
    ensures Attribute(item, "providerId").Some? && FindProvider(supported, Attribute(item, "providerId").value).None?
      ==> r.Skip?
    ensures r.Take? ==> && Attribute(item, "id") == Some(r.value.0)
                        && r.value.1.id == Trim(r.value.0)
                        && r.value.1.info in supported
                        && Attribute(item, "providerId") == Some(r.value.1.info.id)
                        && r.value.1.credentials.ignoreSSLCertificateErrors ==
                           ReadSslFlag(Attribute(item, "ignoreSSLCertificateErrors"))
    // the credentials are the attributes', with the token from the password safe
    ensures r.Take? ==>
      && HasProviderAttributes(item)
      && r.value.1.credentials == DecryptCredentials(vault, r.value.1.info, ApiCredentials(
           Attribute(item, "url").value, Attribute(item, "login").value, "",
           Attribute(item, "projectId").value, Attribute(item, "version").value, Attribute(item, "info").value,
           ReadSslFlag(Attribute(item, "ignoreSSLCertificateErrors"))))
    ensures r.Take? ==> HasProviderAttributes(item) && r.value.1.repository == Attribute(item, "repository").value
    ensures r.Abort? <==> supported != [] && (Attribute(item, "providerId").None? ||
                           (FindProvider(supported, Attribute(item, "providerId").value).Some? && !HasProviderAttributes(item)))
  {
    var providerId := Attribute(item, "providerId");
    if supported == [] then Skip
    else if providerId.None? then Abort
    else
      var info := FindProvider(supported, providerId.value);
      if info.None? then Skip
      else if !HasProviderAttributes(item) then Abort
      else
        var credentials := ApiCredentials(
          Attribute(item, "url").value,
          Attribute(item, "login").value,
          "",
          Attribute(item, "projectId").value,
          Attribute(item, "version").value,
          Attribute(item, "info").value,
          ReadSslFlag(Attribute(item, "ignoreSSLCertificateErrors")));
        var id := Attribute(item, "id").value;
        Take((id, ProviderSettings(Trim(id), info.value, DecryptCredentials(vault, info.value, credentials),
                                   Attribute(item, "repository").value)))
  }

  /** The triples of a "Review" element's children, whatever their names;
      None when a child lacks one of the three attributes. */
  function ReadTriples(children: seq<Element>): (r: Option<seq<Triple>>)
    ensures r.Some? ==> |r.value| == |children|
  {
    if children == [] then Some([])
    else
      var c := children[0];
      var change, key, value := Attribute(c, "change"), Attribute(c, "key"), Attribute(c, "value");
      if change.None? || key.None? || value.None? then None
      else
        var rest := ReadTriples(children[1..]);
        if rest.None? then None else Some([(change.value, key.value, value.value)] + rest.value)
  }

  /** One regrouping step: `data[change] = data[change] ?: {}; data[change][key] = value`. */
  function Regroup1(data: Assoc<string, Assoc<string, string>>, t: Triple): Assoc<string, Assoc<string, string>> {
    Put(data, t.0, Put(Get(data, t.0).GetOr([]), t.1, t.2))
  }

  function RegroupInto(data: Assoc<string, Assoc<string, string>>, ts: seq<Triple>): Assoc<string, Assoc<string, string>>
    decreases |ts|
  {
    if ts == [] then data else RegroupInto(Regroup1(data, ts[0]), ts[1..])
  }

  /** `loadReviewState`: the state the element describes, or Abort when the
      element or one of its children lacks an attribute. */
  function LoadReviewState(item: Element): (r: Outcome<ReviewState>)
    ensures !r.Skip?
    ensures r.Take? ==> Attribute(item, "id") == Some(r.value.id)
    ensures r.Abort? <==> Attribute(item, "id").None? || ReadTriples(item.children).None?
  {
    var id := Attribute(item, "id");
    var triples := ReadTriples(item.children);
    if id.None? || triples.None? then Abort
    else Take(ReviewState(id.value, RegroupInto([], triples.value)))
  }

  datatype Loaded = Loaded(store: Store, aborted: bool)

  /** `loadState` over the root's children, in order: "Item" and "Provider"
      load a provider, "Review" a review state, anything else is ignored; a
      missing attribute ends the load, keeping what was stored before it. */
  function LoadItems(vault: Vault, supported: seq<ProviderInfo>, store: Store, items: seq<Element>): Loaded
    decreases |items|
  {
    if items == [] then Loaded(store, false)
    else
      var item := items[0];
      if item.name == "Item" || item.name == "Provider" then
        match LoadProvider(vault, supported, item)
        case Abort => Loaded(store, true)
        case Skip => LoadItems(vault, supported, store, items[1..])
        case Take(entry) =>
          LoadItems(vault, supported, store.(providers := Put(store.providers, entry.0, entry.1)), items[1..])
      else if item.name == "Review" then
        match LoadReviewState(item)
        case Take(state) => LoadItems(vault, supported, store.(reviews := Put(store.reviews, state.id, state)), items[1..])
        case _ => Loaded(store, true)
      else
        LoadItems(vault, supported, store, items[1..])
  }

  function LoadState(vault: Vault, supported: seq<ProviderInfo>, store: Store, root: Element): Loaded {
    LoadItems(vault, supported, store, root.children)
  }

  /** An item that is not "Item", "Provider" or "Review" has no effect. */
  lemma LoadIgnoresOtherElements(vault: Vault, supported: seq<ProviderInfo>, store: Store, item: Element, rest: seq<Element>)
    requires item.name != "Item" && item.name != "Provider" && item.name != "Review"
    ensures LoadItems(vault, supported, store, [item] + rest) == LoadItems(vault, supported, store, rest)
  {
    assert ([item] + rest)[1..] == rest;
  }

  /** A provider item whose providerId is not supported has no effect. */
  lemma LoadSkipsUnsupported(vault: Vault, supported: seq<ProviderInfo>, store: Store, item: Element, rest: seq<Element>)
    requires item.name == "Item" || item.name == "Provider"
    requires Attribute(item, "providerId").Some?
    requires forall i :: 0 <= i < |supported| ==> supported[i].id != Attribute(item, "providerId").value
    ensures LoadItems(vault, supported, store, [item] + rest) == LoadItems(vault, supported, store, rest)
  {
    assert ([item] + rest)[1..] == rest;
    assert FindProvider(supported, Attribute(item, "providerId").value).None?;
  }

  /** Loading two runs of items is loading the first and, unless it aborted,
      the second from where the first left off. */
  lemma {:induction false} LoadItemsAppend(vault: Vault, supported: seq<ProviderInfo>, store: Store, a: seq<Element>, b: seq<Element>)
    ensures var first := LoadItems(vault, supported, store, a);
      LoadItems(vault, supported, store, a + b) ==
        if first.aborted then first else LoadItems(vault, supported, first.store, b)
    decreases |a|
  {
    if a == [] {
      assert a + b == b;
    } else {
      assert (a + b)[0] == a[0];
      assert (a + b)[1..] == a[1..] + b;
      var item := a[0];
      if item.name == "Item" || item.name == "Provider" {
        match LoadProvider(vault, supported, item)
        case Abort =>
        case Skip => LoadItemsAppend(vault, supported, store, a[1..], b);
        case Take(entry) =>
          LoadItemsAppend(vault, supported, store.(providers := Put(store.providers, entry.0, entry.1)), a[1..], b);
      } else if item.name == "Review" {
        match LoadReviewState(item)
        case Take(state) =>
          LoadItemsAppend(vault, supported, store.(reviews := Put(store.reviews, state.id, state)), a[1..], b);
        case _ =>
      } else {
        LoadItemsAppend(vault, supported, store, a[1..], b);
      }
    }
  }
  // ---------------------------------------------------------------------
  // write-then-load
  // ---------------------------------------------------------------------

  /** Review data that reads back as it is: keyed, and every path holds a
      non-empty map. */
  predicate WellFormedData(data: Assoc<string, Assoc<string, string>>) {
    && DistinctKeys(data)
    && forall i :: 0 <= i < |data| ==> data[i].1 != [] && DistinctKeys(data[i].1)
  }

  /** The paths of `data` whose map is not empty, in order. */
  function DropEmptyPaths(data: Assoc<string, Assoc<string, string>>): (r: Assoc<string, Assoc<string, string>>)
    ensures |r| <= |data|
    ensures forall i :: 0 <= i < |r| ==> r[i].1 != [] && r[i] in data
    ensures forall i :: 0 <= i < |data| && data[i].1 != [] ==> data[i] in r
    ensures (forall i :: 0 <= i < |data| ==> data[i].1 != []) ==> r == data
  {
    if data == [] then []
    else
      var rest := DropEmptyPaths(data[1..]);
      assert forall i :: 1 <= i < |data| ==> data[i] == data[1..][i - 1];
      if data[0].1 == [] then rest else [data[0]] + rest
  }

  /** Reading a path back after the empty paths are dropped: its map when
      that map is not empty, and nothing otherwise. */
  lemma {:induction false} DropEmptyPathsGet(data: Assoc<string, Assoc<string, string>>, p: string)
    requires DistinctKeys(data)
    ensures Get(DropEmptyPaths(data), p) == if Get(data, p) == Some([]) then None else Get(data, p)
  {
    if data != [] {
      DropEmptyPathsGet(data[1..], p);
      if data[0].0 == p && data[0].1 == [] {
        assert p !in Keys(data[1..]);
      }
    }
  }

  /** Dropping the empty paths of keyed data leaves data that reads back as it is. */
  lemma {:induction false} DropEmptyWellFormed(data: Assoc<string, Assoc<string, string>>)
    requires KeyedData(data)
    ensures WellFormedData(DropEmptyPaths(data))
  {
    if data != [] {
      assert KeyedData(data[1..]) by {
        forall i | 0 <= i < |data[1..]| ensures DistinctKeys(data[1..][i].1) {
          assert data[1..][i] == data[i + 1];
        }
      }
      DropEmptyWellFormed(data[1..]);
      var rest := DropEmptyPaths(data[1..]);
      if data[0].1 != [] {
        var r := [data[0]] + rest;
        assert r[1..] == rest;
      }
    }
  }

  /** The empty paths write no triples. */
  lemma {:induction false} FlattenDropEmpty(data: Assoc<string, Assoc<string, string>>)
    ensures Flatten(DropEmptyPaths(data)) == Flatten(data)
  {
    if data != [] {
      FlattenDropEmpty(data[1..]);
      var rest := DropEmptyPaths(data[1..]);
      if data[0].1 != [] {
        assert ([data[0]] + rest)[1..] == rest;
      }
    }
  }

  lemma {:induction false} ReadTriplesOfChangeElements(ts: seq<Triple>)
    ensures ReadTriples(ChangeElements(ts)) == Some(ts)
  {
    if ts != [] {
      var es := ChangeElements(ts);
      assert es[1..] == ChangeElements(ts[1..]);
      ReadTriplesOfChangeElements(ts[1..]);
      assert [ts[0]] + ts[1..] == ts;
    }
  }

  lemma {:induction false} RegroupIntoAppend(data: Assoc<string, Assoc<string, string>>, a: seq<Triple>, b: seq<Triple>)
    ensures RegroupInto(data, a + b) == RegroupInto(RegroupInto(data, a), b)
    decreases |a|
  {
    if a == [] {
      assert a + b == b;
    } else {
      assert (a + b)[0] == a[0] && (a + b)[1..] == a[1..] + b;
      RegroupIntoAppend(Regroup1(data, a[0]), a[1..], b);
    }
  }

  /** The keys of `d1`, regrouped onto the last path `c` of `acc + [(c, d0)]`,
      extend that path's map in order. */
  lemma ConsSplit<T>(d0: seq<T>, d1: seq<T>)
    requires d1 != []
    ensures d0 + [d1[0]] + d1[1..] == d0 + d1
  {
    assert d1 == [d1[0]] + d1[1..];
  }

  lemma {:induction false} RegroupPath(acc: Assoc<string, Assoc<string, string>>, c: string,
                                       d0: Assoc<string, string>, d1: Assoc<string, string>)
    requires c !in Keys(acc)
    requires DistinctKeys(d1)
    requires forall i :: 0 <= i < |d1| ==> d1[i].0 !in Keys(d0)
    ensures RegroupInto(acc + [(c, d0)], Triples(c, d1)) == acc + [(c, d0 + d1)]
    decreases |d1|
  {
    if d1 == [] {
      assert d0 + d1 == d0;
    } else {
      var k, v := d1[0].0, d1[0].1;
      var ts := Triples(c, d1);
      assert ts[0] == (c, k, v) && ts[1..] == Triples(c, d1[1..]);
      GetAtLast(acc, c, d0);
      PutFresh(d0, k, v);
      PutAtLast(acc, c, d0, d0 + [(k, v)]);
      assert Regroup1(acc + [(c, d0)], ts[0]) == acc + [(c, d0 + [(k, v)])];
      KeysAppend(d0, [(k, v)]);
      forall i | 0 <= i < |d1[1..]| ensures d1[1..][i].0 !in Keys(d0 + [(k, v)]) {
        assert d1[1..][i] == d1[i + 1];
        assert Keys(d1[1..])[i] == d1[1..][i].0;
      }
      assert RegroupInto(acc + [(c, d0)], ts) == RegroupInto(acc + [(c, d0 + [(k, v)])], ts[1..]);
      RegroupPath(acc, c, d0 + [(k, v)], d1[1..]);
      ConsSplit(d0, d1);
    }
  }

  /** A path not yet in `acc`, regrouped from its triples, is appended whole. */
  lemma RegroupNewPath(acc: Assoc<string, Assoc<string, string>>, c: string, d: Assoc<string, string>)
    requires c !in Keys(acc)
    requires d != [] && DistinctKeys(d)
    ensures RegroupInto(acc, Triples(c, d)) == acc + [(c, d)]
  {
    var k, v := d[0].0, d[0].1;
    var ts := Triples(c, d);
    assert ts[0] == (c, k, v) && ts[1..] == Triples(c, d[1..]);
    FirstTripleOfNewPath(acc, c, k, v);
    forall i | 0 <= i < |d[1..]| ensures d[1..][i].0 !in Keys([(k, v)]) {
      assert d[1..][i] == d[i + 1];
    }
    RegroupPath(acc, c, [(k, v)], d[1..]);
    HeadThenTail(d);
  }

  /** The first triple of a new path starts that path's map at the end. */
  lemma FirstTripleOfNewPath(acc: Assoc<string, Assoc<string, string>>, c: string, k: string, v: string)
    requires c !in Keys(acc)
    ensures Regroup1(acc, (c, k, v)) == acc + [(c, [(k, v)])]
  {
    assert Put([], k, v) == [(k, v)];
    PutFresh(acc, c, [(k, v)]);
  }

  lemma HeadThenTail<T>(d: seq<T>)
    requires d != []
    ensures [d[0]] + d[1..] == d
  {
  }

  lemma {:induction false} RegroupFlatten(acc: Assoc<string, Assoc<string, string>>, data: Assoc<string, Assoc<string, string>>)
    requires WellFormedData(data)
    requires forall i :: 0 <= i < |data| ==> data[i].0 !in Keys(acc)
    ensures RegroupInto(acc, Flatten(data)) == acc + data
    decreases |data|
  {
    if data == [] {
      assert acc + data == acc;
    } else {
      var c, d := data[0].0, data[0].1;
      RegroupIntoAppend(acc, Triples(c, d), Flatten(data[1..]));
      RegroupNewPath(acc, c, d);
      KeysAppend(acc, [(c, d)]);
      forall i | 0 <= i < |data[1..]| ensures data[1..][i].0 !in Keys(acc + [(c, d)]) {
        assert data[1..][i] == data[i + 1];
        assert Keys(data[1..])[i] == data[1..][i].0;
      }
      assert WellFormedData(data[1..]) by {
        forall i | 0 <= i < |data[1..]| ensures data[1..][i].1 != [] && DistinctKeys(data[1..][i].1) {
          assert data[1..][i] == data[i + 1];
        }
      }
      RegroupFlatten(acc + [(c, d)], data[1..]);
      ConsSplit(acc, data);
    }
  }

  /** A review state written by writeReviewStateItem reads back with its
      empty paths gone and everything else unchanged; data without empty
      paths reads back as it is. */
  lemma ReviewStateRoundTrip(r: ReviewState)
    requires KeyedData(r.data)
    ensures LoadReviewState(ReviewElement(r)) == Take(r.(data := DropEmptyPaths(r.data)))
    ensures WellFormedData(r.data) ==> LoadReviewState(ReviewElement(r)) == Take(r)
  {
    var d := DropEmptyPaths(r.data);
    FlattenDropEmpty(r.data);
    DropEmptyWellFormed(r.data);
    ReadTriplesOfChangeElements(Flatten(r.data));
    RegroupFlatten([], d);
    assert [] + d == d;
  }

  /** A path whose map is empty writes no element, so it does not come back. */
  lemma EmptyPathIsDropped(id: string, path: string)
    ensures LoadReviewState(ReviewElement(ReviewState(id, [(path, [])]))) == Take(ReviewState(id, []))
  {
    assert Flatten([(path, [])]) == [];
  }

  /** The settings a provider element reads back as: the id is trimmed, and
      the token comes from the password safe (the element does not carry it). */
  function Reload(vault: Vault, s: ProviderSettings): ProviderSettings {
    s.(id := Trim(s.id), credentials := DecryptCredentials(vault, s.info, s.credentials.(token := "")))
  }

  /** A provider element written by writeProviderStateItem, of a supported
      provider, reads back as its settings with the id trimmed and the token
      from the safe, stored under the id as written. An id without outer
      whitespace comes back as it is. */
  lemma ProviderRoundTrip(vault: Vault, supported: seq<ProviderInfo>, s: ProviderSettings)
    requires FindProvider(supported, s.info.id) == Some(s.info)
    ensures LoadProvider(vault, supported, ProviderElement(s)) == Take((s.id, Reload(vault, s)))
    ensures Reload(vault, s).id == s.id <==> IsTrimmed(s.id)
  {
    TrimFixedIffTrimmed(s.id);
    ProviderElementAttributes(s);
    SslFlagRoundTrip(s.credentials.ignoreSSLCertificateErrors);
  }

  /** What a provider element's attributes read as. */
  lemma ProviderElementAttributes(s: ProviderSettings)
    ensures var e := ProviderElement(s);
      && Attribute(e, "providerId") == Some(s.info.id)
      && Attribute(e, "ignoreSSLCertificateErrors") == Some(SslFlag(s.credentials.ignoreSSLCertificateErrors))
      && HasProviderAttributes(e)
      && Attribute(e, "url").value == s.credentials.url
      && Attribute(e, "login").value == s.credentials.login
      && Attribute(e, "projectId").value == s.credentials.projectId
      && Attribute(e, "version").value == s.credentials.version
      && Attribute(e, "info").value == s.credentials.info
      && Attribute(e, "id").value == s.id
      && Attribute(e, "repository").value == s.repository
  {
  }

  // ---------------------------------------------------------------------
  // whole-store round trip
  // ---------------------------------------------------------------------

  /** Provider entries as addProviderConfiguration leaves them: no id twice,
      each stored under its own id, of a supported provider. */
  predicate ProvidersReloadable(supported: seq<ProviderInfo>, ps: Assoc<string, ProviderSettings>) {
    && DistinctKeys(ps)
    && forall i :: 0 <= i < |ps| ==>
         && ps[i].0 == ps[i].1.id
         && FindProvider(supported, ps[i].1.info.id) == Some(ps[i].1.info)
  }

  /** Review entries as addReviewState leaves them: no id twice, each stored
      under its own id, with keyed data (as getReviewState produces it). */
  predicate ReviewsReloadable(rs: Assoc<string, ReviewState>) {
    && DistinctKeys(rs)
    && forall i :: 0 <= i < |rs| ==> rs[i].0 == rs[i].1.id && KeyedData(rs[i].1.data)
  }

  /** Every review entry as it reads back: its empty paths are gone. Entries
      without empty paths read back as they are. */
  function RereadAll(rs: Assoc<string, ReviewState>): (r: Assoc<string, ReviewState>)
    ensures |r| == |rs|
    ensures forall i :: 0 <= i < |rs| ==> r[i].0 == rs[i].0 && r[i].1.id == rs[i].1.id
    ensures forall i :: 0 <= i < |rs| ==> r[i].1.data == DropEmptyPaths(rs[i].1.data)
    ensures (forall i :: 0 <= i < |rs| ==> WellFormedData(rs[i].1.data)) ==> r == rs
  {
    if rs == [] then []
    else
      assert forall i :: 1 <= i < |rs| ==> rs[i] == rs[1..][i - 1];
      [(rs[0].0, rs[0].1.(data := DropEmptyPaths(rs[0].1.data)))] + RereadAll(rs[1..])
  }

  /** Every provider entry as it reads back. */
  function ReloadAll(vault: Vault, ps: Assoc<string, ProviderSettings>): (r: Assoc<string, ProviderSettings>)
    ensures |r| == |ps|
    ensures forall i :: 0 <= i < |ps| ==> r[i] == (ps[i].0, Reload(vault, ps[i].1))
  {
    if ps == [] then [] else [(ps[0].0, Reload(vault, ps[0].1))] + ReloadAll(vault, ps[1..])
  }

  /** The keys of the tail of a map without repeated keys avoid its head and
      whatever keys the map avoided. */
  lemma TailKeysFresh<V>(acc: seq<string>, ps: Assoc<string, V>)
    requires ps != [] && DistinctKeys(ps)
    requires forall i :: 0 <= i < |ps| ==> ps[i].0 !in acc
    ensures forall i :: 0 <= i < |ps[1..]| ==> ps[1..][i].0 !in acc + [ps[0].0]
  {
    forall i | 0 <= i < |ps[1..]| ensures ps[1..][i].0 !in acc + [ps[0].0] {
      assert ps[1..][i] == ps[i + 1];
      assert Keys(ps[1..])[i] == ps[1..][i].0;
    }
  }

  /** The provider children of getState, loaded into a store whose keys
      they avoid, append their reloaded settings in order. */
  lemma {:induction false} LoadProviderElements(vault: Vault, supported: seq<ProviderInfo>, store: Store,
                                                ps: Assoc<string, ProviderSettings>)
    requires ProvidersReloadable(supported, ps)
    requires forall i :: 0 <= i < |ps| ==> ps[i].0 !in Keys(store.providers)
    ensures LoadItems(vault, supported, store, ProviderElements(Values(ps)))
         == Loaded(store.(providers := store.providers + ReloadAll(vault, ps)), false)
    decreases |ps|
  {
    if ps == [] {
      assert store.providers + [] == store.providers;
    } else {
      var s := ps[0].1;
      var es := ProviderElements(Values(ps));
      assert Values(ps[1..]) == Values(ps)[1..];
      assert es[1..] == ProviderElements(Values(ps[1..]));
      ProviderRoundTrip(vault, supported, s);
      PutFresh(store.providers, s.id, Reload(vault, s));
      var next := store.(providers := store.providers + [(s.id, Reload(vault, s))]);
      assert LoadItems(vault, supported, store, es) == LoadItems(vault, supported, next, es[1..]);
      KeysAppend(store.providers, [(s.id, Reload(vault, s))]);
      TailKeysFresh(Keys(store.providers), ps);
      assert ProvidersReloadable(supported, ps[1..]) by {
        forall i | 0 <= i < |ps[1..]|
          ensures ps[1..][i].0 == ps[1..][i].1.id
               && FindProvider(supported, ps[1..][i].1.info.id) == Some(ps[1..][i].1.info)
        {
          assert ps[1..][i] == ps[i + 1];
        }
      }
      LoadProviderElements(vault, supported, next, ps[1..]);
      var rl := ReloadAll(vault, ps);
      assert rl[0] == (s.id, Reload(vault, s)) && rl[1..] == ReloadAll(vault, ps[1..]);
      ConsSplit(store.providers, rl);
    }
  }

  /** The review children of getState, loaded into a store whose keys they
      avoid, append their states in order, each without its empty paths. */
  lemma {:induction false} LoadReviewElements(vault: Vault, supported: seq<ProviderInfo>, store: Store,
                                              rs: Assoc<string, ReviewState>)
    requires ReviewsReloadable(rs)
    requires forall i :: 0 <= i < |rs| ==> rs[i].0 !in Keys(store.reviews)
    ensures LoadItems(vault, supported, store, ReviewElements(Values(rs)))
         == Loaded(store.(reviews := store.reviews + RereadAll(rs)), false)
    decreases |rs|
  {
    if rs == [] {
      assert store.reviews + [] == store.reviews;
    } else {
      var r := rs[0].1;
      var es := ReviewElements(Values(rs));
      assert Values(rs[1..]) == Values(rs)[1..];
      assert es[1..] == ReviewElements(Values(rs[1..]));
      var back := r.(data := DropEmptyPaths(r.data));
      ReviewStateRoundTrip(r);
      PutFresh(store.reviews, r.id, back);
      var next := store.(reviews := store.reviews + [(r.id, back)]);
      assert LoadItems(vault, supported, store, es) == LoadItems(vault, supported, next, es[1..]);
      KeysAppend(store.reviews, [(r.id, back)]);
      TailKeysFresh(Keys(store.reviews), rs);
      assert ReviewsReloadable(rs[1..]) by {
        forall i | 0 <= i < |rs[1..]| ensures rs[1..][i].0 == rs[1..][i].1.id && KeyedData(rs[1..][i].1.data) {
          assert rs[1..][i] == rs[i + 1];
        }
      }
      LoadReviewElements(vault, supported, next, rs[1..]);
      var rr := RereadAll(rs);
      assert rr[0] == (r.id, back) && rr[1..] == RereadAll(rs[1..]);
      ConsSplit(store.reviews, rr);
    }
  }

  /** The provider children alone, loaded into an empty service. */
  lemma LoadProvidersIntoEmpty(vault: Vault, supported: seq<ProviderInfo>, ps: Assoc<string, ProviderSettings>)
    requires ProvidersReloadable(supported, ps)
    ensures LoadItems(vault, supported, EmptyStore, ProviderElements(Values(ps))) == Loaded(Store(ReloadAll(vault, ps), []), false)
  {
    LoadProviderElements(vault, supported, EmptyStore, ps);
    assert [] + ReloadAll(vault, ps) == ReloadAll(vault, ps);
  }

  /** getState followed by loadState into an empty service gives back every
      review state without its empty paths (unchanged when it has none) and
      every provider as it reloads (token from the password safe), and no
      attribute is missing on the way. */
  lemma StoreRoundTrip(vault: Vault, supported: seq<ProviderInfo>, store: Store)
    requires ProvidersReloadable(supported, store.providers)
    requires ReviewsReloadable(store.reviews)
    ensures LoadState(vault, supported, EmptyStore, GetState(store))
         == Loaded(Store(ReloadAll(vault, store.providers), RereadAll(store.reviews)), false)
  {
    var pe := ProviderElements(Values(store.providers));
    var re := ReviewElements(Values(store.reviews));
    var mid := Store(ReloadAll(vault, store.providers), []);
    assert GetState(store).children == pe + re;
    LoadProvidersIntoEmpty(vault, supported, store.providers);
    LoadReviewElements(vault, supported, mid, store.reviews);
    assert [] + RereadAll(store.reviews) == RereadAll(store.reviews);
    LoadItemsAppend(vault, supported, EmptyStore, pe, re);
  }
}

=== FILE: review_context.dfy ===
/**
  The per-merge-request review context: the lists the plugin fetched
  (commits, comments, changes), the two derived path indices, the set of
  changes with an open diff tab, and a per-change key/value store (the
  "viewed revision" bookkeeping) that is exported to and imported from a
  persisted review state.
 */
module ReviewContexts {
  import opened Basics
  import opened OrderedMaps
  import opened Domain
  import opened PathIndex

  /** The host functions the context consults. */
  datatype Host = Host(
    // RepositoryUtil.findAbsoluteCrossPlatformsPath(repository, path)
    absolutePath: string -> string,
    // RepositoryUtil.transformToCrossPlatformsPath(path)
    crossPlatformPath: string -> string,
    // ChangesUtil.getPathsCaseSensitive(change), as path strings
    pathsOf: Change -> seq<string>)

  /** An IntelliJ `Key`. Keys are equal only when they are the same object, so
      two keys with one name differ; `generation` tells such keys apart. The
      keys the plugin declares once (`Key.create`) have generation 0. */
  datatype DataKey = DataKey(name: string, generation: nat)

  /** `ReviewContext.HAS_VIEWED`. */
  const HasViewed: DataKey := DataKey("hasViewed", 0)

  /** A `UserDataHolderBase`, keys in insertion order. */
  type Holder = Assoc<DataKey, string>

  datatype ReviewContext = ReviewContext(
    providerId: string,
    mergeRequestId: string,
    hasRepository: bool,
    diffReference: Option<DiffReference>,
    commits: seq<Commit>,
    comments: seq<Comment>,
    changes: seq<Change>,
    reviewingCommits: seq<Commit>,
    reviewingChanges: seq<Change>,
    commentsByPath: Index<Comment>,
    changesByPath: Index<Change>,
    openedDiffs: set<Change>,
    changeData: Assoc<Change, Holder>,
    keysMinted: nat)

  /** A freshly constructed context: every list and map empty. */
  function NewContext(providerId: string, mergeRequestId: string, hasRepository: bool): ReviewContext {
    ReviewContext(providerId, mergeRequestId, hasRepository, None, [], [], [], [], [],
                  map[], map[], {}, [], 0)
  }

  /** The paths a comment is filed under: its new path, then its old path,
      each normalised; a comment without a position is filed nowhere. */
  function CommentPaths(c: Comment, absolutePath: string -> string): seq<string> {
    match c.position
    case None => []
    case Some(pos) =>
      (if pos.newPath.Some? then [absolutePath(pos.newPath.value)] else [])
      + (if pos.oldPath.Some? then [absolutePath(pos.oldPath.value)] else [])
  }

  function CommentKeys(host: Host): Comment -> seq<string> {
    c => CommentPaths(c, host.absolutePath)
  }

  /** The comment has a position and one of its paths normalises to `p`. */
  predicate FiledUnder(c: Comment, absolutePath: string -> string, p: string) {
    && c.position.Some?
    && ((c.position.value.newPath.Some? && absolutePath(c.position.value.newPath.value) == p)
        || (c.position.value.oldPath.Some? && absolutePath(c.position.value.oldPath.value) == p))
  }

  lemma CommentPathsMeaning(c: Comment, host: Host, p: string)
    ensures p in CommentKeys(host)(c) <==> FiledUnder(c, host.absolutePath, p)
  {
  }

  /** The invariant every reachable context keeps: both indices are what the
      setters last built, and the change-data store has no repeated change. */
  predicate Wf(ctx: ReviewContext, host: Host) {
    && ctx.changesByPath == BuildIndex(ctx.changes, host.pathsOf)
    && ctx.commentsByPath == (if ctx.hasRepository then BuildIndex(ctx.comments, CommentKeys(host)) else map[])
    && DistinctKeys(ctx.changeData)
  }

  lemma NewContextWf(providerId: string, mergeRequestId: string, hasRepository: bool, host: Host)
    ensures Wf(NewContext(providerId, mergeRequestId, hasRepository), host)
  {
  }

  // ---------------------------------------------------------------------
  // comments / changes setters and their indices
  // ---------------------------------------------------------------------

  /** `comments = value`: stores the list and, when the context has a
      repository, rebuilds path -> comments from it. */
  function SetComments(ctx: ReviewContext, host: Host, comments: seq<Comment>): (r: ReviewContext)
    ensures r.comments == comments
    ensures r == ctx.(comments := comments, commentsByPath := r.commentsByPath)
    ensures !ctx.hasRepository ==> r.commentsByPath == ctx.commentsByPath
    ensures Wf(ctx, host) ==> Wf(r, host)
  {
    if ctx.hasRepository then ctx.(comments := comments, commentsByPath := BuildIndex(comments, CommentKeys(host)))
    else ctx.(comments := comments)
  }

  /** `changes = value`: stores the list and rebuilds path -> changes. */
  function SetChanges(ctx: ReviewContext, host: Host, changes: seq<Change>): (r: ReviewContext)
    ensures r.changes == changes
    ensures r == ctx.(changes := changes, changesByPath := r.changesByPath)
    ensures Wf(ctx, host) ==> Wf(r, host)
  {
    ctx.(changes := changes, changesByPath := BuildIndex(changes, host.pathsOf))
  }

  /** In a well-formed context a path lists exactly the comments filed under
      it, once each; without a repository nothing is listed. */
  lemma CommentsByPathContents(ctx: ReviewContext, host: Host)
    requires Wf(ctx, host)
    ensures !ctx.hasRepository ==> forall p :: Lookup(ctx.commentsByPath, p) == []
    ensures ctx.hasRepository ==> forall p, c :: c in Lookup(ctx.commentsByPath, p) <==>
      c in ctx.comments && FiledUnder(c, host.absolutePath, p)
    ensures forall p :: NoDuplicates(Lookup(ctx.commentsByPath, p))
  {
    if ctx.hasRepository {
      BuildIndexSpec(ctx.comments, CommentKeys(host), ctx.commentsByPath);
      forall p, c ensures c in Lookup(ctx.commentsByPath, p) <==> c in ctx.comments && FiledUnder(c, host.absolutePath, p) {
        CommentPathsMeaning(c, host, p);
      }
    }
  }

  /** In a well-formed context a path lists exactly the changes having it, once each. */
  lemma ChangesByPathContents(ctx: ReviewContext, host: Host)
    requires Wf(ctx, host)
    ensures forall p, c :: c in Lookup(ctx.changesByPath, p) <==> c in ctx.changes && p in host.pathsOf(c)
    ensures forall p :: NoDuplicates(Lookup(ctx.changesByPath, p))
  {
    BuildIndexSpec(ctx.changes, host.pathsOf, ctx.changesByPath);
  }

  /** `getCommentsByPath`: the comments filed under the cross-platform form of
      `path`, or the empty list. */
  function GetCommentsByPath(ctx: ReviewContext, host: Host, path: string): (r: seq<Comment>)
    requires Wf(ctx, host)
    ensures !ctx.hasRepository ==> r == []
    ensures ctx.hasRepository ==> forall c :: c in r <==>
      c in ctx.comments && FiledUnder(c, host.absolutePath, host.crossPlatformPath(path))
    ensures NoDuplicates(r)
  {
    CommentsByPathContents(ctx, host);
    Lookup(ctx.commentsByPath, host.crossPlatformPath(path))
  }

  /** `findChangeByPath`: the first change, in list order, that has the
      normalised path among its paths, or null when none has it. */
  function FindChangeByPath(ctx: ReviewContext, host: Host, path: string): (r: Option<Change>)
    requires Wf(ctx, host)
    ensures var i := FirstWith(ctx.changes, host.pathsOf, host.absolutePath(path));
      && (r.None? <==> i == |ctx.changes|)
      && (r.Some? ==> i < |ctx.changes| && r.value == ctx.changes[i])
  {
    var p := host.absolutePath(path);
    BuildIndexSpec(ctx.changes, host.pathsOf, ctx.changesByPath);
    if p in ctx.changesByPath then Some(ctx.changesByPath[p][0]) else None
  }

  // ---------------------------------------------------------------------
  // per-change data and open diffs
  // ---------------------------------------------------------------------

  /** The per-change user data of a context. */
  type ChangeStore = Assoc<Change, Holder>

  /** The value stored for `key` on `change`, if the change has a holder. */
  function Read(store: ChangeStore, change: Change, key: DataKey): Option<string> {
    var holder := Get(store, change);
    if holder.Some? then Get(holder.value, key) else None
  }

  /** `putUserData(key, value)` on one holder; null removes the key. */
  function PutHolder(holder: Holder, key: DataKey, value: Option<string>): (r: Holder)
    ensures Get(r, key) == value
    ensures forall k :: k != key ==> Get(r, k) == Get(holder, k)
  {
    match value
    case Some(v) => Put(holder, key, v)
    case None => Remove(holder, key)
  }

  /** Stores `value` for `key` on `change`, creating the change's holder on
      first use; every other (change, key) keeps its value. */
  function Write(store: ChangeStore, change: Change, key: DataKey, value: Option<string>): (r: ChangeStore)
    ensures Read(r, change, key) == value
    ensures forall c, k: DataKey :: (c != change || k != key) ==> Read(r, c, k) == Read(store, c, k)
    ensures DistinctKeys(store) ==> DistinctKeys(r)
  {
    var updated := PutHolder(Get(store, change).GetOr([]), key, value);
    var r := Put(store, change, updated);
    assert forall c, k: DataKey :: (c != change || k != key) ==> Read(r, c, k) == Read(store, c, k) by {
      forall c, k: DataKey | c != change || k != key
        ensures Read(r, c, k) == Read(store, c, k)
      {
        if c != change {
          assert Get(r, c) == Get(store, c);
        } else {
          assert Get(r, c) == Some(updated);
        }
      }
    }
    r
  }

  /** `getChangeData(change, key)`. */
  function GetChangeData(ctx: ReviewContext, change: Change, key: DataKey): Option<string> {
    Read(ctx.changeData, change, key)
  }

  /** `putChangeData(change, key, value)`. */
  function PutChangeData(ctx: ReviewContext, change: Change, key: DataKey, value: Option<string>): (r: ReviewContext)
    ensures GetChangeData(r, change, key) == value
    ensures forall c, k: DataKey :: (c != change || k != key) ==> GetChangeData(r, c, k) == GetChangeData(ctx, c, k)
    ensures r == ctx.(changeData := r.changeData)
    ensures DistinctKeys(ctx.changeData) ==> DistinctKeys(r.changeData)
  {
    ctx.(changeData := Write(ctx.changeData, change, key, value))
  }

  predicate HasAnyChangeOpened(ctx: ReviewContext) {
    ctx.openedDiffs != {}
  }

  /** `openChange`: registers the change's diff tab (one per change) and
      records its after-revision number under HAS_VIEWED. */
  function OpenChange(ctx: ReviewContext, change: Change): (r: ReviewContext)
    ensures HasAnyChangeOpened(r) && r.openedDiffs == ctx.openedDiffs + {change}
    ensures GetChangeData(r, change, HasViewed) == AfterRevisionNumber(change)
    ensures forall c, k :: (c != change || k != HasViewed) ==> GetChangeData(r, c, k) == GetChangeData(ctx, c, k)
    ensures r == ctx.(openedDiffs := r.openedDiffs, changeData := r.changeData)
    ensures DistinctKeys(ctx.changeData) ==> DistinctKeys(r.changeData)
  {
    PutChangeData(ctx.(openedDiffs := ctx.openedDiffs + {change}), change, HasViewed, AfterRevisionNumber(change))
  }

  /** `closeAllChanges`: forgets every diff tab; the viewed data stays. */
  function CloseAllChanges(ctx: ReviewContext): (r: ReviewContext)
    ensures !HasAnyChangeOpened(r)
    ensures r == ctx.(openedDiffs := r.openedDiffs)
  {
    ctx.(openedDiffs := {})
  }

  lemma OpenThenCloseKeepsViewed(ctx: ReviewContext, change: Change)
    ensures var r := CloseAllChanges(OpenChange(ctx, change));
      !HasAnyChangeOpened(r) && GetChangeData(r, change, HasViewed) == AfterRevisionNumber(change)
  {
  }

  // ---------------------------------------------------------------------
  // export to a review state
  // ---------------------------------------------------------------------

  /** Reference: the value a name ends up with when a holder is copied entry
      by entry into a string map (a later key with the same name wins). */
  function LastNamed(h: Holder, name: string): Option<string> {
    if h == [] then None
    else if h[|h| - 1].0.name == name then Some(h[|h| - 1].1)
    else LastNamed(h[..|h| - 1], name)
  }

  /** `d[k.toString()] = m.getUserData(k).toString()` for every key of a holder. */
  function NamedValues(h: Holder): (d: Assoc<string, string>)
    ensures DistinctKeys(d)
    ensures forall n :: Get(d, n) == LastNamed(h, n)
  {
    if h == [] then []
    else
      var last := h[|h| - 1];
      Put(NamedValues(h[..|h| - 1]), last.0.name, last.1)
  }

  /** Reference: the holder whose strings a path receives — that of the last
      change, in store order, having the path. */
  function LastHolderFor(entries: Assoc<Change, Holder>, pathsOf: Change -> seq<string>, p: string): Option<Holder> {
    if entries == [] then None
    else if p in pathsOf(entries[|entries| - 1].0) then Some(entries[|entries| - 1].1)
    else LastHolderFor(entries[..|entries| - 1], pathsOf, p)
  }

  function PutUnderEach(data: Assoc<string, Assoc<string, string>>, paths: seq<string>, d: Assoc<string, string>)
    : (r: Assoc<string, Assoc<string, string>>)
    ensures forall p :: Get(r, p) == if p in paths then Some(d) else Get(data, p)
    ensures DistinctKeys(data) ==> DistinctKeys(r)
    decreases |paths|
  {
    if paths == [] then data else PutUnderEach(Put(data, paths[0], d), paths[1..], d)
  }

  function ReviewData(entries: Assoc<Change, Holder>, pathsOf: Change -> seq<string>)
    : (r: Assoc<string, Assoc<string, string>>)
    ensures DistinctKeys(r)
    ensures forall p :: Get(r, p) == match LastHolderFor(entries, pathsOf, p)
      case None => None
      case Some(h) => Some(NamedValues(h))
  {
    if entries == [] then []
    else
      var last := entries[|entries| - 1];
      PutUnderEach(ReviewData(entries[..|entries| - 1], pathsOf), pathsOf(last.0), NamedValues(last.1))
  }

  /** `getReviewState(id)`: every path of every change with data maps to that
      change's data, keyed by key name. */
  function GetReviewState(ctx: ReviewContext, host: Host, id: string): (s: ReviewState)
    ensures s.id == id
    ensures DistinctKeys(s.data)
    ensures forall p :: Get(s.data, p) == match LastHolderFor(ctx.changeData, host.pathsOf, p)
      case None => None
      case Some(h) => Some(NamedValues(h))
  {
    ReviewState(id, ReviewData(ctx.changeData, host.pathsOf))
  }

  /** What getReviewState exports has no path twice and no key twice under a
      path. */
  lemma GetReviewStateKeyed(ctx: ReviewContext, host: Host, id: string)
    ensures KeyedData(GetReviewState(ctx, host, id).data)
  {
    var data := GetReviewState(ctx, host, id).data;
    forall i | 0 <= i < |data| ensures DistinctKeys(data[i].1) {
      GetEntry(data, i);
    }
  }

  /** A path may still export an empty map. Opening a change that has no
      after-revision stores null under HAS_VIEWED, which leaves the change an
      empty holder, and each of its paths then exports `{}`. */
  lemma OpenedWithoutRevisionExportsEmpty(providerId: string, mergeRequestId: string, hasRepository: bool,
                                          change: Change, host: Host, id: string, p: string)
    requires AfterRevisionNumber(change).None?
    requires p in host.pathsOf(change)
    ensures Get(GetReviewState(OpenChange(NewContext(providerId, mergeRequestId, hasRepository), change), host, id).data, p)
         == Some([])
  {
    var ctx := OpenChange(NewContext(providerId, mergeRequestId, hasRepository), change);
    assert ctx.changeData == [(change, [])];
    assert LastHolderFor(ctx.changeData, host.pathsOf, p) == Some([]);
  }

  // ---------------------------------------------------------------------
  // import from a review state
  // ---------------------------------------------------------------------

  /** Reference: the last value bound to `k` in an association list. */
  function LastValue(d: Assoc<string, string>, k: string): Option<string> {
    if d == [] then None
    else if d[|d| - 1].0 == k then Some(d[|d| - 1].1)
    else LastValue(d[..|d| - 1], k)
  }

  /** Stores every (name, value) of `d` on `change` under the key the plugin
      declares with that name, so that a restored "hasViewed" is read back
      through HAS_VIEWED. */
  function RestoreValues(store: ChangeStore, change: Change, d: Assoc<string, string>): (r: ChangeStore)
    ensures DistinctKeys(store) ==> DistinctKeys(r)
    ensures forall k :: Read(r, change, DataKey(k, 0)) ==
                        (if LastValue(d, k).Some? then LastValue(d, k) else Read(store, change, DataKey(k, 0)))
    ensures forall c, key: DataKey :: (c != change || key.generation != 0 || LastValue(d, key.name).None?) ==>
      Read(r, c, key) == Read(store, c, key)
  {
    if d == [] then store
    else
      var last := d[|d| - 1];
      Write(RestoreValues(store, change, d[..|d| - 1]), change, DataKey(last.0, 0), Some(last.1))
  }

  /** The same loop as the code writes it: every value goes under a new
      `Key(name)`, numbered after the `minted` keys made before. */
  function RestoreValuesAsWritten(store: ChangeStore, minted: nat, change: Change, d: Assoc<string, string>)
    : (r: ChangeStore)
    ensures DistinctKeys(store) ==> DistinctKeys(r)
    ensures forall c, key: DataKey :: key.generation <= minted ==> Read(r, c, key) == Read(store, c, key)
  {
    if d == [] then store
    else
      var last := d[|d| - 1];
      Write(RestoreValuesAsWritten(store, minted, change, d[..|d| - 1]), change, DataKey(last.0, minted + |d|), Some(last.1))
  }

  /** The values are not lost: the i-th one sits under the i-th new key. */
  lemma {:induction false} RestoreValuesAsWrittenKeys(store: ChangeStore, minted: nat, change: Change,
                                                      d: Assoc<string, string>, i: nat)
    requires i < |d|
    ensures Read(RestoreValuesAsWritten(store, minted, change, d), change, DataKey(d[i].0, minted + 1 + i)) == Some(d[i].1)
  {
    var last := d[|d| - 1];
    var prev := RestoreValuesAsWritten(store, minted, change, d[..|d| - 1]);
    var newKey := DataKey(last.0, minted + |d|);
    var r := RestoreValuesAsWritten(store, minted, change, d);
    assert r == Write(prev, change, newKey, Some(last.1));
    if i < |d| - 1 {
      var key := DataKey(d[i].0, minted + 1 + i);
      RestoreValuesAsWrittenKeys(store, minted, change, d[..|d| - 1], i);
      assert d[..|d| - 1][i] == d[i];
      assert key != newKey;
      assert Read(r, change, key) == Read(prev, change, key);
    } else {
      assert DataKey(d[i].0, minted + 1 + i) == newKey;
      assert Read(r, change, newKey) == Some(last.1);
    }
  }

  /** Reference: the value the state restores for key name `k` on change `c`
      — from the last path entry that resolves to `c` and binds `k`. */
  function Restored(ctx: ReviewContext, host: Host, data: Assoc<string, Assoc<string, string>>, c: Change, k: string)
    : Option<string>
    requires Wf(ctx, host)
  {
    if data == [] then None
    else
      var last := data[|data| - 1];
      if FindChangeByPath(ctx, host, last.0) == Some(c) && LastValue(last.1, k).Some? then LastValue(last.1, k)
      else Restored(ctx, host, data[..|data| - 1], c, k)
  }

  /** Restores every entry of `data` whose path resolves to a change of `ctx`. */
  function RestoreAll(ctx: ReviewContext, host: Host, store: ChangeStore, data: Assoc<string, Assoc<string, string>>)
    : (r: ChangeStore)
    requires Wf(ctx, host)
    ensures DistinctKeys(store) ==> DistinctKeys(r)
    ensures forall c, k :: Read(r, c, DataKey(k, 0)) ==
                           (if Restored(ctx, host, data, c, k).Some? then Restored(ctx, host, data, c, k)
                            else Read(store, c, DataKey(k, 0)))
    ensures forall c, key: DataKey :: key.generation != 0 ==> Read(r, c, key) == Read(store, c, key)
  {
    if data == [] then store
    else
      var last := data[|data| - 1];
      var prev := RestoreAll(ctx, host, store, data[..|data| - 1]);
      match FindChangeByPath(ctx, host, last.0)
      case None => prev
      case Some(c) => RestoreValues(prev, c, last.1)
  }

  /** As RestoreAll, with the keys minted as the code writes it; yields the
      store and the number of keys minted so far. */
  function RestoreAllAsWritten(ctx: ReviewContext, host: Host, store: ChangeStore, minted: nat,
                               data: Assoc<string, Assoc<string, string>>)
    : (r: (ChangeStore, nat))
    requires Wf(ctx, host)
    ensures r.1 >= minted
    ensures DistinctKeys(store) ==> DistinctKeys(r.0)
    ensures forall c, key: DataKey :: key.generation <= minted ==> Read(r.0, c, key) == Read(store, c, key)
  {
    if data == [] then (store, minted)
    else
      var last := data[|data| - 1];
      var prev := RestoreAllAsWritten(ctx, host, store, minted, data[..|data| - 1]);
      match FindChangeByPath(ctx, host, last.0)
      case None => prev
      case Some(c) => (RestoreValuesAsWritten(prev.0, prev.1, c, last.1), prev.1 + |last.1|)
  }

  /** `setReviewState`, corrected: each path of the state is resolved to a
      change and its values are stored under the declared keys. */
  function SetReviewState(ctx: ReviewContext, host: Host, data: Assoc<string, Assoc<string, string>>): (r: ReviewContext)
    requires Wf(ctx, host)
    ensures Wf(r, host)
    ensures r == ctx.(changeData := r.changeData)
    ensures forall c, k :: GetChangeData(r, c, DataKey(k, 0)) ==
                           (if Restored(ctx, host, data, c, k).Some? then Restored(ctx, host, data, c, k)
                            else GetChangeData(ctx, c, DataKey(k, 0)))
    ensures forall c, key: DataKey :: key.generation != 0 ==> GetChangeData(r, c, key) == GetChangeData(ctx, c, key)
  {
    ctx.(changeData := RestoreAll(ctx, host, ctx.changeData, data))
  }

  /** `setReviewState` as written (with `Key(k)` for every value): no key the
      plugin already holds, HAS_VIEWED included, sees a restored value. */
  function SetReviewStateAsWritten(ctx: ReviewContext, host: Host, data: Assoc<string, Assoc<string, string>>)
    : (r: ReviewContext)
    requires Wf(ctx, host)
    ensures Wf(r, host)
    ensures r == ctx.(changeData := r.changeData, keysMinted := r.keysMinted)
    ensures r.keysMinted >= ctx.keysMinted
    ensures forall c, key: DataKey :: key.generation <= ctx.keysMinted ==> GetChangeData(r, c, key) == GetChangeData(ctx, c, key)
  {
    var restored := RestoreAllAsWritten(ctx, host, ctx.changeData, ctx.keysMinted, data);
    ctx.(changeData := restored.0, keysMinted := restored.1)
  }

  /** The restored "viewed" revision of a change that was never opened: the
      code as written leaves HAS_VIEWED empty, the corrected restore sets it. */
  lemma RestoredViewedRevision(ctx: ReviewContext, host: Host, path: string, c: Change, revision: string)
    requires Wf(ctx, host)
    requires FindChangeByPath(ctx, host, path) == Some(c)
    requires GetChangeData(ctx, c, HasViewed) == None
    ensures var data := [(path, [("hasViewed", revision)])];
      && GetChangeData(SetReviewStateAsWritten(ctx, host, data), c, HasViewed) == None
      && GetChangeData(SetReviewState(ctx, host, data), c, HasViewed) == Some(revision)
  {
    var data := [(path, [("hasViewed", revision)])];
    assert data[..0] == [];
    assert LastValue([("hasViewed", revision)], "hasViewed") == Some(revision);
  }
}

=== FILE: review_context_manager.dfy ===
/**
  The project-wide registry of review contexts, keyed by
  "<provider id>:<merge request id>", with the selected context, the context
  being code-reviewed, and the periodic sweep that drops inactive contexts.
 */
module ReviewContextManagers {
  import opened Basics
  import opened Domain
  import opened ReviewContexts

  datatype Registry = Registry(
    contexts: map<string, ReviewContext>,
    selected: Option<string>,
    reviewing: Option<string>)

  const EmptyRegistry: Registry := Registry(map[], None, None)

  /** Every registered context is well formed. */
  predicate RegistryWf(reg: Registry, host: Host) {
    forall k :: k in reg.contexts ==> Wf(reg.contexts[k], host)
  }

  function KeyOf(providerId: string, mergeRequestId: string): string {
    providerId + ":" + mergeRequestId
  }

  /** Position of the first ':' of `s` (|s| when there is none). */
  function FirstColon(s: string): (i: nat)
    ensures i <= |s|
    ensures forall j :: 0 <= j < i ==> s[j] != ':'
    ensures i < |s| ==> s[i] == ':'
  {
    if s == [] || s[0] == ':' then 0 else 1 + FirstColon(s[1..])
  }

  lemma {:induction false} FirstColonOfKey(p: string, m: string)
    requires ':' !in p
    ensures FirstColon(KeyOf(p, m)) == |p|
  {
    if p != [] {
      assert KeyOf(p, m)[1..] == KeyOf(p[1..], m);
      FirstColonOfKey(p[1..], m);
    }
  }

  /** Keys identify (provider, merge request) pairs as long as provider ids
      contain no ':' (merge request ids may). */
  lemma KeyOfInjective(p1: string, m1: string, p2: string, m2: string)
    requires ':' !in p1 && ':' !in p2
    ensures KeyOf(p1, m1) == KeyOf(p2, m2) <==> p1 == p2 && m1 == m2
  {
    var k1, k2 := KeyOf(p1, m1), KeyOf(p2, m2);
    if k1 == k2 {
      FirstColonOfKey(p1, m1);
      FirstColonOfKey(p2, m2);
      assert p1 == k1[..|p1|] == k2[..|p2|] == p2;
      assert m1 == k1[|p1| + 1..] == k2[|p2| + 1..] == m2;
    }
  }

  /** With a ':' in a provider id, two different pairs share a key. */
  lemma KeyOfCollision()
    ensures KeyOf("a:b", "c") == KeyOf("a", "b:c")
  {
  }

  /** `initContext`: registers a new context under the key unless one is
      there already, and optionally selects it. */
  function InitContext(reg: Registry, providerId: string, mergeRequestId: string, hasRepository: bool, selected: bool)
    : (r: Registry)
    ensures KeyOf(providerId, mergeRequestId) in r.contexts
    ensures r.contexts.Keys == reg.contexts.Keys + {KeyOf(providerId, mergeRequestId)}
    ensures forall k :: k in reg.contexts ==> r.contexts[k] == reg.contexts[k]
    ensures KeyOf(providerId, mergeRequestId) !in reg.contexts ==>
      r.contexts[KeyOf(providerId, mergeRequestId)] == NewContext(providerId, mergeRequestId, hasRepository)
    ensures r.selected == if selected then Some(KeyOf(providerId, mergeRequestId)) else reg.selected
    ensures r.reviewing == reg.reviewing
  {
    var key := KeyOf(providerId, mergeRequestId);
    var contexts := if key in reg.contexts then reg.contexts
                    else reg.contexts[key := NewContext(providerId, mergeRequestId, hasRepository)];
    reg.(contexts := contexts, selected := if selected then Some(key) else reg.selected)
  }

  lemma InitContextWf(reg: Registry, host: Host, providerId: string, mergeRequestId: string, hasRepository: bool, selected: bool)
    requires RegistryWf(reg, host)
    ensures RegistryWf(InitContext(reg, providerId, mergeRequestId, hasRepository, selected), host)
  {
    NewContextWf(providerId, mergeRequestId, hasRepository, host);
  }

  /** Initialising twice is initialising once: an existing context is kept. */
  lemma InitContextIdempotent(reg: Registry, providerId: string, mergeRequestId: string, hasRepository: bool, selected: bool)
    ensures var once := InitContext(reg, providerId, mergeRequestId, hasRepository, selected);
      InitContext(once, providerId, mergeRequestId, hasRepository, selected) == once
  {
  }

  predicate IsDoingCodeReview(reg: Registry, providerId: string, mergeRequestId: string) {
    reg.reviewing == Some(KeyOf(providerId, mergeRequestId))
  }

  /** The context the key names, if the key is set and still registered. */
  function ContextAt(reg: Registry, key: Option<string>): Option<ReviewContext> {
    if key.Some? && key.value in reg.contexts then Some(reg.contexts[key.value]) else None
  }

  function FindSelectedContext(reg: Registry): Option<ReviewContext> {
    ContextAt(reg, reg.selected)
  }

  function FindDoingCodeReviewContext(reg: Registry): Option<ReviewContext> {
    ContextAt(reg, reg.reviewing)
  }

  function FindContext(reg: Registry, providerId: string, mergeRequestId: string): Option<ReviewContext> {
    ContextAt(reg, Some(KeyOf(providerId, mergeRequestId)))
  }

  function SetSelected(reg: Registry, providerId: string, mergeRequestId: string): (r: Registry)
    ensures r.contexts == reg.contexts && r.reviewing == reg.reviewing
    ensures FindSelectedContext(r) == FindContext(reg, providerId, mergeRequestId)
  {
    reg.(selected := Some(KeyOf(providerId, mergeRequestId)))
  }

  function ClearContextDoingCodeReview(reg: Registry): (r: Registry)
    ensures r.contexts == reg.contexts && r.selected == reg.selected
    ensures FindDoingCodeReviewContext(r) == None
    ensures forall p, m :: !IsDoingCodeReview(r, p, m)
  {
    reg.(reviewing := None)
  }

  function SetContextToDoingCodeReview(reg: Registry, providerId: string, mergeRequestId: string): (r: Registry)
    ensures r.contexts == reg.contexts && r.selected == reg.selected
    ensures IsDoingCodeReview(r, providerId, mergeRequestId)
    ensures FindDoingCodeReviewContext(r) == FindContext(reg, providerId, mergeRequestId)
  {
    reg.(reviewing := Some(KeyOf(providerId, mergeRequestId)))
  }

  /** After `initContext` the pair's context can always be found, a new one
      being the fresh context; when it was initialised as selected, it is
      also the selected context; and nothing is under review that was not
      before. */
  lemma InitThenFind(reg: Registry, providerId: string, mergeRequestId: string, hasRepository: bool, selected: bool)
    ensures var r := InitContext(reg, providerId, mergeRequestId, hasRepository, selected);
      && FindContext(r, providerId, mergeRequestId).Some?
      && (KeyOf(providerId, mergeRequestId) !in reg.contexts ==>
            FindContext(r, providerId, mergeRequestId) == Some(NewContext(providerId, mergeRequestId, hasRepository)))
      && (selected ==> FindSelectedContext(r) == FindContext(r, providerId, mergeRequestId))
      && (reg.reviewing.Some? && reg.reviewing.value in reg.contexts ==>
            FindDoingCodeReviewContext(r) == FindDoingCodeReviewContext(reg))
  {
  }

  /** Once a merge request is marked as under review, it is the only one
      reported as under review (provider ids without ':'). */
  lemma DoingCodeReviewIsExclusive(reg: Registry, p: string, m: string, q: string, n: string)
    requires ':' !in p && ':' !in q
    ensures IsDoingCodeReview(SetContextToDoingCodeReview(reg, p, m), q, n) <==> p == q && m == n
  {
    KeyOfInjective(p, m, q, n);
  }

  // ---------------------------------------------------------------------
  // draft comments
  // ---------------------------------------------------------------------

  /** `comments.filter { it.isDraft }.count()`. */
  function DraftCount(comments: seq<Comment>): (n: nat)
    ensures n <= |comments|
    ensures n == 0 <==> forall i :: 0 <= i < |comments| ==> !comments[i].isDraft
    ensures n == |comments| <==> forall i :: 0 <= i < |comments| ==> comments[i].isDraft
  {
    if comments == [] then 0
    else
      var rest := DraftCount(comments[1..]);
      assert forall i :: 1 <= i < |comments| ==> comments[i] == comments[1..][i - 1];
      (if comments[0].isDraft then 1 else 0) + rest
  }

  lemma {:induction false} DraftCountAppend(a: seq<Comment>, b: seq<Comment>)
    ensures DraftCount(a + b) == DraftCount(a) + DraftCount(b)
  {
    if a != [] {
      assert (a + b)[1..] == a[1..] + b;
      DraftCountAppend(a[1..], b);
    } else {
      assert a + b == b;
    }
  }

  /** `getDraftCommentsCount`: 0 for an unknown merge request. */
  function GetDraftCommentsCount(reg: Registry, providerId: string, mergeRequestId: string): (n: nat)
    ensures FindContext(reg, providerId, mergeRequestId).None? ==> n == 0
    ensures FindContext(reg, providerId, mergeRequestId).Some? ==>
      n == DraftCount(FindContext(reg, providerId, mergeRequestId).value.comments)
  {
    var key := KeyOf(providerId, mergeRequestId);
    if key in reg.contexts then DraftCount(reg.contexts[key].comments) else 0
  }

  // ---------------------------------------------------------------------
  // updates pushed by the provider
  // ---------------------------------------------------------------------

  /** Applies `f` to the context under `key`, if there is one; nothing else changes. */
  function Modify(reg: Registry, key: string, f: ReviewContext -> ReviewContext): (r: Registry)
    ensures r.selected == reg.selected && r.reviewing == reg.reviewing
    ensures r.contexts.Keys == reg.contexts.Keys
    ensures forall k :: k in reg.contexts && k != key ==> r.contexts[k] == reg.contexts[k]
    ensures key in reg.contexts ==> r.contexts[key] == f(reg.contexts[key])
    ensures key !in reg.contexts ==> r == reg
  {
    if key in reg.contexts then reg.(contexts := reg.contexts[key := f(reg.contexts[key])]) else reg
  }

  function UpdateComments(reg: Registry, host: Host, providerId: string, mergeRequestId: string, comments: seq<Comment>)
    : (r: Registry)
    ensures var key := KeyOf(providerId, mergeRequestId);
      && r.selected == reg.selected && r.reviewing == reg.reviewing
      && r.contexts.Keys == reg.contexts.Keys
      && (forall k :: k in reg.contexts && k != key ==> r.contexts[k] == reg.contexts[k])
      && (key in reg.contexts ==> r.contexts[key] == SetComments(reg.contexts[key], host, comments))
    ensures RegistryWf(reg, host) ==> RegistryWf(r, host)
  {
    Modify(reg, KeyOf(providerId, mergeRequestId), ctx => SetComments(ctx, host, comments))
  }

  /** After comments are pushed, the draft count reflects them. */
  lemma DraftCountAfterUpdate(reg: Registry, host: Host, providerId: string, mergeRequestId: string, comments: seq<Comment>)
    requires FindContext(reg, providerId, mergeRequestId).Some?
    ensures GetDraftCommentsCount(UpdateComments(reg, host, providerId, mergeRequestId, comments), providerId, mergeRequestId)
      == DraftCount(comments)
  {
  }

  function UpdateCommits(reg: Registry, providerId: string, mergeRequestId: string, commits: seq<Commit>): (r: Registry)
    ensures var key := KeyOf(providerId, mergeRequestId);
      && r.selected == reg.selected && r.reviewing == reg.reviewing
      && r.contexts.Keys == reg.contexts.Keys
      && (forall k :: k in reg.contexts && k != key ==> r.contexts[k] == reg.contexts[k])
      && (key in reg.contexts ==> r.contexts[key] == reg.contexts[key].(commits := commits))
  {
    Modify(reg, KeyOf(providerId, mergeRequestId), (ctx: ReviewContext) => ctx.(commits := commits))
  }

  function UpdateChanges(reg: Registry, host: Host, providerId: string, mergeRequestId: string, changes: seq<Change>)
    : (r: Registry)
    ensures var key := KeyOf(providerId, mergeRequestId);
      && r.selected == reg.selected && r.reviewing == reg.reviewing
      && r.contexts.Keys == reg.contexts.Keys
      && (forall k :: k in reg.contexts && k != key ==> r.contexts[k] == reg.contexts[k])
      && (key in reg.contexts ==> r.contexts[key] == SetChanges(reg.contexts[key], host, changes))
    ensures RegistryWf(reg, host) ==> RegistryWf(r, host)
  {
    Modify(reg, KeyOf(providerId, mergeRequestId), ctx => SetChanges(ctx, host, changes))
  }

  function UpdateReviewingCommits(reg: Registry, providerId: string, mergeRequestId: string, commits: seq<Commit>)
    : (r: Registry)
    ensures var key := KeyOf(providerId, mergeRequestId);
      && r.selected == reg.selected && r.reviewing == reg.reviewing
      && r.contexts.Keys == reg.contexts.Keys
      && (forall k :: k in reg.contexts && k != key ==> r.contexts[k] == reg.contexts[k])
      && (key in reg.contexts ==> r.contexts[key] == reg.contexts[key].(reviewingCommits := commits))
  {
    Modify(reg, KeyOf(providerId, mergeRequestId), (ctx: ReviewContext) => ctx.(reviewingCommits := commits))
  }

  function UpdateReviewingChanges(reg: Registry, providerId: string, mergeRequestId: string, changes: seq<Change>)
    : (r: Registry)
    ensures var key := KeyOf(providerId, mergeRequestId);
      && r.selected == reg.selected && r.reviewing == reg.reviewing
      && r.contexts.Keys == reg.contexts.Keys
      && (forall k :: k in reg.contexts && k != key ==> r.contexts[k] == reg.contexts[k])
      && (key in reg.contexts ==> r.contexts[key] == reg.contexts[key].(reviewingChanges := changes))
  {
    Modify(reg, KeyOf(providerId, mergeRequestId), (ctx: ReviewContext) => ctx.(reviewingChanges := changes))
  }

  /** `updateMergeRequest`: only the diff reference is taken over. */
  function UpdateMergeRequest(reg: Registry, providerId: string, mergeRequest: MergeRequest): (r: Registry)
    ensures var key := KeyOf(providerId, mergeRequest.id);
      && r.selected == reg.selected && r.reviewing == reg.reviewing
      && r.contexts.Keys == reg.contexts.Keys
      && (forall k :: k in reg.contexts && k != key ==> r.contexts[k] == reg.contexts[k])
      && (key in reg.contexts ==> r.contexts[key] == reg.contexts[key].(diffReference := mergeRequest.diffReference))
  {
    Modify(reg, KeyOf(providerId, mergeRequest.id), (ctx: ReviewContext) => ctx.(diffReference := mergeRequest.diffReference))
  }

  // ---------------------------------------------------------------------
  // the sweep
  // ---------------------------------------------------------------------

  function CanExecute(reg: Registry): (b: bool)
    ensures b <==> exists k :: k in reg.contexts
  {
    assert forall k :: k in reg.contexts ==> reg.contexts != map[];
    reg.contexts != map[]
  }

  /** A context the sweep keeps: it is selected, under review, or has a diff open. */
  predicate Active(reg: Registry, key: string)
    requires key in reg.contexts
  {
    Some(key) == reg.selected || Some(key) == reg.reviewing || HasAnyChangeOpened(reg.contexts[key])
  }

  /** Reference: the registry with every inactive context dropped. */
  function Swept(reg: Registry): Registry {
    reg.(contexts := map k | k in reg.contexts && Active(reg, k) :: reg.contexts[k])
  }

  /** `execute`: removes every inactive context and reports the removed keys. */
  method Execute(reg: Registry) returns (r: Registry, removed: set<string>)
    ensures removed == set k | k in reg.contexts && !Active(reg, k)
    ensures r.contexts.Keys == reg.contexts.Keys - removed
    ensures forall k :: k in r.contexts ==> r.contexts[k] == reg.contexts[k]
    ensures r.selected == reg.selected && r.reviewing == reg.reviewing
    ensures r == Swept(reg)
  {
    removed := set k | k in reg.contexts && !Active(reg, k);
    var contexts := reg.contexts;
    var pending := removed;
    while pending != {}
      invariant pending <= removed
      invariant contexts.Keys == reg.contexts.Keys - (removed - pending)
      invariant forall k :: k in contexts ==> contexts[k] == reg.contexts[k]
      decreases pending
    {
      var k :| k in pending;
      contexts := map j | j in contexts && j != k :: contexts[j];
      pending := pending - {k};
    }
    r := reg.(contexts := contexts);
  }

  /** The selected context, the reviewed context and any context with an
      open diff survive the sweep, unchanged. */
  lemma SweepKeepsActive(reg: Registry, key: string)
    requires key in reg.contexts
    requires Some(key) == reg.selected || Some(key) == reg.reviewing || HasAnyChangeOpened(reg.contexts[key])
    ensures key in Swept(reg).contexts && Swept(reg).contexts[key] == reg.contexts[key]
  {
  }

  /** A second sweep right after the first removes nothing. */
  lemma SweepIdempotent(reg: Registry)
    ensures Swept(Swept(reg)) == Swept(reg)
  {
    var once := Swept(reg);
    assert forall k :: k in once.contexts ==> Active(once, k);
  }

  lemma SweptWf(reg: Registry, host: Host)
    requires RegistryWf(reg, host)
    ensures RegistryWf(Swept(reg), host)
  {
  }
}

=== FILE: text.dfy ===
/**
  The Kotlin string operations the core relies on: `trim`, `isBlank`,
  `toLowerCase` (as far as comparing with "true" needs it), `Int.toString`
  and `String.toIntOrNull`.
 */
module Text {
  import opened Basics

  /** Kotlin `Char.isWhitespace()`: Java's `Character.isWhitespace` or
      `Character.isSpaceChar`, i.e. the ASCII controls TAB..CR and FS..US plus
      every space, line and paragraph separator of Unicode. */
  predicate IsWhitespace(c: char) {
    var n := c as int;
    (0x09 <= n <= 0x0D) || (0x1C <= n <= 0x20) || n == 0xA0 || n == 0x1680
    || (0x2000 <= n <= 0x200A) || n == 0x2028 || n == 0x2029 || n == 0x202F
    || n == 0x205F || n == 0x3000
  }

  /** Kotlin `isBlank()`: every character is whitespace. */
  predicate IsBlank(s: string) {
    forall i :: 0 <= i < |s| ==> IsWhitespace(s[i])
  }

  /** Number of leading whitespace characters. */
  function LeadingWhitespace(s: string): (n: nat)
    ensures n <= |s|
    ensures forall i :: 0 <= i < n ==> IsWhitespace(s[i])
    ensures n < |s| ==> !IsWhitespace(s[n])
  {
    if s == [] || !IsWhitespace(s[0]) then 0 else 1 + LeadingWhitespace(s[1..])
  }

  /** Length of `s` once its trailing whitespace is dropped. */
  function TrailingCut(s: string): (n: nat)
    ensures n <= |s|
    ensures forall i :: n <= i < |s| ==> IsWhitespace(s[i])
    ensures n > 0 ==> !IsWhitespace(s[n - 1])
  {
    if s == [] || !IsWhitespace(s[|s| - 1]) then |s| else TrailingCut(s[..|s| - 1])
  }

  /** Kotlin `trim()`: drops whitespace at both ends and keeps the middle. */
  function Trim(s: string): (r: string)
    ensures |r| <= |s|
    ensures r == [] || (!IsWhitespace(r[0]) && !IsWhitespace(r[|r| - 1]))
    ensures LeadingWhitespace(s) + |r| <= |s|
    ensures r == s[LeadingWhitespace(s)..LeadingWhitespace(s) + |r|]
    ensures forall i :: 0 <= i < LeadingWhitespace(s) ==> IsWhitespace(s[i])
    ensures forall i :: LeadingWhitespace(s) + |r| <= i < |s| ==> IsWhitespace(s[i])
  {
    var tail := s[LeadingWhitespace(s)..];
    tail[..TrailingCut(tail)]
  }

  /** Neither end of `s` is whitespace. */
  predicate IsTrimmed(s: string) {
    s == [] || (!IsWhitespace(s[0]) && !IsWhitespace(s[|s| - 1]))
  }

  /** `trim()` leaves a string as it is exactly when neither end is whitespace. */
  lemma TrimFixedIffTrimmed(s: string)
    ensures Trim(s) == s <==> IsTrimmed(s)
  { }

  /** `trim().isEmpty()` and `isBlank()` agree. */
  lemma TrimEmptyIffBlank(s: string)
    ensures Trim(s) == [] <==> IsBlank(s)
  {
    var n := LeadingWhitespace(s);
    if Trim(s) == [] {
      forall i | 0 <= i < |s| ensures IsWhitespace(s[i]) {
        if i >= n {
          assert n + |Trim(s)| <= i;
        }
      }
    } else {
      assert !IsWhitespace(s[n]);
    }
  }

  /** Trimming twice is trimming once. */
  lemma TrimIdempotent(s: string)
    ensures Trim(Trim(s)) == Trim(s)
  {
    var r := Trim(s);
    if r != [] {
      assert LeadingWhitespace(r) == 0;
      assert TrailingCut(r) == |r|;
    }
  }

  /** Java `toLowerCase` on an ASCII letter; other characters are kept (see
      IsTrueIgnoringCase for why that is exact for the one comparison made). */
  function AsciiLower(c: char): char {
    if 'A' <= c <= 'Z' then (c as int + 32) as char else c
  }

  /** `s.toLowerCase() == "true"`. No character outside ASCII lower-cases to
      one of 't', 'r', 'u', 'e', so only the ASCII letters matter here. */
  predicate IsTrueIgnoringCase(s: string) {
    |s| == 4 && forall i :: 0 <= i < 4 ==> AsciiLower(s[i]) == "true"[i]
  }

  lemma TrueSpellings()
    ensures IsTrueIgnoringCase("true") && IsTrueIgnoringCase("TRUE") && IsTrueIgnoringCase("True")
    ensures !IsTrueIgnoringCase("1") && !IsTrueIgnoringCase("yes") && !IsTrueIgnoringCase("truee")
  {
  }

  // ---------------------------------------------------------------------
  // Decimal numbers
  // ---------------------------------------------------------------------

  /** Kotlin `Int` bounds. */
  const IntMin: int := -0x8000_0000
  const IntMax: int := 0x7FFF_FFFF

  predicate IsDigit(c: char) {
    '0' <= c <= '9'
  }

  predicate AllDigits(s: string) {
    forall i :: 0 <= i < |s| ==> IsDigit(s[i])
  }

  function DigitChar(d: nat): (c: char)
    requires d < 10
    ensures IsDigit(c) && (c as int) - ('0' as int) == d
  {
    ('0' as int + d) as char
  }

  /** The number a string of decimal digits denotes. */
  function DigitsValue(s: string): nat
    requires AllDigits(s)
  {
    if s == [] then 0
    else DigitsValue(s[..|s| - 1]) * 10 + ((s[|s| - 1] as int) - ('0' as int))
  }

  /** `n.toString()` for a non-negative `n`: digits without leading zeros. */
  function NatToString(n: nat): (s: string)
    ensures |s| >= 1 && AllDigits(s)
    ensures s[0] == '0' ==> n == 0
    decreases n
  {
    if n < 10 then [DigitChar(n)] else NatToString(n / 10) + [DigitChar(n % 10)]
  }

  /** `n.toString()` for any integer. */
  function IntToString(n: int): (s: string)
    ensures |s| >= 1
    ensures n < 0 <==> s[0] == '-'
  {
    if n < 0 then "-" + NatToString(-n) else NatToString(n)
  }

  /** The digits of `s` after an optional sign, as a Kotlin `Int` or null. */
  function FromDigits(digits: string, negative: bool): (r: Option<int>)
    ensures r.Some? ==> IntMin <= r.value <= IntMax
  {
    if !AllDigits(digits) then None
    else
      var magnitude: int := DigitsValue(digits);
      var v := if negative then -magnitude else magnitude;
      if IntMin <= v <= IntMax then Some(v) else None
  }

  /** Kotlin `String.toIntOrNull()`: an optional '+' or '-', then at least one
      decimal digit, and the value must fit in an `Int`. */
  function ParseInt(s: string): (r: Option<int>)
    ensures r.Some? ==> IntMin <= r.value <= IntMax
    ensures r.Some? ==> |s| >= 1 && (IsDigit(s[0]) || ((s[0] == '-' || s[0] == '+') && |s| >= 2))
    // what an accepted string denotes: its digits, negated after a '-'
    ensures r.Some? && IsDigit(s[0]) ==> AllDigits(s) && r.value == DigitsValue(s)
    ensures r.Some? && !IsDigit(s[0]) ==>
      && AllDigits(s[1..])
      && r.value == (if s[0] == '-' then -(DigitsValue(s[1..]) as int) else DigitsValue(s[1..]))
    // and every such string within the Int range is accepted
    ensures |s| >= 1 && AllDigits(s) && DigitsValue(s) <= IntMax ==> r == Some(DigitsValue(s))
    ensures |s| >= 2 && s[0] == '-' && AllDigits(s[1..]) && -(DigitsValue(s[1..]) as int) >= IntMin ==>
      r == Some(-(DigitsValue(s[1..]) as int))
    ensures |s| >= 2 && s[0] == '+' && AllDigits(s[1..]) && DigitsValue(s[1..]) <= IntMax ==>
      r == Some(DigitsValue(s[1..]))
  {
    if |s| == 0 then None
    else if s[0] < '0' then
      if |s| == 1 then None
      else if s[0] == '-' then FromDigits(s[1..], true)
      else if s[0] == '+' then FromDigits(s[1..], false)
      else None
    else FromDigits(s, false)
  }

  lemma {:induction false} DigitsValueOfNatToString(n: nat)
    ensures DigitsValue(NatToString(n)) == n
    decreases n
  {
    var s := NatToString(n);
    if n >= 10 {
      DigitsValueOfNatToString(n / 10);
      assert s[..|s| - 1] == NatToString(n / 10);
    }
  }

  /** Printing an `Int` and parsing it back gives the same `Int`. */
  lemma ParseIntOfIntToString(n: int)
    requires IntMin <= n <= IntMax
    ensures ParseInt(IntToString(n)) == Some(n)
  {
    var s := IntToString(n);
    if n < 0 {
      DigitsValueOfNatToString(-n);
      assert s[1..] == NatToString(-n);
    } else {
      DigitsValueOfNatToString(n);
    }
  }

  /** A leading zero does not change the number the digits denote. */
  lemma {:induction false} LeadingZero(t: string)
    requires AllDigits(t)
    ensures AllDigits("0" + t) && DigitsValue("0" + t) == DigitsValue(t)
    decreases |t|
  {
    assert AllDigits("0" + t) by {
      forall i | 0 <= i < |"0" + t| ensures IsDigit(("0" + t)[i]) {
        if i > 0 { assert ("0" + t)[i] == t[i - 1]; }
      }
    }
    if t != [] {
      var u := t[..|t| - 1];
      assert ("0" + t)[..|"0" + t| - 1] == "0" + u;
      assert AllDigits(u) by { assert forall i :: 0 <= i < |u| ==> u[i] == t[i]; }
      LeadingZero(u);
    }
  }

  /** The other spellings `toIntOrNull` accepts read as the canonical one:
      a '+' or a leading zero changes nothing, and a '-' negates. With
      `ParseIntOfIntToString` this fixes the value of every accepted string. */
  lemma ParseIntSpellings(t: string)
    requires |t| >= 1 && AllDigits(t)
    ensures ParseInt("+" + t) == ParseInt(t)
    ensures ParseInt("0" + t) == ParseInt(t)
    ensures ParseInt(t).Some? ==> ParseInt("-" + t) == Some(-ParseInt(t).value)
  {
    assert ("+" + t)[1..] == t;
    assert ("-" + t)[1..] == t;
    LeadingZero(t);
  }

  lemma ParseIntExamples()
    ensures ParseInt("") == None && ParseInt("-") == None && ParseInt("+") == None
    ensures ParseInt("12a") == None && ParseInt(" 1") == None
  {
    assert !AllDigits("12a") by { assert !IsDigit("12a"[2]); }
  }

  /** Non-canonical spellings the id search accepts. */
  lemma ParseIntSpellingExamples()
    ensures ParseInt("007") == Some(7)
    ensures ParseInt("+5") == Some(5)
    ensures ParseInt("-0") == Some(0)
  {
    assert ParseInt("7") == Some(7) by { ParseIntOfIntToString(7); }
    assert ParseInt("07") == Some(7) by { assert "07" == "0" + "7"; ParseIntSpellings("7"); }
    assert "007" == "0" + "07";
    ParseIntSpellings("07");
    assert ParseInt("5") == Some(5) by { ParseIntOfIntToString(5); }
    assert "+5" == "+" + "5";
    ParseIntSpellings("5");
    assert ParseInt("0") == Some(0) by { ParseIntOfIntToString(0); }
    assert "-0" == "-" + "0";
    ParseIntSpellings("0");
  }
}

=== FILE: thread_view.dfy ===
/**
  The inline thread view under a diff line: the registry of comment groups
  it shows, the registry of comment editors it listens to (the main editor
  under the empty group id), the requests its editors send, and the width
  its embedded component takes.
 */
module ThreadViews {
  import opened Basics
  import opened Text
  import opened Domain
  import OneSideDiff

  /** An editor component, by identity. */
  datatype EditorRef = EditorRef(serial: nat)

  /** A group of comments shown in the thread, and whether it was the first
      group created (it then draws no top border). */
  datatype Group = Group(comments: seq<Comment>, isFirst: bool)

  /** The main editor's text, its visibility and whether it draws a top border. */
  datatype MainEditor = MainEditor(text: string, visible: bool, borderTop: bool)

  /** The registries, the main editor, the editor the lazy initializer made
      (None until the first access) and whether the embedded component is shown. */
  datatype ThreadView = ThreadView(
    groups: map<string, Group>,
    editors: map<string, EditorRef>,
    main: MainEditor,
    made: Option<EditorRef>,
    shown: bool)

  /** The key the main editor is registered under. */
  const MainKey: string := ""

  // ---------------------------------------------------------------------
  // group registry
  // ---------------------------------------------------------------------

  /** `getAllGroupOfCommentsIds`. */
  function AllGroupIds(tv: ThreadView): (ids: set<string>)
    ensures forall id :: id in ids <==> id in tv.groups
  {
    tv.groups.Keys
  }

  /** `hasGroupOfComments`. */
  predicate HasGroup(tv: ThreadView, id: string) {
    id in tv.groups
  }

  /** `addGroupOfComments`: the group is (re)registered under its id; it is
      the first group when none was registered before. */
  function AddGroup(tv: ThreadView, id: string, comments: seq<Comment>): (r: ThreadView)
    ensures HasGroup(r, id) && r.groups[id].comments == comments
    ensures r.groups[id].isFirst <==> tv.groups == map[]
    ensures AllGroupIds(r) == AllGroupIds(tv) + {id}
    ensures forall other :: other != id && other in tv.groups ==> other in r.groups && r.groups[other] == tv.groups[other]
    ensures r.editors == tv.editors && r.main == tv.main && r.made == tv.made
  {
    tv.(groups := tv.groups[id := Group(comments, |tv.groups| == 0)])
  }

  /** `updateGroupOfComments`: replaces the comments of a known group;
      nothing for an unknown id. */
  function UpdateGroup(tv: ThreadView, id: string, comments: seq<Comment>): (r: ThreadView)
    ensures id !in tv.groups ==> r == tv
    ensures id in tv.groups ==> r.groups == tv.groups[id := tv.groups[id].(comments := comments)]
    ensures r.editors == tv.editors && r.main == tv.main && r.made == tv.made
  {
    if id in tv.groups then tv.(groups := tv.groups[id := tv.groups[id].(comments := comments)]) else tv
  }

  /** `deleteGroupOfComments`: forgets a known group; nothing for an unknown id. */
  function DeleteGroup(tv: ThreadView, id: string): (r: ThreadView)
    ensures !HasGroup(r, id)
    ensures AllGroupIds(r) == AllGroupIds(tv) - {id}
    ensures forall other :: other != id && other in tv.groups ==> r.groups[other] == tv.groups[other]
    ensures id !in tv.groups ==> r == tv
    ensures r.editors == tv.editors && r.main == tv.main && r.made == tv.made
  {
    if id in tv.groups then tv.(groups := tv.groups - {id}) else tv
  }

  /** Adding then deleting a group that was not there leaves the registry
      as it was; updating after adding is adding the new comments. */
  lemma GroupRegistryLaws(tv: ThreadView, id: string, c1: seq<Comment>, c2: seq<Comment>)
    ensures id !in tv.groups ==> DeleteGroup(AddGroup(tv, id, c1), id) == tv
    ensures UpdateGroup(AddGroup(tv, id, c1), id, c2).groups[id].comments == c2
  {
    if id !in tv.groups {
      assert (tv.groups[id := Group(c1, |tv.groups| == 0)] - {id}) == tv.groups;
    }
  }

  // ---------------------------------------------------------------------
  // editor registry
  // ---------------------------------------------------------------------

  /** The lazy initializer of the main editor: the new editor is registered
      under the empty key (replacing whatever was there), empty and hidden. */
  function MakeMainEditor(tv: ThreadView, editor: EditorRef): (r: ThreadView)
    ensures r.editors == tv.editors[MainKey := editor] && IsMainEditor(r, editor)
    ensures r.made == Some(editor)
    ensures r.main.text == "" && !r.main.visible && r.groups == tv.groups && r.shown == tv.shown
  {
    tv.(editors := tv.editors[MainKey := editor], main := MainEditor("", false, false), made := Some(editor))
  }

  /** A read of `myEditor`: the first one runs the initializer with `created`,
      the editor the factory hands out; later ones change nothing. */
  function AccessMainEditor(tv: ThreadView, created: EditorRef): (r: ThreadView)
    ensures tv.made.None? ==> r == MakeMainEditor(tv, created)
    ensures tv.made.Some? ==> r == tv
    ensures r.made.Some?
  {
    if tv.made.None? then MakeMainEditor(tv, created) else tv
  }

  /** `onEditorCreated`: the group's reply editor is registered under the group id. */
  function EditorCreated(tv: ThreadView, groupId: string, editor: EditorRef): (r: ThreadView)
    ensures groupId in r.editors && r.editors[groupId] == editor
    ensures forall k :: k != groupId ==> (k in r.editors <==> k in tv.editors)
    ensures forall k :: k != groupId && k in tv.editors ==> r.editors[k] == tv.editors[k]
    ensures r.groups == tv.groups && r.main == tv.main && r.made == tv.made
  {
    tv.(editors := tv.editors[groupId := editor])
  }

  /** `onEditorDestroyed`: the group id's editor is forgotten. */
  function EditorDestroyed(tv: ThreadView, groupId: string): (r: ThreadView)
    ensures groupId !in r.editors
    ensures forall k :: k != groupId ==> (k in r.editors <==> k in tv.editors)
    ensures forall k :: k != groupId && k in tv.editors ==> r.editors[k] == tv.editors[k]
    ensures r.groups == tv.groups && r.main == tv.main && r.made == tv.made
  {
    tv.(editors := tv.editors - {groupId})
  }

  /** Whether `editor` is the registered main editor. */
  predicate IsMainEditor(tv: ThreadView, editor: EditorRef) {
    MainKey in tv.editors && tv.editors[MainKey] == editor
  }

  // ---------------------------------------------------------------------
  // requests
  // ---------------------------------------------------------------------

  datatype Side = LeftSide | RightSide

  /** `onCreateCommentRequested(content, logicalLine, side, repliedComment,
      position, isDraft)`; the position is the view's gutter position. */
  datatype CreateRequest = CreateRequest(
    content: string,
    logicalLine: int,
    side: Side,
    repliedComment: Option<Comment>,
    position: Option<OneSideDiff.GutterPosition>,
    isDraft: bool)

  /** The main editor's submit: a new thread at the view's line, side and
      position; an editor that is not the main one sends nothing. */
  function SubmitClicked(tv: ThreadView, editor: EditorRef, isDraft: bool, logicalLine: int, side: Side,
                         position: OneSideDiff.GutterPosition): (r: Option<CreateRequest>)
    ensures r.Some? <==> IsMainEditor(tv, editor)
    ensures r.Some? ==> r.value == CreateRequest(tv.main.text, logicalLine, side, None, Some(position), isDraft)
  {
    if IsMainEditor(tv, editor) then Some(CreateRequest(tv.main.text, logicalLine, side, None, Some(position), isDraft))
    else None
  }

  /** A reply from a group: never a draft, no position, the replied comment. */
  function ReplyRequested(comment: Comment, content: string, logicalLine: int, side: Side): (r: CreateRequest)
    ensures r.repliedComment == Some(comment) && r.position.None? && !r.isDraft
    ensures r.content == content && r.logicalLine == logicalLine && r.side == side
  {
    CreateRequest(content, logicalLine, side, Some(comment), None, false)
  }

  /** What Cancel on an editor did: closed the main editor (telling the
      listeners), kept it open and focused, or nothing. */
  datatype CancelResult = MainEditorClosed | MainEditorFocused | Ignored

  /** `onCancelClicked`: only the main editor reacts. Blank text closes it
      at once; otherwise it closes (cleared, hidden) only when the user
      answers yes to "delete the whole content?". */
  function CancelClicked(tv: ThreadView, editor: EditorRef, answerYes: bool): (r: (ThreadView, CancelResult))
    ensures !IsMainEditor(tv, editor) ==> r == (tv, Ignored)
    ensures IsMainEditor(tv, editor) && (IsBlank(tv.main.text) || answerYes) ==>
      r == (tv.(main := tv.main.(text := "", visible := false)), MainEditorClosed)
    ensures IsMainEditor(tv, editor) && !IsBlank(tv.main.text) && !answerYes ==>
      r == (tv, MainEditorFocused)
  {
    if !IsMainEditor(tv, editor) then (tv, Ignored)
    else
      var shouldHide := if !IsBlank(tv.main.text) then answerYes else true;
      if shouldHide then (tv.(main := tv.main.(text := "", visible := false)), MainEditorClosed)
      else (tv, MainEditorFocused)
  }

  /** Text is never thrown away against the user's answer: after Cancel the
      main editor is either unchanged or its text was blank or the user said
      yes. */
  lemma CancelKeepsTextOnNo(tv: ThreadView, editor: EditorRef, answerYes: bool)
    ensures var r := CancelClicked(tv, editor, answerYes);
      r.0.main.text == tv.main.text || IsBlank(tv.main.text) || answerYes
  {
  }

  /** `resetMainEditor`: the main editor (made on first access, with
      `created`) is emptied and hidden. */
  function ResetMainEditor(tv: ThreadView, created: EditorRef): (r: ThreadView)
    ensures r.main.text == "" && !r.main.visible
    ensures tv.made.Some? ==> r.main.borderTop == tv.main.borderTop && r.editors == tv.editors && r.made == tv.made
    ensures tv.made.None? ==> r.editors == tv.editors[MainKey := created] && r.made == Some(created) && IsMainEditor(r, created)
    ensures r.groups == tv.groups && r.shown == tv.shown
  {
    var t := AccessMainEditor(tv, created);
    t.(main := t.main.(text := "", visible := false))
  }

  /** `showEditor`: the main editor (made on first access, with `created`)
      becomes visible, keeping its text, and draws a top border exactly when
      no group is shown above it. */
  function ShowEditor(tv: ThreadView, created: EditorRef): (r: ThreadView)
    ensures r.main.visible
    ensures r.main.borderTop <==> tv.groups == map[]
    ensures tv.made.Some? ==> r.main.text == tv.main.text && r.editors == tv.editors && r.made == tv.made
    ensures tv.made.None? ==> r.main.text == "" && r.editors == tv.editors[MainKey := created] && r.made == Some(created)
    ensures r.groups == tv.groups && r.shown == tv.shown
  {
    var t := AccessMainEditor(tv, created);
    t.(main := t.main.(visible := true, borderTop := |t.groups| == 0))
  }

  /** Showing the editor after a reset brings back an empty editor, and the
      show does not make a second one. */
  lemma ResetThenShow(tv: ThreadView, created: EditorRef, other: EditorRef)
    ensures var r := ShowEditor(ResetMainEditor(tv, created), other);
      && r.main.visible && r.main.text == ""
      && (r.main.borderTop <==> tv.groups == map[])
      && r.editors == ResetMainEditor(tv, created).editors
  {
  }

  /** The initializer runs once: whichever of reset and show comes first makes
      the main editor, which from then on is the one whose submit and cancel
      are heard, however the reads are interleaved. */
  lemma MainEditorMadeOnce(tv: ThreadView, created: EditorRef, later: EditorRef, isDraft: bool, logicalLine: int,
                           side: Side, position: OneSideDiff.GutterPosition)
    requires tv.made.None?
    ensures ResetMainEditor(ShowEditor(tv, created), later).editors == tv.editors[MainKey := created]
    ensures ShowEditor(ResetMainEditor(tv, created), later).editors == tv.editors[MainKey := created]
    ensures SubmitClicked(ResetMainEditor(tv, created), created, isDraft, logicalLine, side, position).Some?
    ensures SubmitClicked(ShowEditor(tv, created), created, isDraft, logicalLine, side, position).Some?
  {
  }

  /** `show` / `hide`: the embedded component's visibility; nothing else changes. */
  function SetShown(tv: ThreadView, shown: bool): (r: ThreadView)
    ensures r.shown == shown
    ensures r.groups == tv.groups && r.editors == tv.editors && r.main == tv.main && r.made == tv.made
  {
    tv.(shown := shown)
  }

  // ---------------------------------------------------------------------
  // width of the embedded component
  // ---------------------------------------------------------------------

  /** `getVerticalScrollbarWidth`: counted twice unless the scrollbar is flipped. */
  function ScrollbarWidth(width: int, flipped: bool): int {
    if !flipped then width * 2 else width
  }

  /** `getGutterTextGap`: none unless the scrollbar is flipped. */
  function GutterTextGap(flipped: bool, gutterWidth: int, separatorOffset: int): int {
    if flipped then gutterWidth - separatorOffset else 0
  }

  /** `calcWidth`: the visible text width, clamped below by 0 and above by
      the maximum (the right margin in pixels, computed from font metrics). */
  function CalcWidth(viewportWidth: int, scrollbarWidth: int, flipped: bool,
                     gutterWidth: int, separatorOffset: int, maximum: int): (w: int)
    ensures var visible := viewportWidth - ScrollbarWidth(scrollbarWidth, flipped)
                           - GutterTextGap(flipped, gutterWidth, separatorOffset);
      && w <= maximum
      && (maximum >= 0 ==> w >= 0)
      && (0 <= visible <= maximum ==> w == visible)
      && (visible < 0 ==> w == (if maximum < 0 then maximum else 0))
      && (visible > maximum ==> w == maximum)
  {
    var visible := viewportWidth - ScrollbarWidth(scrollbarWidth, flipped)
                   - GutterTextGap(flipped, gutterWidth, separatorOffset);
    Min(Max(visible, 0), maximum)
  }

  function Min(a: int, b: int): (m: int)
    ensures m <= a && m <= b && (m == a || m == b)
  {
    if a <= b then a else b
  }

  function Max(a: int, b: int): (m: int)
    ensures m >= a && m >= b && (m == a || m == b)
  {
    if a >= b then a else b
  }

  /** The width never grows with a wider scrollbar. */
  lemma CalcWidthMonotone(viewportWidth: int, s1: int, s2: int, flipped: bool,
                          gutterWidth: int, separatorOffset: int, maximum: int)
    requires 0 <= s1 <= s2
    ensures CalcWidth(viewportWidth, s2, flipped, gutterWidth, separatorOffset, maximum)
         <= CalcWidth(viewportWidth, s1, flipped, gutterWidth, separatorOffset, maximum)
  {
  }
}
